=== FILE: README.md ===
# makina, modelled in Dafny

makina is a TypeScript state-container library. This project models its core and proves properties of the model:

- **State containers.** `StateContainer` and its older twin `Base` each hold a tree of containers. A root container stores the state. A child container (a "leaf") reads its state through a lens from its source container. It writes back through that lens, and the write climbs to the root.
  - Listeners of a leaf are served by a relay subscribed to the root's shared broadcaster.
  - `createBase(modules)` and the `modules` plugin build one child per key of a mapping.
  - The `states` plugin adds `is` getters and `to` transitions.
  - `BaseInternals` caches a computed state that merges sub-module states.
- **Lenses.** `lensFind`, `lensFilter`, `lensSort` and `splitLensProp`, as get/set pairs.
- **Signal.** `CustomSignal`, the listener list behind every notification.
- **Bare machines.** `createBare` builds a reducer-driven machine. Its scoped apps come from `createScoped`.
- **Selector utilities.** `memoize`, `memoizeOne`, `mergeSelectors`, `combineSelectors`, `createObjectFactory`, `valuesEqual` and `hashGrid`.
- **Reducer utilities.** `combineReducers`, `mergeReducers`, `partializeReducer` and `hasOwnProperties`.
- **Module builders.** `createSimpleModule`, `createCombinedModule`, `createModule`, `onActionTypes` and `compileCallChain`.
- **Plugin installer.** The registry behind the plugins.

JavaScript values are the datatype `Values.Value`. Strict equality `===` is modelled as value equality. A container tree is a `Container.Forest`: a map from container numbers to nodes, plus a log of every listener call, in order. Listeners are numbers; a call to one is recorded, not run.

Modules and files:

| module | file | models |
|---|---|---|
| Values | values.dfy | JS values and their operations |
| Lenses | lenses.dfy | lenses.ts |
| CustomSignal | signal.dfy | CustomSignal.ts |
| Memoization | memo.dfy | memoize.ts, utils.ts |
| Selectors | selectors.dfy | mergeSelectors.ts, combineSelectors.ts, createObjectFactory.ts |
| Scoped | scoped.dfy | createScoped.ts |
| Bare | bare.dfy | createBare.ts |
| Reducers | reducers.dfy | combineReducers.ts, mergeReducers.ts, partializeReducer.ts, hasOwnProperties.ts |
| CallChain | callchain.dfy | compileCallChain.ts |
| ModuleBuilders | modules.dfy | onActionTypes.ts, createSimpleModule.ts, createCombinedModule.ts, createModule.ts |
| Container | container.dfy | StateContainer.ts and Base.ts: state, commit, writes, relays, onStateChange |
| Assembly | assembly.dfy | constructors, `create`, createBase.ts, plugins/modules.ts |
| BaseInternals | internals.dfy | BaseInternals.ts |
| States | states.dfy | plugins/states.ts |
| Installer | installer.dfy | plugins/installer.ts |

## Model

| member | source | states |
|---|---|---|
| Lenses.FindIndex | src/lib/lenses.ts:56 | The index is -1 exactly when nothing matches; otherwise it is a match with no match before it. |
| Lenses.FindView | src/lib/lenses.ts:56-57 | The view of `lensFind` is the first matching element, or undefined when none matches. |
| Lenses.FindSet | src/lib/lenses.ts:63-69 | The setter keeps the length and writes at the first match only; with no match it returns the array itself. |
| Lenses.FindGetPut | src/lib/lenses.ts:53-73 | Setting back the viewed element leaves the array unchanged. |
| Lenses.FindPutGet | src/lib/lenses.ts:53-73 | After a matching replacement is set, the view shows it. |
| Lenses.FindIndexes | src/lib/lenses.ts:127-135 | Exactly the matching positions, strictly increasing. |
| Lenses.SetAtIndexes | src/lib/lenses.ts:137-143 | Keeps the length and leaves unlisted positions alone. With distinct positions, the i-th value lands at the i-th position; missing values become undefined. |
| Lenses.SetOwnValues | src/lib/lenses.ts:137-143 | Writing each position's own value back changes nothing. |
| Lenses.FilterViewIsFilter | src/lib/lenses.ts:82-83 | The view of `lensFilter` equals an independent filter: the matching elements, in order. |
| Lenses.FilterSetWrites | src/lib/lenses.ts:89-91 | The i-th replacement lands at the i-th match and non-matching positions are untouched. With no match the array itself comes back. |
| Lenses.FilterGetPut | src/lib/lenses.ts:79-94 | Setting back the view leaves the array unchanged. |
| Lenses.FilterPutGet | src/lib/lenses.ts:79-94 | A replacement of the right length whose elements all match is exactly what the view then shows. |
| Lenses.DefaultCompare | src/lib/lenses.ts:101-102 | The default comparator answers 1, -1 or 0 exactly as `b < a`, `a < b` or neither holds. |
| Lenses.SortPairs | src/lib/lenses.ts:106-109 | The sorted records are a permutation of the input records. |
| Lenses.SortIndexes | src/lib/lenses.ts:106-119 | The original positions of the sorted elements are distinct, in range, and each holds the element the view shows. |
| Lenses.SortViewSorted | src/lib/lenses.ts:100-110 | For a total preorder, the view is ordered by the comparator and stable: equal elements keep their original order. |
| Lenses.SortSet | src/lib/lenses.ts:116-122 | The i-th value is written at the original position of the i-th sorted element. |
| Lenses.SortGetPut | src/lib/lenses.ts:116-122 | Setting back the unchanged sorted view reproduces the input. |
| Lenses.PropLensLaws | src/lib/lenses.ts:149-156 | For `splitLensProp`: get after set returns the value, every other key is unchanged, and the key set gains only the name. |
| Lenses.PropLensGetPut | src/lib/lenses.ts:149-156 | When the key is already present, setting back its value changes nothing. |
| CustomSignal.HasListeners | src/lib/internal/CustomSignal.ts:21-23 | True exactly when some listener is subscribed. |
| CustomSignal.Subscribe | src/lib/internal/CustomSignal.ts:25-26 | Appends the listener at the end without deduplication; its count grows by one. |
| CustomSignal.IndexOf | src/lib/internal/CustomSignal.ts:28 | -1 exactly when absent; otherwise the first occurrence. |
| CustomSignal.Unsubscribe | src/lib/internal/CustomSignal.ts:27-35 | Answers true exactly when the listener was present; then one occurrence is gone. Otherwise nothing changes. |
| CustomSignal.UnsubscribeOneOccurrence | src/lib/internal/CustomSignal.ts:28-32 | Of two occurrences, one remains subscribed. |
| CustomSignal.UnsubscribeTwice | src/lib/internal/CustomSignal.ts:27-35 | After one subscribe, the first unsubscribe restores the list and answers true; a second one answers false. |
| CustomSignal.Calls | src/lib/internal/CustomSignal.ts:38-49 | One call per listener, in order, with the same arguments. |
| CustomSignal.Dispatch | src/lib/internal/CustomSignal.ts:30-49 | Listeners that subscribe or unsubscribe during a dispatch do not change it: it calls exactly the listeners present at its start, once each, in order. The list it leaves is the one those reactions produce. |
| CustomSignal.Forwarded | src/lib/internal/CustomSignal.ts:38 | Only the first two arguments are kept; missing ones are undefined. |
| CustomSignal.ExtraArgumentsDropped | src/lib/internal/CustomSignal.ts:25-48 | Arguments past `(state, action)` never reach a listener. |
| Memoization.Memoize | src/lib/internal/memoize.ts:8-18 | `fn` runs exactly when the argument differs from the last one, and the argument is remembered. The cache stays consistent with `fn`, and the result is `fn(arg)` except on an undefined first call. |
| Memoization.MemoizeRepeat | src/lib/internal/memoize.ts:11-14 | A repeated argument returns the cached result without running `fn`. |
| Memoization.MemoizeFirstUndefined | src/lib/internal/memoize.ts:9-14 | With no initialised flag, an undefined first argument returns undefined without calling `fn`. |
| Memoization.MemoizeOne | src/lib/internal/utils.ts:6-19 | Always returns `fn(arg)`. It runs `fn` exactly on the first call or a changed argument, and remembers the argument. |
| Memoization.MemoizeOneFirstCallRuns | src/lib/internal/utils.ts:12-17 | The first call always runs `fn`, whatever its argument. |
| Memoization.ValuesEqual | src/lib/internal/utils.ts:31-46 | True exactly when the lengths agree and every element of the first array occurs in the second. |
| Memoization.PermutationsAreValuesEqual | src/lib/internal/utils.ts:31-46 | Arrays that are permutations of each other compare equal. |
| Memoization.ValuesEqualNotPermutation | src/lib/internal/utils.ts:40-45 | With duplicates the check accepts a non-permutation and is not symmetric. |
| Memoization.HashGrid | src/lib/internal/utils.ts:51-62 | The grid has exactly the object's keys, and `v` is in `grid[k]` exactly when `v` is in `map[k]`. |
| Selectors.ObjectFactory | src/lib/internal/createObjectFactory.ts:6-17 | An object whose keys are exactly the listed keys. |
| Selectors.ObjectFactoryDistinct | src/lib/internal/createObjectFactory.ts:13-15 | With distinct keys, `result[keys[i]]` is `values[i]`, or undefined past the values' end. |
| Selectors.Start | src/lib/utils/mergeSelectors.ts:231-233 | The remembered arguments start as `n` holes, all undefined. |
| Selectors.MergeCall | src/lib/utils/mergeSelectors.ts:235-251 | Remembers the current selector results and memoizes the selectors. It records a computed result exactly when one was computed before or some result changed. |
| Selectors.Answers | src/lib/utils/mergeSelectors.ts:238-248 | What the input selectors answer on a call: their results on the state, except that a memoized selector whose cache is still empty answers undefined for an undefined state. Before memoization, or on a defined state, these are exactly the selector results. |
| Selectors.MergeCallCorrect | src/lib/utils/mergeSelectors.ts:236-250 | On every call: once a result exists, or some selector answers something defined, the call returns `merge` of the answers in input order. Otherwise it returns undefined. Before memoization, or on a defined state, the answers are the selector results. |
| Selectors.MemoizedAfterFirstCall | src/lib/utils/mergeSelectors.ts:245-248 | After the first call every input selector is memoized. |
| Selectors.MergeCallFixed | src/lib/utils/mergeSelectors.ts:235-251 | The corrected call always records a computed result and remembers the current selector results. |
| Selectors.MergeCallFixedCorrect | src/lib/utils/mergeSelectors.ts:236-250 | The corrected call returns `merge` of the answers on every call. Before memoization, or on a defined state, these are the selector results. |
| Selectors.UndefinedAfterFirstCall | src/lib/utils/mergeSelectors.ts:245-248 | A second call on an undefined state passes `[undefined]` to `merge`, even though the selector always answers 1: its memoized copy has an empty cache. |
| Selectors.FactoryMergeCall | src/lib/utils/combineSelectors.ts:41-46 | Once a result exists, or some answer is defined, the merge that `combineSelectors` uses yields the factory's object of the answers. |
| Selectors.CombineSelectorsCorrect | src/lib/utils/combineSelectors.ts:35-47 | Under the same condition, on any call, the combined selector returns an object with exactly the mapping's keys, each holding its selector's answer. Before memoization, or on a defined state, that is the selector's result. |
| Selectors.CombineSelectorsFixedCorrect | src/lib/utils/combineSelectors.ts:35-47 | Over the corrected merge, the same holds on every call, the first included, with no condition. |
| Selectors.CombineSelectorsExample | src/lib/utils/mergeSelectors.ts:11-19 | The documented example yields `{ counter: 10, todos: undefined }`. |
| Selectors.FirstCallSkipsMerge | src/lib/utils/mergeSelectors.ts:232-250 | As written, a first call whose selectors all answer undefined returns undefined. The corrected call returns `{ counter: undefined }`. |
| Scoped.FirstCall | src/lib/internal/createScoped.ts:29-31 | The first selector state is the selector's result, or undefined on an undefined parent state. |
| Scoped.Create | src/lib/internal/createScoped.ts:16-74 | A created app carries its name and has no subscribers. A failure names a selector of the tree. |
| Scoped.CreateCorrect | src/lib/internal/createScoped.ts:23-66 | Creation succeeds exactly when no selector in the tree gives two non-`===` results on the state it is created on: the parent's current state, or for a sub-selector its parent app's first state. It then builds one nested app per sub-selector, on this app's state. |
| Scoped.CreateAllCorrect | src/lib/internal/createScoped.ts:57-66 | The same for a list of sub-selectors: all succeed, one app each, or the first failure propagates. |
| Scoped.AllocatesDependsOnState | src/lib/internal/createScoped.ts:23-28 | The same selector throws on a parent state where it allocates and is accepted on one where it does not. |
| Scoped.MemoAnswer | src/lib/internal/createScoped.ts:29-34 | A memoized call returns the selector's answer (undefined on an undefined state with an empty cache), keeps the cache consistent, and leaves the answer unchanged. |
| Scoped.GetState | src/lib/internal/createScoped.ts:33-41 | `getState()` of an outermost app: returns the stored selector state, which is the memoized answer on the live parent state. It keeps the cache consistent and changes no registration. |
| Scoped.GetStateAt | src/lib/internal/createScoped.ts:33-64 | `getState()` of a nested app, whose parent state comes from its parent's `getState()`: the tree keeps its shape and registrations, and the nested apps off the path are untouched. |
| Scoped.GetStateAtMeaning | src/lib/internal/createScoped.ts:33-64 | A nested `getState()` answers the projection at the end of its path. Every app along the path, ancestors included, then holds its answer, with the caches consistent. |
| Scoped.NestedGetStateRefreshesParent | src/lib/internal/createScoped.ts:33-64 | With no subscribers, `todo.done` turns true and the nested `done` app's `getState()` refreshes the `todo` app on the way. A listener then subscribes to the `todo` app, and the change back to the first todo reaches it. |
| Scoped.Subscribe | src/lib/internal/createScoped.ts:43-53 | Appends one wrapper, for this app or a nested one, at the end of the parent's registrations and answers its token, which no earlier registration holds. Tokens stay distinct and no state changes. |
| Scoped.Find | src/lib/internal/CustomSignal.ts:28 | The first registration holding the token, or -1 exactly when none does. |
| Scoped.Unsubscribe | src/lib/internal/CustomSignal.ts:27-35 | The function the parent's `subscribe` returns: answers true exactly when the token's wrapper is registered, and then removes that one wrapper. Otherwise nothing changes. |
| Scoped.SubscribeUnsubscribe | src/lib/internal/createScoped.ts:43-53 | Unsubscribing right after subscribing restores the registrations and answers true; a second call answers false and changes nothing. |
| Scoped.DeliverMeaning | src/lib/internal/createScoped.ts:43-64 | A wrapper made through nested apps calls its listener exactly when every app along its path has a new answer, and then with the projection at the end of the path. The app's shared state becomes its answer. |
| Scoped.BroadcastSilent | src/lib/internal/createScoped.ts:44-51 | Once the shared selector state holds the new answer, no wrapper calls its listener. |
| Scoped.BroadcastFirstOnly | src/lib/internal/createScoped.ts:31-64 | As written, a change reaches at most the first registration, nested or not, with its projection and the action. |
| Scoped.SecondSubscriberMissesChange | src/lib/internal/createScoped.ts:43-53 | Two subscribers and one change: the second is never called. |
| Scoped.NestedSubscriberMissesChange | src/lib/internal/createScoped.ts:43-64 | A nested app's subscriber misses its own change (`done` false to true) once the app's subscriber has heard the app's change. |
| Scoped.GetStateSilencesSubscribers | src/lib/internal/createScoped.ts:35-49 | A `getState()` between a change and its notification silences every subscriber. |
| Scoped.DeliverFixedMeaning | src/lib/internal/createScoped.ts:43-64 | The corrected wrapper hands the projection down its path. It calls its listener exactly when the projection differs from what it last delivered, and remembers it. |
| Scoped.FinalStable | src/lib/internal/createScoped.ts:43-64 | A corrected delivery changes no registration's projection. |
| Scoped.BroadcastFixedCorrect | src/lib/internal/createScoped.ts:43-64 | With per-registration memory, the calls equal an independent reference: every registration whose projection changed since it last heard is called with it, in order. Afterwards each remembers its projection. |
| Scoped.SecondSubscriberNotifiedWhenFixed | src/lib/internal/createScoped.ts:43-53 | With the correction, both subscribers hear the change. |
| Scoped.NestedSubscriberNotifiedWhenFixed | src/lib/internal/createScoped.ts:43-64 | With the correction, the nested subscriber hears `done` turn true. |
| Bare.Create | src/lib/createBare.ts:59-114 | The initial state is the reducer's answer to `{ type: undefined }`, with no listeners and one matching scoped app per selector. Creation throws exactly when some selector allocates on the initial state. |
| Bare.Dispatch | src/lib/createBare.ts:75-83 | Stores the reducer's answer. Answers true exactly when it differs; then every listener is called once with `(state, action)`. Otherwise nothing changes. |
| Bare.DispatchNamed | src/lib/createBare.ts:85-89 | A dispatcher exists exactly for each action creator. It dispatches what the creator returns. |
| Bare.Subscribe | src/lib/createBare.ts:96-103 | Subscribes to the machine's signal and changes no state. |
| Bare.SubscribedListenerNotified | src/lib/createBare.ts:75-103 | A new subscriber hears the next change, last, with the new state. |
| Bare.RepeatDispatchIsQuiet | src/lib/createBare.ts:75-83 | With a settling reducer, repeating an action changes nothing and notifies no one. |
| Bare.RefreshExample | src/lib/createBare.ts:21-38 | The documented machine starts false and `START_REFRESH` makes it true. |
| Reducers.HasOwnProperties | src/lib/internal/hasOwnProperties.ts:18-25 | An empty key list gives undefined. Otherwise the answer is true exactly when the source owns every key; keys are checked literally. |
| Reducers.HasOwnPropertiesExample | src/lib/internal/hasOwnProperties.ts:7-11 | The documented example: false without `lastName`, true with it. |
| Reducers.HasOwnPropertiesAnyOrder | src/lib/internal/hasOwnProperties.ts:21-24 | The generated check depends only on the set of keys. |
| Reducers.IsComplete | src/lib/utils/partializeReducer.ts:21-22 | The completeness check over the default state's keys: undefined for no keys, otherwise inclusion in the state's own keys. |
| Reducers.PartialInput | src/lib/utils/partializeReducer.ts:23-31 | A falsy state becomes undefined. Otherwise every given key and every default key is present, given values win, and a complete state is passed as is. |
| Reducers.Partialize | src/lib/utils/partializeReducer.ts:25-26 | A falsy state reaches the reducer as undefined. |
| Reducers.PartialStateCompleted | src/lib/utils/partializeReducer.ts:29 | A missing default key is filled with its default value. |
| Reducers.CombineReduce | src/lib/utils/combineReducers.ts:32-50 | Each key holds its reducer's answer to its old slice, with an undefined state read as `{}`. Keys outside the mapping are kept, and the same state comes back when no slice changed. |
| Reducers.CombineReducersExample | src/lib/utils/combineReducers.ts:40-48 | The counter and todos reducers combined fill their defaults and increment. |
| Reducers.MergeReduce | src/lib/utils/mergeReducers.ts:32-54 | No key of the state is ever dropped, and the same state comes back when every partialized reducer returns its input. |
| Reducers.MergeLastWins | src/lib/utils/mergeReducers.ts:46-51 | A key the last reducer writes holds that reducer's answer. |
| Reducers.StepLink | src/lib/utils/mergeReducers.ts:47-50 | One step: a key the step's answer owns takes the answer's value; any other key keeps its value. |
| Reducers.MergeReduceValues | src/lib/utils/mergeReducers.ts:45-53 | Every key holds the value given by the last reducer whose answer owns it. A key no answer owns keeps its value in the input state. |
| Reducers.MergeReducersExample | src/lib/utils/mergeReducers.ts:42-52 | `merged(undefined, INCREMENT)` gives `{ counter: 1, todos: [] }`. |
| Reducers.MergeReducersPartialExample | src/lib/utils/mergeReducers.ts:42-52 | `merged({ counter: 10 }, INCREMENT)` is completed with the default `todos`. |
| CallChain.CompileOrder | src/lib/internal/compileCallChain.ts:23-36 | The compiled chain equals an independent pipeline: the last middleware runs first, down to the first, then the implementation. |
| CallChain.CompileEmpty | src/lib/internal/compileCallChain.ts:34 | With an empty chain, the implementation is applied to the action. |
| CallChain.CompileAllPass | src/lib/internal/compileCallChain.ts:28-35 | When every middleware calls `next`, all run, last first, and the implementation is reached. |
| CallChain.PipelineHandsOn | src/lib/internal/compileCallChain.ts:28-35 | In the reference pipeline, the middlewares that run are a prefix of the order. Each receives the action as the one before it handed it on, and the implementation as the last one did. |
| CallChain.CompileHandsOn | src/lib/internal/compileCallChain.ts:28-35 | The same for the compiled chain, last middleware first. |
| CallChain.CompileSameAction | src/lib/internal/compileCallChain.ts:30-31 | When no middleware changes the action, every middleware that runs and the implementation receive the chain's own action. |
| CallChain.OutermostShortCircuits | src/lib/internal/compileCallChain.ts:31 | A middleware that does not call `next` skips the rest of the chain and the implementation. |
| CallChain.CompileAppends | src/lib/internal/compileCallChain.ts:28-35 | Appending middlewares build the data from the last suffix to the first. |
| CallChain.CompileExample | src/lib/internal/compileCallChain.ts:6-15 | The documented chain yields "hello world". |
| ModuleBuilders.OnActionTypesFilters | src/lib/utils/onActionTypes.ts:20-34 | A listed type runs the middleware with its answer. Any other type calls `next()` and returns its answer. |
| ModuleBuilders.TypesOf | src/lib/utils/createSimpleModule.ts:85-87 | One type per action, in key order. |
| ModuleBuilders.CreateSimpleModule | src/lib/utils/createSimpleModule.ts:78-122 | Types in key order and one creator per action name. The middleware count is the module-level ones plus every action's. The reducer is returned unchanged. |
| ModuleBuilders.SimpleModuleCreators | src/lib/utils/createSimpleModule.ts:106-108 | An action without a creator gets one answering `{ type }`; a declared creator is kept. |
| ModuleBuilders.SimpleModuleLevelMiddleware | src/lib/utils/createSimpleModule.ts:91-102 | Module-level middlewares come first. Each runs on the module's own types and the submodules' types, and passes every other action on. |
| ModuleBuilders.SimpleActionMiddleware | src/lib/utils/createSimpleModule.ts:104-114 | An action's middlewares follow the module-level ones and those of earlier actions, in key order. Each is `onActionTypes([type], middleware)`, so it runs only on that action's type. |
| ModuleBuilders.SimpleModuleNoMiddlewares | src/lib/utils/createSimpleModule.ts:83 | With no middleware declared anywhere, the list is empty. |
| ModuleBuilders.SimpleModuleExample | src/lib/utils/createSimpleModule.ts:104-120 | The counter module: `increment(5)` uses its creator, `decrement()` the default one, and there are no middlewares. |
| ModuleBuilders.LocalizedState | src/lib/utils/createCombinedModule.ts:80-81 | A submodule middleware's `getState` reads `io.getState()[name]`. |
| ModuleBuilders.LocalizedTwice | src/lib/utils/createCombinedModule.ts:80-81 | Nested combined modules read the slice of the slice. |
| ModuleBuilders.CreateCombinedModule | src/lib/utils/createCombinedModule.ts:59-97 | The contract covers creators, types, middlewares and the reducer. **Creators:** the union of the submodules', with the last defining module winning. **Types:** as many as all submodules have together. **Middlewares:** counted per module. **Reducer:** gives each name its module's answer and keeps other keys. |
| ModuleBuilders.MergedTypesAt | src/lib/utils/createCombinedModule.ts:74 | The j-th type of the i-th module sits at its offset in the concatenation; duplicates are kept. |
| ModuleBuilders.CombinedTypesAt | src/lib/utils/createCombinedModule.ts:74 | The combined module's types are the submodules' types concatenated in order: module i's j-th type is at the count of types before it plus j. |
| ModuleBuilders.CombinedMiddleware | src/lib/utils/createCombinedModule.ts:76-83 | Each submodule middleware keeps its place and sees its module's slice of the state. |
| ModuleBuilders.CombinedReducerKeeps | src/lib/utils/createCombinedModule.ts:66-89 | When no submodule changes its slice, the same state comes back. |
| ModuleBuilders.CreateModule | src/lib/utils/createModule.ts:63-81 | The case split: reducer only gives the simple module; modules only gives the combined one. With both, the simple parts come first (types, middlewares), combined creators override simple ones, and the reducer is `mergeReducers` of the spec's reducer and the combined one, in that order. With neither, there is no module. |
| ModuleBuilders.MergedModuleReducer | src/lib/utils/createModule.ts:76 | The merged reducer is `mergeReducers(simple.reducer, combined.reducer)`. It never drops a key, and returns the state itself when neither part changes it. |
| ModuleBuilders.MergedModuleReducerValues | src/lib/utils/createModule.ts:76 | Key by key: the combined reducer's answer where it owns the key, else the spec reducer's answer where it owns it, else the input's value. The combined reducer runs on the spec reducer's merged output. |
| ModuleBuilders.ModuleMiddlewareCoversSubmodules | src/lib/utils/createModule.ts:66-67 | A module-level middleware also runs on the submodules' action types. |
| Container.RootOfIsRoot | src/lib/StateContainer.ts:69-71 | Every container shares the broadcaster of a root. |
| Container.SameShapeSameState | src/lib/StateContainer.ts:34-38 | Every container's state is determined by the options and the roots' stored states. |
| Container.Commit | src/lib/StateContainer.ts:152-158 | Answers true exactly when the new state differs from the current one. Otherwise nothing changes. |
| Container.UpdateStateShape | src/lib/StateContainer.ts:204-226 | A write changes no container's options, listeners, relay flag, IO or children. |
| Container.RootWriteStores | src/lib/StateContainer.ts:215-216 | A root write stores the new state. |
| Container.UpdateStateSets | src/lib/StateContainer.ts:209-216 | A write through a lawful lens path becomes the container's state. |
| Container.CommitSets | src/lib/StateContainer.ts:152-158 | After a commit the container's state is the committed one. |
| Container.ClimbToRoot | src/lib/StateContainer.ts:209-214 | A leaf's write is its root's write of the state its setters compute. |
| Container.ChildCommitKeepsSiblings | src/lib/StateContainer.ts:209-214 | A child on a property replaces only that property of its source's state. |
| Container.SiblingUnchanged | src/lib/StateContainer.ts:209-214 | A sibling on another property keeps its state. |
| Container.RunRelaysLog | src/lib/StateContainer.ts:113-117 | Relays log exactly the calls of an independent reference: a leaf's listeners hear its view when it differs from what the leaf recorded. |
| Container.RootWriteLog | src/lib/StateContainer.ts:215-225 | A root write logs the relays' calls, then the root's own listeners with the new state and action. |
| Container.RootWriteRecords | src/lib/StateContainer.ts:113-116 | After a root write, every relayed leaf has recorded its current view. |
| Container.AttachKeeps | src/lib/StateContainer.ts:110-120 | Attaching a relay puts it once in its root's broadcaster. |
| Container.DetachKeeps | src/lib/StateContainer.ts:128-131 | Detaching removes that one entry. |
| Container.OnStateChangeKeeps | src/lib/StateContainer.ts:101-137 | Subscribes the listener and keeps the invariant: a leaf has one relay exactly when it has listeners. No state changes. |
| Container.RemoveListenerKeeps | src/lib/StateContainer.ts:125-133 | Answers whether the listener was subscribed, keeps the same invariant, and changes no state. |
| Container.UpdateStateKeeps | src/lib/StateContainer.ts:204-226 | Writes keep the links and the relay bookkeeping. |
| Container.OtherRootState | src/lib/StateContainer.ts:204-226 | Containers under other roots keep their state. |
| Container.StaleRelayMissesChange | src/lib/StateContainer.ts:109-121 | As written: the child goes 1 to 2 unobserved, a listener subscribes, the child goes back to 1, and the listener is never called. |
| Container.OnStateChangeFixedKeeps | src/lib/StateContainer.ts:101-137 | The corrected `onStateChange` keeps the bookkeeping and keeps every recorded view current. |
| Container.UpdateStateFresh | src/lib/StateContainer.ts:204-226 | Every write keeps every recorded view current. |
| Container.FreshWriteNotifiesChanges | src/lib/StateContainer.ts:113-224 | With current views, a root write notifies exactly the relayed leaves whose view changed, in order, then the root's listeners. |
| Container.FixedRelayHearsChange | src/lib/StateContainer.ts:109-121 | With the correction, the same sequence calls the listener once with 1. |
| Assembly.DefaultIO | src/lib/createBase.ts:28 | A missing IO becomes `{}`; a given one is kept. |
| Assembly.NewSucceeds | src/lib/Base.ts:181-192 | Construction succeeds exactly when every class below forwards `options`. |
| Assembly.NewBuilds | src/lib/createBase.ts:26-39 | A new container gets the next number, its options and the defaulted IO. It has one child per key, each a leaf on that property with IO `{ ...IO, ...IO[key] }`. |
| Assembly.StartedPushesUp | src/lib/StateContainer.ts:85-91 | A leaf whose initial state differs from its view writes it into the parent, keeping the other properties. Otherwise nothing is written. |
| Assembly.MemberState | src/lib/plugins/modules.ts:102-108 | A child built for a key reads that property of its parent's state. |
| Assembly.AddMembersBuild | src/lib/plugins/modules.ts:100-108 | One proper child per key is added and registered under it. |
| Assembly.FirstDropping | src/lib/plugins/modules.ts:100-108 | The keys before it have classes that forward `options` all the way down; the one at it does not. |
| Assembly.UpdateStateLogGrows | src/lib/StateContainer.ts:204-226 | A write only appends to the log of listener calls. |
| Assembly.NewThrows | src/lib/StateContainer.ts:182-201 | A throw during construction leaves the containers as they were at the throw. Old containers keep options, IO and children, the log keeps its calls, and the new container stays numbered. |
| Assembly.CreateInThrows | src/lib/StateContainer.ts:182-201 | The same for `create`, whether the throw came from below or from the class itself. |
| Assembly.AddMembersThrow | src/lib/plugins/modules.ts:100-108 | When adding members throws, the keys before the first whose class drops `options` have their children built and registered. The parent's other children are as they were. |
| Assembly.ThrowKeepsEarlierChild | src/lib/plugins/modules.ts:100-108 | `new App({})` throws for `broken` after the counter child was registered and wrote its default into the app's state. |
| Assembly.FocusLens | src/lib/StateContainer.ts:175-180 | A key becomes `splitLensProp(key)`; a lens is used as given. |
| Assembly.Create | src/lib/StateContainer.ts:167-202 | Succeeds exactly when the class chain forwards `options`. Otherwise it throws naming the class. On success, a leaf on the focus with IO `{ ...this.IO, ...IO }`. |
| Assembly.BaseCreate | src/lib/Base.ts:164-195 | The same, for `Base.create` with a lens. |
| Assembly.CreateRoot | src/lib/StateContainer.ts:21-29 | A root numbered next, built when every class below forwards `options`. |
| Assembly.BaseCommit | src/lib/Base.ts:151-155 | Writes nothing when the state is unchanged. |
| Assembly.BaseCommitSets | src/lib/Base.ts:151-210 | After a commit the container's state is the committed one. |
| Assembly.CounterAppFillsDefault | src/lib/createBase.ts:26-39 | `new App({})` with a counter defaulting to 0 gives `{ counter: 0 }`. |
| Assembly.NestedTodosNotifyApp | src/lib/createBase.spec.ts:97-125 | A todo added through the child reaches the app's listener with the app's whole new state. |
| BaseInternals.OverlayMeaning | src/lib/internal/BaseInternals.ts:49-55 | The copy has exactly the base's keys and the names. Each name holds its sub-state; every other key keeps its value. |
| BaseInternals.CachedRead | src/lib/internal/BaseInternals.ts:46-64 | While up to date, a read returns the cache and changes nothing. |
| BaseInternals.GetComputedCorrect | src/lib/internal/BaseInternals.ts:45-65 | On a consistent tree, a read returns the state worked out from scratch and keeps the tree consistent. A primitive state is returned as is. |
| BaseInternals.ReadTwice | src/lib/internal/BaseInternals.ts:45-65 | A second read returns what the first did. |
| BaseInternals.UpdateState | src/lib/internal/BaseInternals.ts:32-39 | Stores the state and keeps the listeners, with one call per listener. |
| BaseInternals.UpdateStateCorrect | src/lib/internal/BaseInternals.ts:32-39 | Keeps the tree consistent and hands every listener the new computed state. |
| BaseInternals.OnStateChange | src/lib/internal/BaseInternals.ts:41-43 | Subscribes the listener. |
| BaseInternals.StaleParentCache | src/lib/internal/BaseInternals.ts:23-65 | As written: after a read, a listened child's own update leaves the parent serving the child's old state. |
| BaseInternals.GetComputedFixedCorrect | src/lib/internal/BaseInternals.ts:45-65 | With the corrected up-to-date check, a read returns the from-scratch state on every coherent tree. |
| BaseInternals.UpdateStateFixedCorrect | src/lib/internal/BaseInternals.ts:32-39 | The corrected update keeps coherence and hands listeners the new computed state. |
| BaseInternals.ChildUpdateReachesParent | src/lib/internal/BaseInternals.ts:23-30 | With the correction, the parent's next read after a child's update is the from-scratch state. |
| BaseInternals.FixedParentCache | src/lib/internal/BaseInternals.ts:23-65 | The same sequence as the stale case serves the new child state. |
| States.Getters | src/lib/plugins/states.ts:94-104 | One `is` flag per state name, each read from the current state independently. |
| States.Permitted | src/lib/plugins/states.ts:120-122 | An empty `from` is never permitted. A throw names a listed source that the plain-object lookup does not resolve to something with an `is` method. |
| States.PermittedMeaning | src/lib/plugins/states.ts:119-125 | True exactly when a source holds before any unresolved one; throws exactly when an unresolved source comes first, naming it. The inherited `constructor` resolves to `Object`, whose `is` holds on an undefined state. |
| States.InheritedSources | src/lib/plugins/states.ts:120-121 | A `constructor` source passes exactly on an undefined state; a `toString` source throws. |
| States.To | src/lib/plugins/states.ts:118-130 | An unknown name is not a transition. A false answer changes nothing. The answer is true exactly when permitted and the setter's result differs from the current state. |
| States.ToSets | src/lib/plugins/states.ts:127-130 | A true answer leaves the container in the state the setter returned. |
| States.ToTurnsGetterOn | src/lib/plugins/states.ts:100-130 | A setter landing in a state its predicate accepts turns that `is` flag on. |
| States.ToNotifiesRoot | src/lib/plugins/states.ts:127-130 | On a root, the relays' calls come first, then the root's listeners with the new state and the state's name as the action. |
| States.DoorExample | src/lib/plugins/states.ts:112-135 | A closed door opens and `is.opened` turns on; opening again answers false and changes nothing. |
| States.MisspelledSourceThrows | src/lib/plugins/states.ts:120-121 | An unknown source reached first throws. |
| Installer.InstallTwiceFails | src/lib/plugins/installer.ts:12-16 | A name installed with a truthy factory cannot be installed again. |
| Installer.InheritedNameRefused | src/lib/plugins/installer.ts:6-14 | As written, an empty registry refuses `constructor` and `toString`. |
| Installer.FalsyFactoryReplaced | src/lib/plugins/installer.ts:12-16 | As written, a name whose factory is falsy counts as free. |
| Installer.InstallFixed | src/lib/plugins/installer.ts:8-17 | Fails exactly on an own name. Otherwise it registers the factory under the name and keeps every other entry. |
| Installer.InstallAllSucceeds | src/lib/plugins/installer.ts:8-17 | A series of installs succeeds exactly when the names are distinct and new, and then registers them all. |
| Installer.InheritedNameAccepted | src/lib/plugins/installer.ts:6 | With the correction, the empty registry accepts any name. |
| Installer.FixedAgrees | src/lib/plugins/installer.ts:12-16 | Away from inherited names and falsy factories, the correction agrees with the original. |

## Left out

- Lenses: the functor (`Const`/`Identity`) encoding behind `view` and `set`, and `lensToSplitLens`. Lenses are get/set pairs.
- Lenses.Less: JavaScript `<` is modelled on two numbers or two strings only. Mixed-type comparisons and coercions are left out. Strings compare in code-point order, not UTF-16 code-unit order, so they can differ on characters outside the Basic Multilingual Plane.
- Values: numbers are integers. NaN, fractions and floating point are not modelled.
  - Own keys are those of objects only. Array indices and string positions are left out.
  - Reading a property of `undefined` or `null` yields undefined, where JavaScript throws a TypeError.
- Reference identity: `===` on objects is value equality throughout. So "a fresh object each call" (createObjectFactory) and "merge receives a copy of the argument array" (mergeSelectors) are not expressible.
- `config.freeze` is the identity wherever it appears.
- Promises, `ready`, `init` and `taskRunner` are left out; middlewares and the implementation run synchronously.
- Listeners are numbers whose calls are logged. A listener that writes back into a container while it is being notified is not modelled.
- CustomSignal.Dispatch is the only place where listeners react during a dispatch (by subscribing or unsubscribing).
- The `depth` argument of the broadcaster's `subscribe` is ignored, as CustomSignal ignores it. The `target` and `source` arguments of container listeners are dropped.
- The `@umoja/filterable` wrapping in the static `create`, and therefore action-name prefixes such as `Todos:todoAdded`, are left out.
- A numeric key given to `StateContainer.create` is not modelled (keys are strings).
- Subclass constructors are described by their effect on the state they hand to the base constructor. Anything else a subclass does in its constructor is left out. An IO of `null` is treated like undefined.
- Assembly: the model assumes the child stored under a key is the one whose state `BaseInternals` reads as `owner[name].state`.
- `src/lib/create.ts`, createSpecializedDispatchers, extendSelector, mapObjectPropRecursive, and the `src/index.ts` wiring are not part of this model.
- `src/lib/plugins/index.ts` keeps a registry object of its own; only the installer's registry is modelled.
- `createBase({ states, transitions })` in the index tests treats its argument as a modules mapping; that usage is not modelled.
- States: the decorator's class wrapping is represented by functions that take the state table. Getters are evaluated on demand.
- States.To: `to` is a plain object too, so `to.constructor` or `to.toString` can be called. They are not transitions and change nothing. The model answers `NotATransition` for every name missing from the table.
- Assembly.AddMembers: `this[name] = ...` is an ordinary property write on the container. A module key that names an accessor without a setter (`state`) throws in the class body's strict mode. A key that names a method (`commit`, `create`, `subscribe`) replaces that method on the instance. The model accepts every key and stores the child in a separate `members` map.
- Installer.Install: the as-written check carries no contract of its own. Its behaviour is stated by InstallTwiceFails, InheritedNameRefused, FalsyFactoryReplaced and FixedAgrees.
- Scoped: a scoped app's `dispatch` is the parent's function, handed on unchanged. It is not a separate member.
- Scoped: the parent's subscription list is the outermost app's list of registrations, delivered in order. Listeners subscribed to the parent directly, between the wrappers, are not part of that list.
- CallChain.Wrap: `next(a1, subnext)` hands on the very action object the middleware received, so a middleware changes it only by mutating it in place. This is modelled as the middleware handing on an updated value. An `after` continuation sees the chain's result, not later mutations of the action. A handed-on value need not be one a mutation could produce.
- CallChain.Decision: a middleware calls `next` at most once. The source's `next` can be called any number of times (a retry, say), each call running the later middlewares and the implementation again; repeated calls are not modelled.
- Bare.Create: `Object.assign(dispatch, dispatchers)` throws a TypeError when an action creator is named `name` or `length`, because those are read-only properties of the `dispatch` function. The model gives such a creator its dispatcher and does not model that failure.
- Bare.Create: the nested scoped apps are built, but the wiring of their notifications into `dispatch` is described only by Scoped.Broadcast, on one app tree.
- Reducers.Partialize: the default key set is recomputed from the pure reducer on each call, not captured once at creation. For a pure reducer the two agree.
- Reducers.HasOwnProperties: the short-circuit of the generated `&&` has no observable effect on a pure model.
- ModuleBuilders.OnActionTypes: how many times `middleware(io)` runs per io binding is not observable in the model.

## Findings

| source | as written | input that shows it | evidently intended | confidence | as-written member | corrected member |
|---|---|---|---|---|---|---|
| src/lib/utils/mergeSelectors.ts:232-250 | The remembered arguments start as holes (undefined). `merge` runs only when some result differs from them, so the first call returns undefined if every selector answers undefined. | `combineSelectors({ counter: s => s.counter })` applied to `{}` | `{ counter: undefined }`: merge on the first call | medium, not executed | Selectors.MergeCall, Selectors.FirstCallSkipsMerge | Selectors.MergeCallFixed, Selectors.CombineSelectorsFixedCorrect |
| src/lib/internal/createScoped.ts:31-64 | Every subscriber's wrapper compares against the one shared `selectorState` and updates it. After the first wrapper stores a change, the later ones see nothing new. Nested apps subscribe through this wrapper, so their subscribers are silenced too. | a scoped app with two subscribers, parent state `counter` 0 to 1; or a subscriber on the app and one on its nested `done` app, `done` false to true | every subscriber hears each change of its projection | high, not executed | Scoped.Broadcast, Scoped.SecondSubscriberMissesChange, Scoped.NestedSubscriberMissesChange | Scoped.BroadcastFixed, Scoped.SecondSubscriberNotifiedWhenFixed, Scoped.NestedSubscriberNotifiedWhenFixed |
| src/lib/StateContainer.ts:109-121 (same in src/lib/Base.ts:108-120) | A leaf's `_state` is refreshed only by its relay. When the relay is attached, the leaf compares against a view recorded before unobserved writes. | child `count` 1 to 2 with no listener, then `onStateChange`, then 2 to 1 | the new listener is called with 1 | high, not executed | Container.OnStateChange, Container.StaleRelayMissesChange | Container.OnStateChangeFixed, Container.FixedRelayHearsChange |
| src/lib/internal/BaseInternals.ts:23-65 | A parent's cache counts as up to date when every sub-module reports up to date. A sub-module that recomputed after its own update reports up to date again. | parent `{ c: child }` read once, then the listened child updates 1 to 2 | the parent's next read gives `{ c: 2 }` | medium, not executed | BaseInternals.GetComputed, BaseInternals.StaleParentCache | BaseInternals.GetComputedFixed, BaseInternals.ChildUpdateReachesParent |
| src/lib/plugins/installer.ts:6-14 | The registry is a plain object, so `plugins[name]` also finds inherited methods. | `install({ name: 'constructor', ... })` on the empty registry throws "already installed" | only own entries count as installed | low, not executed | Installer.Install, Installer.InheritedNameRefused | Installer.InstallFixed, Installer.InheritedNameAccepted |

=== FILE: assembly.dfy ===
/**
 * Building containers: the constructor of `StateContainer` / `Base`, the
 * `create` method that builds a child on a part of the state, and the
 * children that `createBase(modules)` and the `modules` plugin build for
 * each key of their mapping.
 *
 * A class is described by what its constructor does with the arguments it
 * receives: the initial state it hands to the base constructor, whether it
 * forwards the `options` argument, and the child classes its base creates.
 */
module Assembly {
  import opened Values
  import opened CustomSignal
  import opened Container
  import Lenses

  /**
   * A container class: its name, whether its constructor forwards `options`
   * to the base constructor, what initial state it passes on (the identity
   * for a plain subclass, a default for `constructor(initialState = 0)`),
   * and the keyed child classes of `createBase(modules)` / `modules(...)`.
   */
  datatype Class = Class(name: string, forwardsOptions: bool, initial: Value -> Value, modules: seq<Member>)

  /** One key of a modules mapping. */
  datatype Member = Member(key: string, cls: Class)

  /** The error `create` throws when the class's constructor dropped `options`. */
  datatype BuildError = MissingOptions(className: string)

  /**
   * A throw during construction, with the containers as they stood when it
   * was thrown: what the constructors before it did (containers numbered,
   * children registered, states written up into live parents) is not undone.
   */
  datatype Thrown = Thrown(cause: BuildError, forest: Forest)

  /** Where a child reads its state from. */
  datatype Source = Source(node: NodeId, lens: StateLens)

  /** The constructor's `IO = {}` default. */
  function DefaultIO(io: Value): (r: Value)
    ensures io != Undefined ==> r == io
    ensures r != Undefined
  {
    if io == Undefined then Obj(map[]) else io
  }

  /** The options the base constructor settles on: a leaf only when a source arrived. */
  function OptionsFor(cls: Class, source: Option<Source>): Options {
    if source.Some? && cls.forwardsOptions then LeafOptions(source.value.node, source.value.lens)
    else RootOptions(Empty)
  }

  /**
   * `new cls(initialState, IO, options)`: the container gets the next number;
   * a leaf whose lens view differs from the state it was given writes that
   * state up through its lens (action `new <name>`); then the children are
   * created one key after the other.
   */
  function New(f: Forest, cls: Class, init: Value, io: Value, source: Option<Source>): (r: Result<(Forest, NodeId), Thrown>)
    decreases cls, 2
  {
    var built := AddMembers(Started(f, cls, init, io, source), f.next, cls.modules);
    if built.Failure? then Failure(built.error) else Success((built.value, f.next))
  }

  /** The base constructor: the new container, and the write of a leaf's initial state. */
  function Started(f: Forest, cls: Class, init: Value, io: Value, source: Option<Source>): Forest {
    var s := cls.initial(init);
    var id := f.next;
    var opts := OptionsFor(cls, source);
    var f1 := Forest(f.nodes[id := Node(opts, s, Empty, false, DefaultIO(io), map[])], id + 1, f.log);
    if opts.LeafOptions? && StateOf(f1, id) != s then UpdateState(f1, id, s, "new " + cls.name) else f1
  }

  /**
   * `create(lens, cls, IO)`: a new `cls` on the lens view of the parent's
   * state, with IO `{ ...this.IO, ...IO }`; it throws when the new container
   * came out as a root because its constructor did not forward `options`.
   */
  function CreateIn(f: Forest, parent: NodeId, lens: StateLens, cls: Class, io: Value): (r: Result<(Forest, NodeId), Thrown>)
    decreases cls, 3
  {
    var pio := if parent in f.nodes then f.nodes[parent].io else Undefined;
    var made := New(f, cls, lens.get(StateOf(f, parent)), Spread(pio, io), Some(Source(parent, lens)));
    if made.Failure? then made
    else if !cls.forwardsOptions then Failure(Thrown(MissingOptions(cls.name), made.value.0))
    else made
  }

  /** `this[key] = child`. */
  function Register(f: Forest, parent: NodeId, key: string, child: NodeId): (r: Forest)
    ensures r.nodes.Keys == f.nodes.Keys
  {
    if parent in f.nodes
    then f.(nodes := f.nodes[parent := f.nodes[parent].(members := f.nodes[parent].members[key := child])])
    else f
  }

  /** `this[name] = this.create(splitLensProp(name), modules[name], IO[name])` for each key in order. */
  function AddMembers(f: Forest, parent: NodeId, mods: seq<Member>): (r: Result<Forest, Thrown>)
    decreases mods, 1
  {
    if mods == [] then Success(f)
    else
      var m := mods[0];
      var pio := if parent in f.nodes then f.nodes[parent].io else Undefined;
      var made := CreateIn(f, parent, Lenses.PropLens(m.key), m.cls, Get(pio, m.key));
      if made.Failure? then Failure(made.error)
      else
        AddMembers(Register(made.value.0, parent, m.key, made.value.1), parent, mods[1..])
  }

  // --------------------------------------------------------------- success

  /** Every class below the mapping forwards `options` to its base constructor. */
  predicate Forwarding(mods: seq<Member>)
    decreases mods
  {
    forall i :: 0 <= i < |mods| ==> mods[i].cls.forwardsOptions && Forwarding(mods[i].cls.modules)
  }

  lemma ForwardingCons(mods: seq<Member>)
    requires mods != []
    ensures Forwarding(mods) <==>
            mods[0].cls.forwardsOptions && Forwarding(mods[0].cls.modules) && Forwarding(mods[1..])
  {
    if mods[0].cls.forwardsOptions && Forwarding(mods[0].cls.modules) && Forwarding(mods[1..]) {
      forall i | 0 <= i < |mods| ensures mods[i].cls.forwardsOptions && Forwarding(mods[i].cls.modules) {
        if i > 0 {
          assert mods[i] == mods[1..][i - 1];
        }
      }
    }
  }

  /** Construction succeeds exactly when every class below forwards `options`. */
  lemma {:induction false} NewSucceeds(f: Forest, cls: Class, init: Value, io: Value, source: Option<Source>)
    ensures New(f, cls, init, io, source).Success? <==> Forwarding(cls.modules)
    decreases cls, 2
  {
    AddMembersSucceed(Started(f, cls, init, io, source), f.next, cls.modules);
  }

  /** `create` succeeds exactly when the class and every class below it forward `options`. */
  lemma {:induction false} CreateInSucceeds(f: Forest, parent: NodeId, lens: StateLens, cls: Class, io: Value)
    ensures CreateIn(f, parent, lens, cls, io).Success? <==> cls.forwardsOptions && Forwarding(cls.modules)
    decreases cls, 3
  {
    var pio := if parent in f.nodes then f.nodes[parent].io else Undefined;
    NewSucceeds(f, cls, lens.get(StateOf(f, parent)), Spread(pio, io), Some(Source(parent, lens)));
  }

  lemma {:induction false} AddMembersSucceed(f: Forest, parent: NodeId, mods: seq<Member>)
    ensures AddMembers(f, parent, mods).Success? <==> Forwarding(mods)
    decreases mods, 1
  {
    if mods != [] {
      var m := mods[0];
      var pio := if parent in f.nodes then f.nodes[parent].io else Undefined;
      ForwardingCons(mods);
      CreateInSucceeds(f, parent, Lenses.PropLens(m.key), m.cls, Get(pio, m.key));
      var made := CreateIn(f, parent, Lenses.PropLens(m.key), m.cls, Get(pio, m.key));
      if made.Success? {
        AddMembersSucceed(Register(made.value.0, parent, m.key, made.value.1), parent, mods[1..]);
      }
    }
  }

  // ------------------------------------------------------------- structure

  function KeySet(mods: seq<Member>): (r: set<string>)
    ensures forall k :: k in r <==> exists i :: 0 <= i < |mods| && mods[i].key == k
    decreases |mods|
  {
    if mods == [] then {} else
      assert forall i :: 0 < i < |mods| ==> mods[i] == mods[1..][i - 1];
      {mods[0].key} + KeySet(mods[1..])
  }

  /** Old containers keep their options and IO; numbering and the log of listener calls only grow. */
  ghost predicate Keeps(f: Forest, g: Forest) {
    && f.nodes.Keys <= g.nodes.Keys && f.next <= g.next && f.log <= g.log
    && (forall x :: x in f.nodes ==> g.nodes[x].options == f.nodes[x].options && g.nodes[x].io == f.nodes[x].io)
  }

  /** Old containers other than `except` keep their children. */
  ghost predicate MembersKept(f: Forest, g: Forest, except: set<NodeId>)
    requires f.nodes.Keys <= g.nodes.Keys
  {
    forall x :: x in f.nodes && x !in except ==> g.nodes[x].members == f.nodes[x].members
  }

  /**
   * The child under `key` of `p` is a leaf of `p` reading property `key`,
   * with IO `{ ...p.IO, ...p.IO[key] }`.
   */
  ghost predicate ChildOk(g: Forest, p: NodeId, key: string) {
    && p in g.nodes && key in g.nodes[p].members
    && g.nodes[p].members[key] in g.nodes
    && g.nodes[g.nodes[p].members[key]].options == LeafOptions(p, Lenses.PropLens(key))
    && g.nodes[g.nodes[p].members[key]].io == Spread(g.nodes[p].io, Get(g.nodes[p].io, key))
  }

  lemma ChildOkKept(f: Forest, g: Forest, p: NodeId, key: string)
    requires ChildOk(f, p, key) && Keeps(f, g)
    requires key in g.nodes[p].members && g.nodes[p].members[key] == f.nodes[p].members[key]
    ensures ChildOk(g, p, key)
  {
  }

  lemma RegisterFacts(f: Forest, parent: NodeId, key: string, child: NodeId)
    requires Linked(f) && parent in f.nodes
    ensures Linked(Register(f, parent, key, child)) && Keeps(f, Register(f, parent, key, child))
    ensures MembersKept(f, Register(f, parent, key, child), {parent})
    ensures Register(f, parent, key, child).nodes[parent].members == f.nodes[parent].members[key := child]
  {
  }

  lemma WriteFacts(f: Forest, id: NodeId, v: Value, action: string)
    requires Linked(f)
    ensures Linked(UpdateState(f, id, v, action)) && Keeps(f, UpdateState(f, id, v, action))
    ensures MembersKept(f, UpdateState(f, id, v, action), {})
    ensures UpdateState(f, id, v, action).next == f.next
  {
    UpdateStateShape(f, id, v, action);
    UpdateStateLogGrows(f, id, v, action);
  }

  /** The relays only append to the log. */
  lemma {:induction false} RunRelaysLogGrows(f: Forest, relays: seq<NodeId>, action: string)
    ensures f.log <= RunRelays(f, relays, action).log
    decreases |relays|
  {
    if relays != [] {
      RunRelaysLogGrows(Relay(f, relays[0], action), relays[1..], action);
    }
  }

  /** A write only appends to the log: listener calls already made stay made. */
  lemma {:induction false} UpdateStateLogGrows(f: Forest, id: NodeId, v: Value, action: string)
    ensures f.log <= UpdateState(f, id, v, action).log
    decreases id
  {
    if id in f.nodes {
      match f.nodes[id].options
      case LeafOptions(src, lens) =>
        if src < id {
          UpdateStateLogGrows(f, src, lens.put(v, StateOf(f, src)), action);
        }
      case RootOptions(b) =>
        var stored := f.(nodes := f.nodes[id := f.nodes[id].(state := v)]);
        RunRelaysLogGrows(stored, b.listeners, action);
    }
  }

  lemma StartedFacts(f: Forest, cls: Class, init: Value, io: Value, source: Option<Source>)
    requires Linked(f) && (source.Some? ==> source.value.node in f.nodes)
    ensures var g := Started(f, cls, init, io, source);
            && Linked(g) && Keeps(f, g) && MembersKept(f, g, {})
            && f.next in g.nodes && g.next == f.next + 1
            && g.nodes[f.next].options == OptionsFor(cls, source)
            && g.nodes[f.next].io == DefaultIO(io)
            && g.nodes[f.next].members == map[]
  {
    var s := cls.initial(init);
    var id := f.next;
    var opts := OptionsFor(cls, source);
    var f1 := Forest(f.nodes[id := Node(opts, s, Empty, false, DefaultIO(io), map[])], id + 1, f.log);
    assert Linked(f1) && Keeps(f, f1) && MembersKept(f, f1, {});
    var st := Started(f, cls, init, io, source);
    if opts.LeafOptions? && StateOf(f1, id) != s {
      var g := UpdateState(f1, id, s, "new " + cls.name);
      assert st == g;
      WriteFacts(f1, id, s, "new " + cls.name);
      KeepsTrans(f, f1, g);
      assert g.nodes[id].options == opts && g.nodes[id].io == DefaultIO(io) && g.nodes[id].members == map[];
    } else {
      assert st == f1;
    }
  }

  lemma KeepsTrans(f: Forest, g: Forest, h: Forest)
    requires Keeps(f, g) && MembersKept(f, g, {}) && Keeps(g, h) && MembersKept(g, h, {})
    ensures Keeps(f, h) && MembersKept(f, h, {})
  {
  }

  /**
   * A constructed container is numbered `next`, has the options the base
   * constructor settles on and the defaulted IO, and has one child per key of
   * its modules, each a leaf on that property with the IO entry for the key
   * spread over its own IO.
   */
  lemma {:induction false} NewBuilds(f: Forest, cls: Class, init: Value, io: Value, source: Option<Source>)
    requires Linked(f) && (source.Some? ==> source.value.node in f.nodes)
    ensures New(f, cls, init, io, source).Success? ==>
              var (g, id) := New(f, cls, init, io, source).value;
              && Linked(g) && Keeps(f, g) && MembersKept(f, g, {})
              && id == f.next && id in g.nodes
              && g.nodes[id].options == OptionsFor(cls, source)
              && g.nodes[id].io == DefaultIO(io)
              && g.nodes[id].members.Keys == KeySet(cls.modules)
              && (forall k :: k in g.nodes[id].members ==> ChildOk(g, id, k))
    decreases cls, 2
  {
    StartedFacts(f, cls, init, io, source);
    AddMembersBuild(Started(f, cls, init, io, source), f.next, cls.modules);
  }

  /** `g` holds a new leaf `c` of `parent` with the given lens and `{ ...parent.IO, ...io }`, and nothing old changed shape. */
  ghost predicate Created(f: Forest, parent: NodeId, lens: StateLens, io: Value, g: Forest, c: NodeId)
    requires parent in f.nodes
  {
    && Linked(g) && Keeps(f, g) && MembersKept(f, g, {})
    && c == f.next && c in g.nodes
    && g.nodes[c].options == LeafOptions(parent, lens)
    && g.nodes[c].io == Spread(f.nodes[parent].io, io)
  }

  /** `create` makes a leaf of the parent with the given lens and `{ ...this.IO, ...IO }`. */
  lemma {:induction false} CreateInBuilds(f: Forest, parent: NodeId, lens: StateLens, cls: Class, io: Value)
    requires Linked(f) && parent in f.nodes
    ensures CreateIn(f, parent, lens, cls, io).Success? ==>
              var (g, c) := CreateIn(f, parent, lens, cls, io).value;
              && Created(f, parent, lens, io, g, c)
              && g.nodes[c].members.Keys == KeySet(cls.modules)
    decreases cls, 3
  {
    NewBuilds(f, cls, lens.get(StateOf(f, parent)), Spread(f.nodes[parent].io, io), Some(Source(parent, lens)));
  }

  /**
   * `g` extends `f` with children of `parent` under `keys`: every key added is
   * a proper child and every earlier proper child not replaced stays one.
   */
  ghost predicate Extended(f: Forest, g: Forest, parent: NodeId, keys: set<string>)
    requires parent in f.nodes
  {
    && Linked(g) && Keeps(f, g) && MembersKept(f, g, {parent})
    && g.nodes[parent].members.Keys == f.nodes[parent].members.Keys + keys
    && (forall k :: k in g.nodes[parent].members && (k in keys || ChildOk(f, parent, k)) ==> ChildOk(g, parent, k))
  }

  lemma ExtendedTrans(f: Forest, f2: Forest, g: Forest, parent: NodeId, keys1: set<string>, keys2: set<string>)
    requires parent in f.nodes
    requires Extended(f, f2, parent, keys1) && Extended(f2, g, parent, keys2)
    ensures Extended(f, g, parent, keys1 + keys2)
  {
  }

  /** One key: the child is created and registered, and the other children stay as they were. */
  lemma AddMemberStep(f: Forest, parent: NodeId, key: string, f1: Forest, c: NodeId)
    requires Linked(f) && parent in f.nodes
    requires Created(f, parent, Lenses.PropLens(key), Get(f.nodes[parent].io, key), f1, c)
    ensures Extended(f, Register(f1, parent, key, c), parent, {key})
  {
    var f2 := Register(f1, parent, key, c);
    RegisterFacts(f1, parent, key, c);
    forall k | k != key && ChildOk(f, parent, k) ensures ChildOk(f2, parent, k) {
      ChildOkKept(f, f2, parent, k);
    }
  }

  lemma {:induction false} AddMembersBuild(f: Forest, parent: NodeId, mods: seq<Member>)
    requires Linked(f) && parent in f.nodes
    ensures AddMembers(f, parent, mods).Success? ==> Extended(f, AddMembers(f, parent, mods).value, parent, KeySet(mods))
    decreases mods, 1
  {
    if mods == [] {
      assert Keeps(f, f) && MembersKept(f, f, {parent});
    } else {
      var m := mods[0];
      var pio := f.nodes[parent].io;
      CreateInBuilds(f, parent, Lenses.PropLens(m.key), m.cls, Get(pio, m.key));
      var made := CreateIn(f, parent, Lenses.PropLens(m.key), m.cls, Get(pio, m.key));
      if made.Success? {
        var f2 := Register(made.value.0, parent, m.key, made.value.1);
        AddMemberStep(f, parent, m.key, made.value.0, made.value.1);
        AddMembersBuild(f2, parent, mods[1..]);
        assert KeySet(mods) == {m.key} + KeySet(mods[1..]);
        if AddMembers(f2, parent, mods[1..]).Success? {
          ExtendedTrans(f, f2, AddMembers(f2, parent, mods[1..]).value, parent, {m.key}, KeySet(mods[1..]));
        }
      }
    }
  }

  // ---------------------------------------------------------------- throws

  /** The position of the first key whose class chain drops `options`, or the number of keys. */
  function FirstDropping(mods: seq<Member>): (r: nat)
    ensures r <= |mods|
    ensures forall i :: 0 <= i < r ==> mods[i].cls.forwardsOptions && Forwarding(mods[i].cls.modules)
    ensures r < |mods| ==> !(mods[r].cls.forwardsOptions && Forwarding(mods[r].cls.modules))
    decreases |mods|
  {
    if mods == [] then 0
    else if !(mods[0].cls.forwardsOptions && Forwarding(mods[0].cls.modules)) then 0
    else
      var r := 1 + FirstDropping(mods[1..]);
      assert forall i :: 1 <= i < |mods| ==> mods[i] == mods[1..][i - 1];
      r
  }

  /** Past a key whose class chain forwards `options`, the keys before the first dropping one go on from the next. */
  lemma FirstDroppingCons(mods: seq<Member>)
    requires mods != [] && mods[0].cls.forwardsOptions && Forwarding(mods[0].cls.modules)
    ensures FirstDropping(mods) == 1 + FirstDropping(mods[1..])
    ensures mods[..FirstDropping(mods)] == [mods[0]] + mods[1..][..FirstDropping(mods[1..])]
    ensures ([mods[0]] + mods[1..][..FirstDropping(mods[1..])])[1..] == mods[1..][..FirstDropping(mods[1..])]
  {
    var n := FirstDropping(mods[1..]);
    assert mods[..1 + n] == [mods[0]] + mods[1..][..n];
  }

  /**
   * A constructor that throws leaves what ran before the throw in place: the
   * old containers keep their options, IO and children, the log keeps every
   * listener call already made, and the new container stays numbered.
   */
  lemma {:induction false} NewThrows(f: Forest, cls: Class, init: Value, io: Value, source: Option<Source>)
    requires Linked(f) && (source.Some? ==> source.value.node in f.nodes)
    ensures New(f, cls, init, io, source).Failure? ==>
              var g := New(f, cls, init, io, source).error.forest;
              && Linked(g) && Keeps(f, g) && MembersKept(f, g, {})
              && f.next in g.nodes && f.next < g.next
    decreases cls, 2
  {
    var f1 := Started(f, cls, init, io, source);
    StartedFacts(f, cls, init, io, source);
    AddMembersThrow(f1, f.next, cls.modules);
  }

  /** The same for `create`, whether the throw came from below or from the class itself. */
  lemma {:induction false} CreateInThrows(f: Forest, parent: NodeId, lens: StateLens, cls: Class, io: Value)
    requires Linked(f) && parent in f.nodes
    ensures CreateIn(f, parent, lens, cls, io).Failure? ==>
              var g := CreateIn(f, parent, lens, cls, io).error.forest;
              Linked(g) && Keeps(f, g) && MembersKept(f, g, {})
    decreases cls, 3
  {
    var pio := f.nodes[parent].io;
    NewThrows(f, cls, lens.get(StateOf(f, parent)), Spread(pio, io), Some(Source(parent, lens)));
    NewBuilds(f, cls, lens.get(StateOf(f, parent)), Spread(pio, io), Some(Source(parent, lens)));
  }

  /**
   * When adding the members throws, the keys before the first one whose class
   * chain drops `options` have their children created and registered, and
   * the parent's other children are as they were.
   */
  lemma {:induction false} AddMembersThrow(f: Forest, parent: NodeId, mods: seq<Member>)
    requires Linked(f) && parent in f.nodes
    ensures AddMembers(f, parent, mods).Failure? ==>
              Extended(f, AddMembers(f, parent, mods).error.forest, parent, KeySet(mods[..FirstDropping(mods)]))
    decreases mods, 1
  {
    if mods != [] {
      var m := mods[0];
      var pio := f.nodes[parent].io;
      CreateInSucceeds(f, parent, Lenses.PropLens(m.key), m.cls, Get(pio, m.key));
      var made := CreateIn(f, parent, Lenses.PropLens(m.key), m.cls, Get(pio, m.key));
      if made.Failure? {
        var g := made.error.forest;
        CreateInThrows(f, parent, Lenses.PropLens(m.key), m.cls, Get(pio, m.key));
        assert mods[..FirstDropping(mods)] == [];
        forall k | k in g.nodes[parent].members && ChildOk(f, parent, k) ensures ChildOk(g, parent, k) {
          ChildOkKept(f, g, parent, k);
        }
      } else {
        CreateInBuilds(f, parent, Lenses.PropLens(m.key), m.cls, Get(pio, m.key));
        var f2 := Register(made.value.0, parent, m.key, made.value.1);
        AddMemberStep(f, parent, m.key, made.value.0, made.value.1);
        AddMembersThrow(f2, parent, mods[1..]);
        var before := mods[1..][..FirstDropping(mods[1..])];
        FirstDroppingCons(mods);
        assert KeySet(mods[..FirstDropping(mods)]) == {m.key} + KeySet(before);
        if AddMembers(f2, parent, mods[1..]).Failure? {
          ExtendedTrans(f, f2, AddMembers(f2, parent, mods[1..]).error.forest, parent, {m.key}, KeySet(before));
        }
      }
    }
  }

  // ----------------------------------------------------------------- state

  /** A child built for a key always reads that property of its parent's state. */
  lemma MemberState(g: Forest, p: NodeId, key: string)
    requires Linked(g) && ChildOk(g, p, key)
    ensures StateOf(g, g.nodes[p].members[key]) == Get(StateOf(g, p), key)
  {
  }

  /** Adding containers does not change the state of the existing ones. */
  lemma {:induction false} AgreeingStates(f: Forest, g: Forest, x: NodeId)
    requires Linked(f) && x in f.nodes
    requires forall y :: y in f.nodes ==> y in g.nodes && g.nodes[y] == f.nodes[y]
    ensures StateOf(g, x) == StateOf(f, x)
    ensures LawfulPath(f, x) ==> LawfulPath(g, x)
    decreases x
  {
    if f.nodes[x].options.LeafOptions? {
      AgreeingStates(f, g, f.nodes[x].options.source);
    }
  }

  /**
   * The base constructor of a child on property `key`: when the state the
   * class hands on differs from the property, it is written into the
   * parent's state (every other property kept) and becomes the child's state;
   * otherwise nothing is written.
   */
  lemma StartedPushesUp(f: Forest, cls: Class, init: Value, io: Value, parent: NodeId, key: string)
    requires Linked(f) && parent in f.nodes && LawfulPath(f, parent) && cls.forwardsOptions
    ensures var g := Started(f, cls, init, io, Some(Source(parent, Lenses.PropLens(key))));
            var s := cls.initial(init);
            && StateOf(g, f.next) == s
            && StateOf(g, parent) == (if s != Get(StateOf(f, parent), key) then With(StateOf(f, parent), key, s) else StateOf(f, parent))
  {
    var s := cls.initial(init);
    var id := f.next;
    var lens := Lenses.PropLens(key);
    var f1 := Forest(f.nodes[id := Node(LeafOptions(parent, lens), s, Empty, false, DefaultIO(io), map[])], id + 1, f.log);
    var g := Started(f, cls, init, io, Some(Source(parent, lens)));
    assert OptionsFor(cls, Some(Source(parent, lens))) == LeafOptions(parent, lens);
    assert forall y :: y in f.nodes ==> y in f1.nodes && f1.nodes[y] == f.nodes[y];
    AgreeingStates(f, f1, parent);
    var old_ := StateOf(f, parent);
    assert StateOf(f1, id) == Get(old_, key);
    if s != Get(old_, key) {
      assert g == UpdateState(f1, id, s, "new " + cls.name);
      LeafWriteUp(f1, id, parent, key, s, "new " + cls.name);
    } else {
      assert g == f1;
    }
  }

  /** A write to a child on property `key` becomes its state and that property of its parent's. */
  lemma LeafWriteUp(f: Forest, id: NodeId, parent: NodeId, key: string, s: Value, action: string)
    requires IsLeaf(f, id) && f.nodes[id].options == LeafOptions(parent, Lenses.PropLens(key))
    requires parent < id && LawfulPath(f, parent)
    ensures StateOf(UpdateState(f, id, s, action), id) == s
    ensures StateOf(UpdateState(f, id, s, action), parent) == With(StateOf(f, parent), key, s)
  {
    ChildCommitKeepsSiblings(f, id, key, s, action);
    PropLensLawful(key);
    assert LawfulPath(f, id);
    UpdateStateSets(f, id, s, action);
  }

  /** `splitLensProp(key)` reads back what it wrote. */
  lemma PropLensLawful(key: string)
    ensures Lawful(Lenses.PropLens(key))
  {
    forall a, s ensures Lenses.PropLens(key).get(Lenses.PropLens(key).put(a, s)) == a {
      Lenses.PropLensLaws(key, a, s);
    }
  }

  // ------------------------------------------------------------------- API

  /** The first argument of `StateContainer.create`: a property key or a lens. */
  datatype Focus = Key(name: string) | Through(lens: StateLens)

  /** A key becomes `splitLensProp(key)`; a lens is used as given. */
  function FocusLens(focus: Focus): (r: StateLens)
    ensures focus.Key? ==> r == Lenses.PropLens(focus.name)
    ensures focus.Through? ==> r == focus.lens
  {
    match focus
    case Key(name) => Lenses.PropLens(name)
    case Through(lens) => lens
  }

  /** `StateContainer.create(lens | key, cls, IO)`. */
  function Create(f: Forest, parent: NodeId, focus: Focus, cls: Class, io: Value): (r: Result<(Forest, NodeId), Thrown>)
    requires Linked(f) && parent in f.nodes
    ensures r.Success? <==> cls.forwardsOptions && Forwarding(cls.modules)
    ensures !cls.forwardsOptions && Forwarding(cls.modules) ==> r.Failure? && r.error.cause == MissingOptions(cls.name)
    ensures r.Success? ==> Created(f, parent, FocusLens(focus), io, r.value.0, r.value.1)
  {
    CreateInSucceeds(f, parent, FocusLens(focus), cls, io);
    CreateInBuilds(f, parent, FocusLens(focus), cls, io);
    var pio := f.nodes[parent].io;
    NewSucceeds(f, cls, FocusLens(focus).get(StateOf(f, parent)), Spread(pio, io), Some(Source(parent, FocusLens(focus))));
    CreateIn(f, parent, FocusLens(focus), cls, io)
  }

  /** `Base.create(lens, cls, IO)`: the same, with a lens only. */
  function BaseCreate(f: Forest, parent: NodeId, lens: StateLens, cls: Class, io: Value): (r: Result<(Forest, NodeId), Thrown>)
    requires Linked(f) && parent in f.nodes
    ensures r.Success? <==> cls.forwardsOptions && Forwarding(cls.modules)
    ensures r.Success? ==> Created(f, parent, lens, io, r.value.0, r.value.1)
  {
    Create(f, parent, Through(lens), cls, io)
  }

  /** `cls.create(initialState, IO)` / `new cls(initialState, IO)`: a root. */
  function CreateRoot(f: Forest, cls: Class, init: Value, io: Value): (r: Result<(Forest, NodeId), Thrown>)
    requires Linked(f)
    ensures r.Success? <==> Forwarding(cls.modules)
    ensures r.Success? ==> && Linked(r.value.0) && r.value.1 == f.next
                           && IsRoot(r.value.0, r.value.1) && r.value.0.nodes[r.value.1].io == DefaultIO(io)
                           && r.value.0.nodes[r.value.1].members.Keys == KeySet(cls.modules)
  {
    NewSucceeds(f, cls, init, io, None);
    NewBuilds(f, cls, init, io, None);
    New(f, cls, init, io, None)
  }

  /** `Base.commit(action, newState)`: as `StateContainer.commit`, without the answer. */
  function BaseCommit(f: Forest, id: NodeId, action: string, newState: Value): (r: Forest)
    ensures newState == StateOf(f, id) ==> r == f
  {
    Commit(f, id, action, newState).0
  }

  lemma BaseCommitSets(f: Forest, id: NodeId, action: string, v: Value)
    requires LawfulPath(f, id)
    ensures StateOf(BaseCommit(f, id, action, v), id) == v
  {
    CommitSets(f, id, action, v);
  }

  // --------------------------------------------------------------- example

  lemma RegisterKeepsStates(f: Forest, parent: NodeId, key: string, child: NodeId, x: NodeId)
    ensures StateOf(Register(f, parent, key, child), x) == StateOf(f, x)
  {
    SameShapeSameState(f, Register(f, parent, key, child), x);
  }

  /** `class Counter { constructor(initialState = 0, IO, options) { super(initialState, IO, options) } }`. */
  const CounterClass := Class("Counter", true, s => if s == Undefined then Num(0) else s, [])

  /** `class App extends createBase({ counter: Counter }) {}`. */
  const CounterApp := Class("App", true, s => s, [Member("counter", CounterClass)])

  /** The app container before its children are built. */
  const AppStarted := Forest(map[0 := Node(RootOptions(Empty), Obj(map[]), Empty, false, Obj(map[]), map[])], 1, [])

  lemma AppStartedFacts()
    ensures Started(NoNodes, CounterApp, Obj(map[]), Undefined, None) == AppStarted
    ensures Linked(AppStarted) && LawfulPath(AppStarted, 0)
  {
    StartedFacts(NoNodes, CounterApp, Obj(map[]), Undefined, None);
  }

  /** Building the counter child writes its default into the app's state. */
  lemma CounterMemberAdded()
    ensures AddMembers(AppStarted, 0, CounterApp.modules).Success?
    ensures var g := AddMembers(AppStarted, 0, CounterApp.modules).value;
            && 0 in g.nodes && g.nodes[0].members == map["counter" := 1]
            && StateOf(g, 0) == Obj(map["counter" := Num(0)]) && StateOf(g, 1) == Num(0)
  {
    var f1 := AppStarted;
    AppStartedFacts();
    var lens := Lenses.PropLens("counter");
    var view := lens.get(StateOf(f1, 0));
    assert view == Undefined;
    var io := Spread(Obj(map[]), Get(Obj(map[]), "counter"));
    var f2 := Started(f1, CounterClass, view, io, Some(Source(0, lens)));
    StartedPushesUp(f1, CounterClass, view, io, 0, "counter");
    assert With(Obj(map[]), "counter", Num(0)) == Obj(map["counter" := Num(0)]);
    assert StateOf(f2, 0) == Obj(map["counter" := Num(0)]);
    assert New(f1, CounterClass, view, io, Some(Source(0, lens))) == Success((f2, 1));
    assert CreateIn(f1, 0, lens, CounterClass, Get(Obj(map[]), "counter")) == Success((f2, 1));
    StartedFacts(f1, CounterClass, view, io, Some(Source(0, lens)));
    var g := Register(f2, 0, "counter", 1);
    RegisterKeepsStates(f2, 0, "counter", 1, 0);
    RegisterKeepsStates(f2, 0, "counter", 1, 1);
    assert AddMembers(f1, 0, CounterApp.modules) == Success(g);
  }

  /** `new App({})`: the counter's default fills the missing property of the app's state. */
  lemma CounterAppFillsDefault()
    ensures CreateRoot(NoNodes, CounterApp, Obj(map[]), Undefined).Success?
    ensures var (g, root) := CreateRoot(NoNodes, CounterApp, Obj(map[]), Undefined).value;
            && root == 0 && g.nodes[0].members == map["counter" := 1]
            && StateOf(g, 0) == Obj(map["counter" := Num(0)]) && StateOf(g, 1) == Num(0)
  {
    AppStartedFacts();
    CounterMemberAdded();
  }

  /** A class whose constructor is `constructor(initialState) { super(initialState) }`. */
  const BrokenClass := Class("Broken", false, s => s, [])

  /** `class App extends createBase({ counter: Counter, broken: Broken }) {}`. */
  const BrokenApp := Class("App", true, s => s, [Member("counter", CounterClass), Member("broken", BrokenClass)])

  /**
   * `new App({})` throws for `broken`, after the counter child was built and
   * registered and had written its default into the app's state.
   */
  lemma ThrowKeepsEarlierChild()
    ensures CreateRoot(NoNodes, BrokenApp, Obj(map[]), Undefined).Failure?
    ensures var t := CreateRoot(NoNodes, BrokenApp, Obj(map[]), Undefined).error;
            && t.cause == MissingOptions("Broken")
            && 0 in t.forest.nodes && t.forest.nodes[0].members == map["counter" := 1]
            && StateOf(t.forest, 0) == Obj(map["counter" := Num(0)])
  {
    AppStartedFacts();
    assert Started(NoNodes, BrokenApp, Obj(map[]), Undefined, None) == AppStarted;
    CounterMemberAdded();
    var g := AddMembers(AppStarted, 0, CounterApp.modules).value;
    assert AddMembers(AppStarted, 0, BrokenApp.modules) == AddMembers(g, 0, [Member("broken", BrokenClass)]);
    AddMembersBuild(AppStarted, 0, CounterApp.modules);
    BrokenMemberThrows(g);
  }

  /** Adding `broken` throws with the app container untouched. */
  lemma BrokenMemberThrows(g: Forest)
    requires Linked(g) && 0 in g.nodes
    ensures var r := AddMembers(g, 0, [Member("broken", BrokenClass)]);
            && r.Failure? && r.error.cause == MissingOptions("Broken")
            && 0 in r.error.forest.nodes && r.error.forest.nodes[0] == g.nodes[0]
            && StateOf(r.error.forest, 0) == StateOf(g, 0)
  {
    var lens := Lenses.PropLens("broken");
    var io := Spread(g.nodes[0].io, Get(g.nodes[0].io, "broken"));
    var view := lens.get(StateOf(g, 0));
    var h := Started(g, BrokenClass, view, io, Some(Source(0, lens)));
    StartedFacts(g, BrokenClass, view, io, Some(Source(0, lens)));
    assert h.nodes == g.nodes[g.next := h.nodes[g.next]];
    AgreeingStates(g, h, 0);
    assert New(g, BrokenClass, view, io, Some(Source(0, lens))) == Success((h, g.next));
    assert AddMembers(g, 0, [Member("broken", BrokenClass)]) == Failure(Thrown(MissingOptions("Broken"), h));
  }

  const TodosClass := Class("Todos", true, s => s, [])

  /** `class App extends createBase({ todos: Todos }) {}`. */
  const TodosApp := Class("App", true, s => s, [Member("todos", TodosClass)])

  const NoTodos := Obj(map["list" := Arr([])])
  const OneTodo := Obj(map["list" := Arr([Obj(map["id" := Num(0), "text" := Str("write a todo")])])])

  lemma TodosAppBuilt() returns (g: Forest)
    ensures CreateRoot(NoNodes, TodosApp, Obj(map["todos" := NoTodos]), Undefined) == Success((g, 0))
    ensures Linked(g) && IsRoot(g, 0) && IsLeaf(g, 1) && g.nodes[1].options == LeafOptions(0, Lenses.PropLens("todos"))
    ensures StateOf(g, 0) == Obj(map["todos" := NoTodos]) && g.nodes[0].stateChanged == Empty
    ensures g.nodes[0].options.broadcaster == Empty && g.log == []
  {
    var init := Obj(map["todos" := NoTodos]);
    var f1 := Started(NoNodes, TodosApp, init, Undefined, None);
    StartedFacts(NoNodes, TodosApp, init, Undefined, None);
    assert f1.nodes == map[0 := Node(RootOptions(Empty), init, Empty, false, Obj(map[]), map[])];
    var lens := Lenses.PropLens("todos");
    var view := lens.get(StateOf(f1, 0));
    assert view == NoTodos;
    var io := Spread(Obj(map[]), Get(Obj(map[]), "todos"));
    var f2 := Started(f1, TodosClass, view, io, Some(Source(0, lens)));
    StartedFacts(f1, TodosClass, view, io, Some(Source(0, lens)));
    assert f2.nodes == f1.nodes[1 := Node(LeafOptions(0, lens), NoTodos, Empty, false, io, map[])];
    assert New(f1, TodosClass, view, io, Some(Source(0, lens))) == Success((f2, 1));
    assert CreateIn(f1, 0, lens, TodosClass, Get(Obj(map[]), "todos")) == Success((f2, 1));
    g := Register(f2, 0, "todos", 1);
    RegisterKeepsStates(f2, 0, "todos", 1, 0);
    assert AddMembers(f1, 0, TodosApp.modules) == Success(g);
  }

  /**
   * The nested example: a listener on the app hears the todo added through
   * the child, with the whole new state of the app.
   */
  lemma NestedTodosNotifyApp()
    ensures CreateRoot(NoNodes, TodosApp, Obj(map["todos" := NoTodos]), Undefined).Success?
    ensures var g := CreateRoot(NoNodes, TodosApp, Obj(map["todos" := NoTodos]), Undefined).value.0;
            Linked(g) && 0 in g.nodes
            && var h := Commit(OnStateChange(g, 0, 1), 1, "todoAdded", OneTodo).0;
            && StateOf(h, 0) == Obj(map["todos" := OneTodo])
            && h.log == [Heard(0, Call(1, (Obj(map["todos" := OneTodo]), "todoAdded")))]
  {
    var g := TodosAppBuilt();
    var g2 := OnStateChange(g, 0, 1);
    assert g2.nodes == g.nodes[0 := g.nodes[0].(stateChanged := Signal([1]))];
    assert StateOf(g2, 0) == Obj(map["todos" := NoTodos]);
    assert StateOf(g2, 1) == NoTodos;
    var stateAfter := With(Obj(map["todos" := NoTodos]), "todos", OneTodo);
    assert stateAfter == Obj(map["todos" := OneTodo]);
    assert UpdateState(g2, 1, OneTodo, "todoAdded") == UpdateState(g2, 0, stateAfter, "todoAdded");
    RootWriteStores(g2, 0, stateAfter, "todoAdded");
    var stored := g2.(nodes := g2.nodes[0 := g2.nodes[0].(state := stateAfter)]);
    RootWriteLog(g2, 0, stateAfter, "todoAdded", stored);
    assert OneTodo != NoTodos by {
      assert Get(OneTodo, "list") != Get(NoTodos, "list");
    }
    var h := Commit(g2, 1, "todoAdded", OneTodo).0;
    assert h == UpdateState(g2, 0, stateAfter, "todoAdded");
    assert RelayLog(stored, [], "todoAdded") == [];
    assert Notify(0, Signal([1]), stateAfter, "todoAdded") == [Heard(0, Call(1, (stateAfter, "todoAdded")))];
    assert h.log == [Heard(0, Call(1, (stateAfter, "todoAdded")))];
  }
}

=== FILE: bare.dfy ===
/**
 * `createBare`: a bare state machine holds the reducer's state, dispatches
 * actions through the reducer, notifies its listeners with `(state, action)`
 * only when the state changed, offers one dispatcher per action creator and
 * builds scoped apps from its selectors.
 */
module Bare {
  import opened Values
  import opened CustomSignal
  import Scoped

  type Reducer = (Value, Value) -> Value

  /** An action creator: the arguments of the call to the action. */
  type ActionCreator = seq<Value> -> Value

  /** A machine: its state, its listeners, every listener call so far, and its scoped apps. */
  datatype Machine = Machine(
    state: Value,
    signal: Signal,
    log: seq<Call<(Value, Value)>>,
    scopeds: seq<Scoped.ScopedApp>)

  /** The action `{ type: undefined }` the reducer initializes with. */
  const InitAction: Value := Obj(map["type" := Undefined])

  /**
   * `factory.create(initialState)`: the reducer's answer to the initial action
   * on the given state, no listeners, and a scoped app per selector; a
   * selector that allocates makes creation throw.
   */
  function Create(reducer: Reducer, selectors: seq<Scoped.SelectorNode>, initialState: Value)
    : (r: Result<Machine, Scoped.ScopedError>)
    ensures r.Success? <==> !Scoped.AnyAllocates(selectors, reducer(initialState, InitAction))
    ensures r.Success? ==> r.value.state == reducer(initialState, InitAction)
    ensures r.Success? ==> r.value.signal == Empty && r.value.log == [] && |r.value.scopeds| == |selectors|
    ensures r.Success? ==> forall i :: 0 <= i < |selectors| ==>
      Scoped.Matches(r.value.scopeds[i], selectors[i], reducer(initialState, InitAction))
  {
    var state := reducer(initialState, InitAction);
    Scoped.CreateAllCorrect(selectors, state);
    match Scoped.CreateAll(selectors, state)
    case Failure(e) => Failure(e)
    case Success(apps) => Success(Machine(state, Empty, [], apps))
  }

  /**
   * `dispatch(action)`: runs the reducer; when the new state is not `===` the
   * old one it is stored, every listener present is called with
   * `(state, action)`, and the answer is true; otherwise nothing happens and
   * the answer is false.
   */
  function Dispatch(m: Machine, reducer: Reducer, action: Value): (r: (Machine, bool))
    ensures r.1 <==> reducer(m.state, action) != m.state
    ensures r.0.state == reducer(m.state, action)
    ensures r.0.signal == m.signal && r.0.scopeds == m.scopeds
    ensures r.1 ==> r.0.log == m.log + Calls(m.signal, (r.0.state, action))
    ensures !r.1 ==> r.0 == m
  {
    var next := reducer(m.state, action);
    if next != m.state then
      (m.(state := next, log := m.log + Calls(m.signal, (next, action))), true)
    else (m, false)
  }

  /**
   * The dispatcher generated for an action creator: dispatches what the
   * creator returns for the call's arguments.  A name that is not an action
   * creator has no dispatcher (calling it throws).
   */
  function DispatchNamed(m: Machine, reducer: Reducer, creators: map<string, ActionCreator>, name: string, args: seq<Value>)
    : (r: Option<(Machine, bool)>)
    ensures r.Some? <==> name in creators
    ensures r.Some? ==> (r.value.1 <==> reducer(m.state, creators[name](args)) != m.state)
    ensures r.Some? && r.value.1 ==> r.value.0.log == m.log + Calls(m.signal, (r.value.0.state, creators[name](args)))
  {
    if name in creators then Some(Dispatch(m, reducer, creators[name](args))) else None
  }

  /** `getState()`. */
  function GetState(m: Machine): Value {
    m.state
  }

  /** `subscribe(listener)`: the listener is called from the next changing dispatch on. */
  function Subscribe(m: Machine, l: ListenerId): (r: Machine)
    ensures r.signal == CustomSignal.Subscribe(m.signal, l)
    ensures r.state == m.state && r.log == m.log
  {
    m.(signal := CustomSignal.Subscribe(m.signal, l))
  }

  /** A subscribed listener hears about the next change, last among the listeners. */
  lemma SubscribedListenerNotified(m: Machine, reducer: Reducer, l: ListenerId, action: Value)
    requires reducer(m.state, action) != m.state
    ensures var r := Dispatch(Subscribe(m, l), reducer, action).0;
      r.log[|r.log| - 1] == Call(l, (reducer(m.state, action), action))
  {
  }

  /** A reducer that settles: dispatching the same action again changes nothing and notifies no one. */
  lemma RepeatDispatchIsQuiet(m: Machine, reducer: Reducer, action: Value)
    requires reducer(reducer(m.state, action), action) == reducer(m.state, action)
    ensures var once := Dispatch(m, reducer, action).0;
      !Dispatch(once, reducer, action).1 && Dispatch(once, reducer, action).0.log == once.log
  {
  }

  /** The documented refresh machine: `START_REFRESH` turns the state to true. */
  function RefreshReducer(state: Value, action: Value): Value {
    var s := if state == Undefined then Bool(false) else state;
    if Get(action, "type") == Str("START_REFRESH") then Bool(true)
    else if Get(action, "type") == Str("STOP_REFRESH") then Bool(false)
    else s
  }

  lemma RefreshExample()
    ensures Create(RefreshReducer, [], Undefined).Success?
    ensures var m := Create(RefreshReducer, [], Undefined).value;
      && m.state == Bool(false)
      && Dispatch(m, RefreshReducer, Obj(map["type" := Str("START_REFRESH")])).1
      && GetState(Dispatch(m, RefreshReducer, Obj(map["type" := Str("START_REFRESH")])).0) == Bool(true)
  {
    assert !Scoped.AnyAllocates([], Bool(false));
  }
}

=== FILE: callchain.dfy ===
/**
 * `compileCallChain`: a reversed list of middlewares folded around an
 * implementation, so that the last middleware of the list runs first.
 * Middlewares are synchronous here: each either hands the (possibly updated)
 * action to the next one and may transform what comes back, or answers
 * itself without calling `next`.  A middleware that calls `next` more than
 * once is not modelled (README, "Left out", CallChain.Decision).
 */
module CallChain {
  import opened Values

  /** What a middleware does with an action. */
  datatype Decision =
    | Next(action: Value, after: Value -> Value)   // `return after(await next())`
    | Done(result: Value)                          // answers without calling `next`

  /** A middleware already given its IO. */
  type Run = Value -> Decision

  /**
   * A call of the compiled chain: the result, the positions (in the list)
   * of the middlewares that ran, outermost first, the action each of them
   * received, and the action the implementation received if it was reached.
   */
  datatype Outcome = Outcome(result: Value, trace: seq<nat>, inputs: seq<Value>, reached: Option<Value>)

  type Handler = Value -> Outcome

  /** `a1 => Promise.resolve(implementation(a1))`. */
  function Base(impl: Value -> Value): Handler {
    a => Outcome(impl(a), [], [], Some(a))
  }

  /** `(a1, subnext) => middleware(a1, () => next(a1, subnext))`. */
  function Wrap(mw: Run, id: nat, next: Handler): Handler {
    a =>
      match mw(a)
      case Done(r) => Outcome(r, [id], [a], None)
      case Next(a2, after) =>
        var o := next(a2);
        Outcome(after(o.result), [id] + o.trace, [a] + o.inputs, o.reached)
  }

  /** `chain.reduce(wrap, base)`: each element wraps the handler built from those before it. */
  function Compile(chain: seq<Run>, impl: Value -> Value): Handler
    decreases |chain|
  {
    if chain == [] then Base(impl)
    else
      var n := |chain| - 1;
      Wrap(chain[n], n, Compile(chain[..n], impl))
  }

  /** Positions `n - 1` down to `0`. */
  function Down(n: nat): (r: seq<nat>)
    ensures |r| == n && forall i :: 0 <= i < n ==> r[i] == n - 1 - i
  {
    if n == 0 then [] else [n - 1] + Down(n - 1)
  }

  /**
   * The reference: run the middlewares at the given positions one after the
   * other, each calling the next, then the implementation.
   */
  function Pipeline(order: seq<nat>, chain: seq<Run>, impl: Value -> Value, a: Value): Outcome
    requires forall i :: 0 <= i < |order| ==> order[i] < |chain|
    decreases |order|
  {
    if order == [] then Outcome(impl(a), [], [], Some(a))
    else
      match chain[order[0]](a)
      case Done(r) => Outcome(r, [order[0]], [a], None)
      case Next(a2, after) =>
        var o := Pipeline(order[1..], chain, impl, a2);
        Outcome(after(o.result), [order[0]] + o.trace, [a] + o.inputs, o.reached)
  }

  /** Extending the list does not change what the earlier positions do. */
  lemma {:induction false} PipelinePrefix(order: seq<nat>, chain: seq<Run>, k: nat, impl: Value -> Value, a: Value)
    requires k <= |chain|
    requires forall i :: 0 <= i < |order| ==> order[i] < k
    ensures Pipeline(order, chain, impl, a) == Pipeline(order, chain[..k], impl, a)
    decreases |order|
  {
    if order != [] {
      assert chain[..k][order[0]] == chain[order[0]];
      match chain[order[0]](a)
      case Done(r) =>
      case Next(a2, after) =>
        PipelinePrefix(order[1..], chain, k, impl, a2);
    }
  }

  /** The compiled chain runs the list from its last middleware to its first, then the implementation. */
  lemma {:induction false} CompileOrder(chain: seq<Run>, impl: Value -> Value, a: Value)
    ensures Compile(chain, impl)(a) == Pipeline(Down(|chain|), chain, impl, a)
    decreases |chain|
  {
    if chain != [] {
      var n := |chain| - 1;
      match chain[n](a)
      case Done(r) =>
      case Next(a2, after) =>
        CompileOrder(chain[..n], impl, a2);
        assert Down(|chain|)[1..] == Down(n);
        PipelinePrefix(Down(n), chain, n, impl, a2);
    }
  }

  /** Every middleware hands the action on. */
  ghost predicate AllPass(chain: seq<Run>) {
    forall i, a :: 0 <= i < |chain| ==> chain[i](a).Next?
  }

  /** When every middleware passes, all of them run, last first, and the implementation is reached. */
  lemma {:induction false} PipelineAllPass(order: seq<nat>, chain: seq<Run>, impl: Value -> Value, a: Value)
    requires forall i :: 0 <= i < |order| ==> order[i] < |chain|
    requires AllPass(chain)
    ensures Pipeline(order, chain, impl, a).trace == order
    ensures Pipeline(order, chain, impl, a).reached.Some?
    decreases |order|
  {
    if order != [] {
      assert chain[order[0]](a).Next?;
      PipelineAllPass(order[1..], chain, impl, chain[order[0]](a).action);
      assert order == [order[0]] + order[1..];
    }
  }

  lemma CompileAllPass(chain: seq<Run>, impl: Value -> Value, a: Value)
    requires AllPass(chain)
    ensures Compile(chain, impl)(a).trace == Down(|chain|)
    ensures Compile(chain, impl)(a).reached.Some?
  {
    CompileOrder(chain, impl, a);
    PipelineAllPass(Down(|chain|), chain, impl, a);
  }

  /** With an empty chain the implementation is applied to the action. */
  lemma CompileEmpty(impl: Value -> Value, a: Value)
    ensures Compile([], impl)(a) == Outcome(impl(a), [], [], Some(a))
  {
  }

  /**
   * The actions along a run: the first middleware receives the chain's
   * action, each later one the action its predecessor handed on, and the
   * implementation the action the last middleware handed on.  A middleware
   * that is followed by another one handed the action on.
   */
  ghost predicate HandedOn(chain: seq<Run>, a: Value, o: Outcome)
    requires forall i :: 0 <= i < |o.trace| ==> o.trace[i] < |chain|
  {
    && |o.inputs| == |o.trace|
    && (o.trace != [] ==> o.inputs[0] == a)
    && (forall i :: 0 <= i < |o.trace| - 1 ==>
          chain[o.trace[i]](o.inputs[i]).Next? && o.inputs[i + 1] == chain[o.trace[i]](o.inputs[i]).action)
    && (o.reached.Some? ==>
          if o.trace == [] then o.reached.value == a
          else
            var l := |o.trace| - 1;
            chain[o.trace[l]](o.inputs[l]).Next? && o.reached.value == chain[o.trace[l]](o.inputs[l]).action)
  }

  /** The middlewares that run are a prefix of the order. */
  lemma {:induction false} PipelineRunsPrefix(order: seq<nat>, chain: seq<Run>, impl: Value -> Value, a: Value)
    requires forall i :: 0 <= i < |order| ==> order[i] < |chain|
    ensures var o := Pipeline(order, chain, impl, a);
      |o.trace| <= |order| && o.trace == order[..|o.trace|]
    decreases |order|
  {
    if order != [] {
      match chain[order[0]](a)
      case Done(r) =>
      case Next(a2, after) =>
        PipelineRunsPrefix(order[1..], chain, impl, a2);
        var o := Pipeline(order[1..], chain, impl, a2);
        var p := Pipeline(order, chain, impl, a);
        assert p.trace == [order[0]] + o.trace;
        assert order[..|p.trace|] == [order[0]] + order[1..][..|o.trace|];
    }
  }

  lemma {:induction false} PipelineHandsOn(order: seq<nat>, chain: seq<Run>, impl: Value -> Value, a: Value)
    requires forall i :: 0 <= i < |order| ==> order[i] < |chain|
    ensures var o := Pipeline(order, chain, impl, a);
      && |o.trace| <= |order| && o.trace == order[..|o.trace|]
      && HandedOn(chain, a, o)
    decreases |order|
  {
    PipelineRunsPrefix(order, chain, impl, a);
    if order != [] {
      match chain[order[0]](a)
      case Done(r) =>
      case Next(a2, after) =>
        PipelineHandsOn(order[1..], chain, impl, a2);
        var o := Pipeline(order[1..], chain, impl, a2);
        var p := Pipeline(order, chain, impl, a);
        assert p.trace == [order[0]] + o.trace && p.inputs == [a] + o.inputs;
        forall i | 0 <= i < |p.trace| - 1
          ensures chain[p.trace[i]](p.inputs[i]).Next? && p.inputs[i + 1] == chain[p.trace[i]](p.inputs[i]).action
        {
          if i > 0 {
            assert p.trace[i] == o.trace[i - 1] && p.inputs[i] == o.inputs[i - 1] && p.inputs[i + 1] == o.inputs[i];
          }
        }
        if p.reached.Some? && o.trace != [] {
          var l := |o.trace| - 1;
          assert p.trace[l + 1] == o.trace[l] && p.inputs[l + 1] == o.inputs[l];
        }
    }
  }

  /**
   * Every middleware of the compiled chain receives the action as the one
   * before it handed it on, and the implementation as the last one did.
   */
  lemma CompileHandsOn(chain: seq<Run>, impl: Value -> Value, a: Value)
    ensures var o := Compile(chain, impl)(a);
      && |o.trace| <= |chain| && o.trace == Down(|chain|)[..|o.trace|]
      && HandedOn(chain, a, o)
  {
    CompileOrder(chain, impl, a);
    PipelineHandsOn(Down(|chain|), chain, impl, a);
  }

  /** Every middleware hands on the action it received, unchanged. */
  ghost predicate KeepsAction(chain: seq<Run>) {
    forall i, a :: 0 <= i < |chain| && chain[i](a).Next? ==> chain[i](a).action == a
  }

  /**
   * When no middleware changes the action, every middleware that runs and
   * the implementation, if reached, see the very action the chain was called
   * with.
   */
  lemma CompileSameAction(chain: seq<Run>, impl: Value -> Value, a: Value)
    requires KeepsAction(chain)
    ensures forall i :: 0 <= i < |Compile(chain, impl)(a).inputs| ==> Compile(chain, impl)(a).inputs[i] == a
    ensures Compile(chain, impl)(a).reached.Some? ==> Compile(chain, impl)(a).reached == Some(a)
  {
    CompileHandsOn(chain, impl, a);
  }

  /** A last middleware that answers itself stops everything else, the implementation included. */
  lemma OutermostShortCircuits(chain: seq<Run>, impl: Value -> Value, a: Value)
    requires chain != [] && chain[|chain| - 1](a).Done?
    ensures Compile(chain, impl)(a) == Outcome(chain[|chain| - 1](a).result, [|chain| - 1], [a], None)
  {
  }

  /** A middleware appending a suffix to the action's data. */
  function Append(suffix: string): Run {
    a => Next(With(a, "data", Str(if Get(a, "data").Str? then Get(a, "data").s + suffix else suffix)), r => r)
  }

  /** One appending middleware: it passes on the action with the suffix added to its data, result untouched. */
  lemma AppendStep(a: Value, prefix: string, suffix: string)
    requires Get(a, "data") == Str(prefix)
    ensures Append(suffix)(a).Next?
    ensures Get(Append(suffix)(a).action, "data") == Str(prefix + suffix)
    ensures forall x :: Append(suffix)(a).after(x) == x
  {
  }

  function Data(a: Value): Value {
    Get(a, "data")
  }

  /** A chain of appending middlewares, one per suffix. */
  function Appenders(suffixes: seq<string>): (r: seq<Run>)
    ensures |r| == |suffixes| && forall i :: 0 <= i < |r| ==> r[i] == Append(suffixes[i])
  {
    seq(|suffixes|, i requires 0 <= i < |suffixes| => Append(suffixes[i]))
  }

  /** The suffixes at the given positions, joined in that order. */
  function Joined(order: seq<nat>, suffixes: seq<string>): string
    requires forall i :: 0 <= i < |order| ==> order[i] < |suffixes|
    decreases |order|
  {
    if order == [] then "" else suffixes[order[0]] + Joined(order[1..], suffixes)
  }

  lemma {:induction false} PipelineAppends(order: seq<nat>, suffixes: seq<string>, a: Value, prefix: string)
    requires forall i :: 0 <= i < |order| ==> order[i] < |suffixes|
    requires Data(a) == Str(prefix)
    ensures Pipeline(order, Appenders(suffixes), Data, a).result == Str(prefix + Joined(order, suffixes))
    decreases |order|
  {
    if order == [] {
      assert prefix + "" == prefix;
    } else {
      var chain := Appenders(suffixes);
      var k := order[0];
      AppendStep(a, prefix, suffixes[k]);
      PipelineAppends(order[1..], suffixes, chain[k](a).action, prefix + suffixes[k]);
      assert Joined(order, suffixes) == suffixes[k] + Joined(order[1..], suffixes);
      ConcatAssoc(prefix, suffixes[k], Joined(order[1..], suffixes));
    }
  }

  /** Appending middlewares build the data from the last suffix of the list to the first. */
  lemma CompileAppends(suffixes: seq<string>, a: Value, prefix: string)
    requires Data(a) == Str(prefix)
    ensures Compile(Appenders(suffixes), Data)(a).result == Str(prefix + Joined(Down(|suffixes|), suffixes))
  {
    var chain, order := Appenders(suffixes), Down(|suffixes|);
    assert forall i :: 0 <= i < |order| ==> order[i] < |suffixes|;
    CompileOrder(chain, Data, a);
    PipelineAppends(order, suffixes, a, prefix);
  }

  lemma ExampleJoined(sufs: seq<string>)
    requires sufs == ["world", " ", "hello"]
    ensures "" + Joined([2, 1, 0], sufs) == "hello world"
  {
    assert Joined([0], sufs) == "world" + "";
    assert Joined([1, 0], sufs) == " " + "world";
    assert Joined([2, 1, 0], sufs) == "hello" + " world";
  }

  /** The documented example: appending "world", " ", "hello" in list order yields "hello world". */
  lemma CompileExample()
    ensures Compile(Appenders(["world", " ", "hello"]), Data)(Obj(map["data" := Str("")])).result == Str("hello world")
  {
    var sufs := ["world", " ", "hello"];
    CompileAppends(sufs, Obj(map["data" := Str("")]), "");
    assert Down(3) == [2, 1, 0];
    ExampleJoined(sufs);
  }
}

=== FILE: container.dfy ===
/**
 * `StateContainer` at run time: a forest of containers where only roots store
 * state and a leaf reads its state through its lens from its source; commits
 * climb to the root through the lens setters; a root write dispatches the
 * root's broadcaster, whose listeners are the relays of the leaves that have
 * listeners, and then the root's own listeners.
 *
 * Containers are numbered in creation order, so a leaf's source always has a
 * smaller number.  Listener calls are recorded in the forest's log.
 */
module Container {
  import opened Values
  import opened CustomSignal
  import Lenses

  type NodeId = nat

  type StateLens = Lenses.Lens<Value, Value>

  /** `_options`: a root owns the broadcaster; a leaf knows its source and lens. */
  datatype Options =
    | RootOptions(broadcaster: Signal)
    | LeafOptions(source: NodeId, lens: StateLens)

  /**
   * One container: its options, its `_state` (the stored state of a root, the
   * last state a leaf's relay recorded), its own listeners, whether a relay is
   * attached (`_unsubscribe`), its IO and the children it created by name.
   */
  datatype Node = Node(
    options: Options,
    state: Value,
    stateChanged: Signal,
    relay: bool,
    io: Value,
    members: map<string, NodeId>)

  /** A listener call: the container whose listener it is, and the call. */
  datatype Heard = Heard(node: NodeId, call: Call<(Value, string)>)

  datatype Forest = Forest(nodes: map<NodeId, Node>, next: NodeId, log: seq<Heard>)

  const NoNodes: Forest := Forest(map[], 0, [])

  predicate IsLeaf(f: Forest, id: NodeId) {
    id in f.nodes && f.nodes[id].options.LeafOptions?
  }

  predicate IsRoot(f: Forest, id: NodeId) {
    id in f.nodes && f.nodes[id].options.RootOptions?
  }

  /** Every container is numbered below `next` and every leaf's source is an older container. */
  ghost predicate Linked(f: Forest) {
    forall id :: id in f.nodes ==>
      (id < f.next
       && (f.nodes[id].options.LeafOptions? ==>
             f.nodes[id].options.source < id && f.nodes[id].options.source in f.nodes))
  }

  // ------------------------------------------------------------------ state

  /** The `state` getter: a root's stored state, a leaf's lens view of its source's state. */
  function StateOf(f: Forest, id: NodeId): Value
    decreases id
  {
    if id !in f.nodes then Undefined
    else match f.nodes[id].options
      case RootOptions(_) => f.nodes[id].state
      case LeafOptions(src, lens) => if src < id then lens.get(StateOf(f, src)) else Undefined
  }

  /** The root whose broadcaster a container shares. */
  function RootOf(f: Forest, id: NodeId): NodeId
    decreases id
  {
    if id in f.nodes && f.nodes[id].options.LeafOptions? && f.nodes[id].options.source < id
    then RootOf(f, f.nodes[id].options.source)
    else id
  }

  lemma {:induction false} RootOfIsRoot(f: Forest, id: NodeId)
    requires Linked(f) && id in f.nodes
    ensures IsRoot(f, RootOf(f, id))
    decreases id
  {
    if f.nodes[id].options.LeafOptions? {
      RootOfIsRoot(f, f.nodes[id].options.source);
    }
  }

  /** Same containers and options (root states may differ). */
  ghost predicate SameOptions(f: Forest, g: Forest) {
    && f.nodes.Keys == g.nodes.Keys
    && (forall id :: id in f.nodes ==> g.nodes[id].options.LeafOptions? == f.nodes[id].options.LeafOptions?)
    && (forall id :: id in f.nodes && f.nodes[id].options.LeafOptions? ==> g.nodes[id].options == f.nodes[id].options)
  }

  /** Same containers and options, and the same stored state in every root. */
  ghost predicate SameShape(f: Forest, g: Forest) {
    && SameOptions(f, g)
    && (forall id :: id in f.nodes && f.nodes[id].options.RootOptions? ==> g.nodes[id].state == f.nodes[id].state)
  }

  /** The state of every container depends only on the options and the roots' stored states. */
  lemma {:induction false} SameShapeSameState(f: Forest, g: Forest, id: NodeId)
    requires SameShape(f, g)
    ensures StateOf(f, id) == StateOf(g, id)
    decreases id
  {
    if id in f.nodes && f.nodes[id].options.LeafOptions? && f.nodes[id].options.source < id {
      SameShapeSameState(f, g, f.nodes[id].options.source);
    }
  }

  lemma {:induction false} SameOptionsSameRoot(f: Forest, g: Forest, id: NodeId)
    requires SameOptions(f, g)
    ensures RootOf(f, id) == RootOf(g, id)
    decreases id
  {
    if id in f.nodes && f.nodes[id].options.LeafOptions? && f.nodes[id].options.source < id {
      SameOptionsSameRoot(f, g, f.nodes[id].options.source);
    }
  }

  // --------------------------------------------------------------- writes

  /** The same options, listeners, relay flag, IO and children in every container. */
  ghost predicate SameWiring(f: Forest, g: Forest)
    requires f.nodes.Keys <= g.nodes.Keys
  {
    forall id :: id in f.nodes ==>
      (&& g.nodes[id].options == f.nodes[id].options
       && g.nodes[id].stateChanged == f.nodes[id].stateChanged
       && g.nodes[id].relay == f.nodes[id].relay
       && g.nodes[id].io == f.nodes[id].io
       && g.nodes[id].members == f.nodes[id].members)
  }

  /** The calls a signal's dispatch makes, attributed to a container. */
  function Notify(node: NodeId, s: Signal, state: Value, action: string): (r: seq<Heard>)
    ensures |r| == |s.listeners|
    ensures forall i :: 0 <= i < |r| ==> r[i] == Heard(node, Call(s.listeners[i], (state, action)))
  {
    var calls := Calls(s, (state, action));
    seq(|calls|, i requires 0 <= i < |calls| => Heard(node, calls[i]))
  }

  /**
   * One relay of the broadcaster: when the leaf's view is not `===` the state
   * it last recorded, it records the view and dispatches its own listeners.
   */
  function Relay(f: Forest, r: NodeId, action: string): Forest {
    if IsLeaf(f, r) && f.nodes[r].state != StateOf(f, r) then
      f.(nodes := f.nodes[r := f.nodes[r].(state := StateOf(f, r))],
         log := f.log + Notify(r, f.nodes[r].stateChanged, StateOf(f, r), action))
    else f
  }

  /** The broadcaster's dispatch: the relays in subscription order. */
  function RunRelays(f: Forest, relays: seq<NodeId>, action: string): (r: Forest)
    ensures r.nodes.Keys == f.nodes.Keys
    decreases |relays|
  {
    if relays == [] then f else RunRelays(Relay(f, relays[0], action), relays[1..], action)
  }

  /**
   * `_updateState`: a leaf hands `setter(newState, source.state)` to its
   * source; a root stores the state, dispatches its broadcaster, then its own
   * listeners with the new state and the action.
   */
  function UpdateState(f: Forest, id: NodeId, newState: Value, action: string): (r: Forest)
    ensures r.nodes.Keys == f.nodes.Keys
    decreases id
  {
    if id !in f.nodes then f
    else match f.nodes[id].options
      case LeafOptions(src, lens) =>
        if src < id then UpdateState(f, src, lens.put(newState, StateOf(f, src)), action) else f
      case RootOptions(b) =>
        var stored := f.(nodes := f.nodes[id := f.nodes[id].(state := newState)]);
        var relayed := RunRelays(stored, b.listeners, action);
        relayed.(log := relayed.log + Notify(id, f.nodes[id].stateChanged, newState, action))
  }

  /** `commit(action, newState)`: writes and answers true unless the state is `===` the current one. */
  function Commit(f: Forest, id: NodeId, action: string, newState: Value): (r: (Forest, bool))
    ensures r.1 <==> newState != StateOf(f, id)
    ensures !r.1 ==> r.0 == f
  {
    if newState != StateOf(f, id) then (UpdateState(f, id, newState, action), true) else (f, false)
  }

  // ------------------------------------------------------ shape preservation

  lemma RelayShape(f: Forest, r: NodeId, action: string)
    ensures SameShape(f, Relay(f, r, action))
    ensures SameOptions(f, Relay(f, r, action))
    ensures SameWiring(f, Relay(f, r, action))
    ensures Relay(f, r, action).next == f.next
  {
  }

  lemma {:induction false} RunRelaysShape(f: Forest, relays: seq<NodeId>, action: string)
    ensures SameShape(f, RunRelays(f, relays, action))
    ensures SameOptions(f, RunRelays(f, relays, action))
    ensures SameWiring(f, RunRelays(f, relays, action))
    ensures RunRelays(f, relays, action).next == f.next
    decreases |relays|
  {
    if relays != [] {
      RelayShape(f, relays[0], action);
      RunRelaysShape(Relay(f, relays[0], action), relays[1..], action);
    }
  }

  /** A write changes no container's options, listeners, relay flag, IO or children. */
  lemma UpdateStateShape(f: Forest, id: NodeId, v: Value, action: string)
    ensures SameOptions(f, UpdateState(f, id, v, action))
    ensures SameWiring(f, UpdateState(f, id, v, action))
    ensures UpdateState(f, id, v, action).next == f.next
    ensures Linked(f) ==> Linked(UpdateState(f, id, v, action))
  {
    UpdateStateWiring(f, id, v, action);
    if Linked(f) {
      LinkedFrame(f, UpdateState(f, id, v, action));
    }
  }

  lemma {:induction false} UpdateStateWiring(f: Forest, id: NodeId, v: Value, action: string)
    ensures SameOptions(f, UpdateState(f, id, v, action))
    ensures SameWiring(f, UpdateState(f, id, v, action))
    ensures UpdateState(f, id, v, action).next == f.next
    decreases id
  {
    if id in f.nodes {
      match f.nodes[id].options
      case LeafOptions(src, lens) =>
        if src < id {
          UpdateStateWiring(f, src, lens.put(v, StateOf(f, src)), action);
        }
      case RootOptions(b) =>
        var stored := f.(nodes := f.nodes[id := f.nodes[id].(state := v)]);
        StoreShape(f, id, v);
        RunRelaysShape(stored, b.listeners, action);
        WiringTrans(f, stored, RunRelays(stored, b.listeners, action));
    }
  }

  /** Storing a root's state changes no wiring. */
  lemma StoreShape(f: Forest, id: NodeId, v: Value)
    requires id in f.nodes
    ensures SameOptions(f, f.(nodes := f.nodes[id := f.nodes[id].(state := v)]))
    ensures SameWiring(f, f.(nodes := f.nodes[id := f.nodes[id].(state := v)]))
  {
  }

  lemma WiringTrans(f: Forest, g: Forest, h: Forest)
    requires SameOptions(f, g) && SameWiring(f, g) && SameOptions(g, h) && SameWiring(g, h)
    ensures SameOptions(f, h) && SameWiring(f, h)
  {
  }

  /** Links depend only on the containers' options and the next number. */
  lemma LinkedFrame(f: Forest, g: Forest)
    requires Linked(f) && SameOptions(f, g) && g.next == f.next
    ensures Linked(g)
  {
  }

  // ------------------------------------------------------------- put-get

  /** A lens whose getter reads back what its setter wrote. */
  ghost predicate Lawful(l: StateLens) {
    forall a, s :: l.get(l.put(a, s)) == a
  }

  /** Every lens on the way from a container to its root is lawful. */
  ghost predicate LawfulPath(f: Forest, id: NodeId)
    decreases id
  {
    id in f.nodes &&
    match f.nodes[id].options
    case RootOptions(_) => true
    case LeafOptions(src, lens) => src < id && Lawful(lens) && LawfulPath(f, src)
  }

  /** A root write leaves the new state stored at the root. */
  lemma RootWriteStores(f: Forest, id: NodeId, v: Value, action: string)
    requires IsRoot(f, id)
    ensures StateOf(UpdateState(f, id, v, action), id) == v
  {
    var stored := f.(nodes := f.nodes[id := f.nodes[id].(state := v)]);
    RunRelaysShape(stored, f.nodes[id].options.broadcaster.listeners, action);
  }

  /** Writing a state through a lawful path makes it the container's state. */
  lemma {:induction false} UpdateStateSets(f: Forest, id: NodeId, v: Value, action: string)
    requires LawfulPath(f, id)
    ensures StateOf(UpdateState(f, id, v, action), id) == v
    decreases id
  {
    match f.nodes[id].options
    case RootOptions(_) =>
      RootWriteStores(f, id, v, action);
    case LeafOptions(src, lens) =>
      var up := lens.put(v, StateOf(f, src));
      UpdateStateSets(f, src, up, action);
      UpdateStateShape(f, src, up, action);
  }

  /** After an answered-true commit the container's state is the committed one. */
  lemma CommitSets(f: Forest, id: NodeId, action: string, v: Value)
    requires LawfulPath(f, id)
    ensures StateOf(Commit(f, id, action, v).0, id) == v
  {
    if v != StateOf(f, id) {
      UpdateStateSets(f, id, v, action);
    }
  }

  /**
   * A child on property `name` of its source: committing to it replaces that
   * one property of the source's state and keeps every other property.
   */
  lemma ChildCommitKeepsSiblings(f: Forest, c: NodeId, name: string, v: Value, action: string)
    requires IsLeaf(f, c) && f.nodes[c].options.lens == Lenses.PropLens(name)
    requires f.nodes[c].options.source < c && LawfulPath(f, f.nodes[c].options.source)
    ensures StateOf(UpdateState(f, c, v, action), f.nodes[c].options.source)
            == With(StateOf(f, f.nodes[c].options.source), name, v)
    ensures forall k :: k != name ==>
              Get(StateOf(UpdateState(f, c, v, action), f.nodes[c].options.source), k)
              == Get(StateOf(f, f.nodes[c].options.source), k)
  {
    var p := f.nodes[c].options.source;
    var up := With(StateOf(f, p), name, v);
    assert Lenses.PropLens(name).put(v, StateOf(f, p)) == up;
    UpdateStateSets(f, p, up, action);
    Lenses.PropLensLaws(name, v, StateOf(f, p));
  }

  /** A sibling child on another property of the same source keeps its state. */
  lemma SiblingUnchanged(f: Forest, c: NodeId, q: NodeId, name: string, k: string, v: Value, action: string)
    requires IsLeaf(f, c) && f.nodes[c].options.lens == Lenses.PropLens(name)
    requires f.nodes[c].options.source < c && LawfulPath(f, f.nodes[c].options.source)
    requires IsLeaf(f, q) && f.nodes[q].options == LeafOptions(f.nodes[c].options.source, Lenses.PropLens(k))
    requires f.nodes[c].options.source < q && k != name
    ensures StateOf(UpdateState(f, c, v, action), q) == StateOf(f, q)
  {
    ChildCommitKeepsSiblings(f, c, name, v, action);
    UpdateStateShape(f, c, v, action);
  }

  // ------------------------------------------------------------ relay log

  predicate NoRepeats(xs: seq<NodeId>) {
    forall i, j :: 0 <= i < j < |xs| ==> xs[i] != xs[j]
  }

  /**
   * The reference for a broadcaster dispatch: every relay compares the view
   * before the write's relays ran with what it last recorded, and only a
   * changed view reaches the leaf's listeners.
   */
  function RelayLog(f: Forest, relays: seq<NodeId>, action: string): seq<Heard>
    decreases |relays|
  {
    if relays == [] then []
    else
      var r := relays[0];
      (if IsLeaf(f, r) && f.nodes[r].state != StateOf(f, r)
       then Notify(r, f.nodes[r].stateChanged, StateOf(f, r), action) else [])
      + RelayLog(f, relays[1..], action)
  }

  /** The log of relays depends only on the states and the relays' own containers. */
  lemma {:induction false} RelayLogFrame(f: Forest, g: Forest, relays: seq<NodeId>, action: string)
    requires SameShape(f, g)
    requires forall x :: x in relays && x in f.nodes ==> g.nodes[x] == f.nodes[x]
    ensures RelayLog(f, relays, action) == RelayLog(g, relays, action)
    decreases |relays|
  {
    if relays != [] {
      SameShapeSameState(f, g, relays[0]);
      RelayLogFrame(f, g, relays[1..], action);
    }
  }

  /** Relays change only their own containers. */
  lemma {:induction false} RunRelaysFrame(f: Forest, relays: seq<NodeId>, action: string)
    ensures forall x :: x in f.nodes && x !in relays ==> RunRelays(f, relays, action).nodes[x] == f.nodes[x]
    decreases |relays|
  {
    if relays != [] {
      RelayShape(f, relays[0], action);
      RunRelaysFrame(Relay(f, relays[0], action), relays[1..], action);
    }
  }

  lemma NoRepeatsTail(relays: seq<NodeId>)
    requires relays != [] && NoRepeats(relays)
    ensures relays[0] !in relays[1..] && NoRepeats(relays[1..])
  {
    var rest := relays[1..];
    forall j | 0 <= j < |rest| ensures rest[j] != relays[0] {
      assert relays[j + 1] == rest[j];
    }
    forall i, j | 0 <= i < j < |rest| ensures rest[i] != rest[j] {
      assert relays[i + 1] == rest[i] && relays[j + 1] == rest[j];
    }
  }

  /** With each leaf subscribed at most once, the broadcaster's dispatch logs exactly the reference calls. */
  lemma {:induction false} RunRelaysLog(f: Forest, relays: seq<NodeId>, action: string)
    requires NoRepeats(relays)
    ensures RunRelays(f, relays, action).log == f.log + RelayLog(f, relays, action)
    decreases |relays|
  {
    if relays == [] {
      assert f.log + [] == f.log;
    } else {
      RelayHead(f, relays, action);
      RunRelaysLog(Relay(f, relays[0], action), relays[1..], action);
    }
  }

  /** The first relay logs the head of the reference and leaves the rest of the reference unchanged. */
  lemma RelayHead(f: Forest, relays: seq<NodeId>, action: string)
    requires relays != [] && NoRepeats(relays)
    ensures NoRepeats(relays[1..])
    ensures RelayLog(Relay(f, relays[0], action), relays[1..], action) == RelayLog(f, relays[1..], action)
    ensures Relay(f, relays[0], action).log + RelayLog(f, relays[1..], action) == f.log + RelayLog(f, relays, action)
  {
    var r, rest := relays[0], relays[1..];
    var g := Relay(f, r, action);
    var head := if IsLeaf(f, r) && f.nodes[r].state != StateOf(f, r)
                then Notify(r, f.nodes[r].stateChanged, StateOf(f, r), action) else [];
    assert g.log == f.log + head;
    assert RelayLog(f, relays, action) == head + RelayLog(f, rest, action);
    RelayShape(f, r, action);
    NoRepeatsTail(relays);
    forall x | x in rest && x in f.nodes ensures g.nodes[x] == f.nodes[x] {
      assert x != r;
    }
    RelayLogFrame(f, g, rest, action);
    ConcatAssoc(f.log, head, RelayLog(f, rest, action));
  }

  /** With each leaf subscribed at most once, every relayed leaf ends up recording its current view. */
  lemma {:induction false} RunRelaysRecord(f: Forest, relays: seq<NodeId>, action: string)
    requires NoRepeats(relays)
    ensures forall x :: x in relays && IsLeaf(f, x) ==>
              RunRelays(f, relays, action).nodes[x].state == StateOf(f, x)
    decreases |relays|
  {
    if relays != [] {
      var r, rest := relays[0], relays[1..];
      var g := Relay(f, r, action);
      RelayShape(f, r, action);
      NoRepeatsTail(relays);
      RunRelaysRecord(g, rest, action);
      RunRelaysFrame(g, rest, action);
      forall x | x in relays && IsLeaf(f, x)
        ensures RunRelays(f, relays, action).nodes[x].state == StateOf(f, x)
      {
        SameShapeSameState(f, g, x);
      }
    }
  }

  /**
   * A root write: the old log, then the calls of the relays whose view
   * changed, then the root's own listeners with the new state and the action.
   */
  lemma RootWriteLog(f: Forest, id: NodeId, v: Value, action: string, stored: Forest)
    requires IsRoot(f, id) && NoRepeats(f.nodes[id].options.broadcaster.listeners)
    requires stored == f.(nodes := f.nodes[id := f.nodes[id].(state := v)])
    ensures UpdateState(f, id, v, action).log
            == f.log + RelayLog(stored, f.nodes[id].options.broadcaster.listeners, action)
               + Notify(id, f.nodes[id].stateChanged, v, action)
  {
    RunRelaysLog(stored, f.nodes[id].options.broadcaster.listeners, action);
  }

  /** After a root write every leaf relayed by that root has recorded its current view. */
  lemma RootWriteRecords(f: Forest, id: NodeId, v: Value, action: string)
    requires IsRoot(f, id) && NoRepeats(f.nodes[id].options.broadcaster.listeners)
    ensures forall x :: x in f.nodes[id].options.broadcaster.listeners && IsLeaf(f, x) ==>
              UpdateState(f, id, v, action).nodes[x].state == StateOf(UpdateState(f, id, v, action), x)
  {
    var b := f.nodes[id].options.broadcaster;
    var stored := f.(nodes := f.nodes[id := f.nodes[id].(state := v)]);
    var relayed := RunRelays(stored, b.listeners, action);
    var g := UpdateState(f, id, v, action);
    assert g.nodes == relayed.nodes;
    RunRelaysRecord(stored, b.listeners, action);
    RunRelaysShape(stored, b.listeners, action);
    forall x | x in b.listeners && IsLeaf(f, x)
      ensures g.nodes[x].state == StateOf(g, x)
    {
      assert IsLeaf(stored, x);
      SameShapeSameState(stored, relayed, x);
      SameShapeSameState(relayed, g, x);
    }
  }

  // ------------------------------------------------------------- listeners

  /** Replaces a root's broadcaster and sets a leaf's relay flag. */
  function Rewire(f: Forest, root: NodeId, b: Signal, id: NodeId, relay: bool): (r: Forest)
    requires root in f.nodes && id in f.nodes
  {
    f.(nodes := f.nodes[root := f.nodes[root].(options := RootOptions(b))][id := f.nodes[id].(relay := relay)])
  }

  /** Subscribes the leaf's relay (numbered by the leaf) to its root's broadcaster. */
  function Attach(f: Forest, id: NodeId): (r: Forest)
    requires Linked(f) && IsLeaf(f, id)
  {
    var root := RootOf(f, id);
    RootOfIsRoot(f, id);
    Rewire(f, root, Subscribe(f.nodes[root].options.broadcaster, id), id, true)
  }

  /** Unsubscribes the leaf's relay from its root's broadcaster. */
  function Detach(f: Forest, id: NodeId): (r: Forest)
    requires Linked(f) && IsLeaf(f, id)
  {
    var root := RootOf(f, id);
    RootOfIsRoot(f, id);
    Rewire(f, root, Unsubscribe(f.nodes[root].options.broadcaster, id).0, id, false)
  }

  /** Replaces the listeners of a container. */
  function SetListeners(f: Forest, id: NodeId, s: Signal): (r: Forest)
    requires id in f.nodes
  {
    f.(nodes := f.nodes[id := f.nodes[id].(stateChanged := s)])
  }

  /**
   * `onStateChange(listener)`: a leaf without listeners first attaches its
   * relay to the shared broadcaster; then the listener is subscribed.
   */
  function OnStateChange(f: Forest, id: NodeId, l: ListenerId): (r: Forest)
    requires Linked(f) && id in f.nodes
  {
    var f1 := if IsLeaf(f, id) && !HasListeners(f.nodes[id].stateChanged) then Attach(f, id) else f;
    SetListeners(f1, id, Subscribe(f1.nodes[id].stateChanged, l))
  }

  /**
   * The function `onStateChange` returns: removes the listener, detaches a
   * leaf's relay once no listener is left, and answers whether the listener
   * was subscribed.
   */
  function RemoveListener(f: Forest, id: NodeId, l: ListenerId): (r: (Forest, bool))
    requires Linked(f) && id in f.nodes
  {
    var (s, ok) := Unsubscribe(f.nodes[id].stateChanged, l);
    var f1 := SetListeners(f, id, s);
    if IsLeaf(f, id) && f.nodes[id].relay && !HasListeners(s) then (Detach(f1, id), ok) else (f1, ok)
  }

  /** A leaf has a relay exactly when it has listeners. */
  ghost predicate FlagsMatch(f: Forest) {
    forall id :: IsLeaf(f, id) ==> (f.nodes[id].relay <==> HasListeners(f.nodes[id].stateChanged))
  }

  /** A root's broadcaster holds each relay of its own leaves once and nothing else. */
  ghost predicate BroadcastersMatch(f: Forest) {
    forall r, x :: IsRoot(f, r) ==>
      multiset(f.nodes[r].options.broadcaster.listeners)[x]
      == if IsLeaf(f, x) && f.nodes[x].relay && RootOf(f, x) == r then 1 else 0
  }

  /** The relay bookkeeping of the containers. */
  ghost predicate RelayInv(f: Forest) {
    FlagsMatch(f) && BroadcastersMatch(f)
  }

  /** Rewiring a root's broadcaster and a leaf's flag changes no options, states, listeners or roots. */
  lemma RewireShape(f: Forest, root: NodeId, b: Signal, id: NodeId, relay: bool)
    requires IsRoot(f, root) && IsLeaf(f, id)
    ensures SameShape(f, Rewire(f, root, b, id, relay))
    ensures Linked(f) ==> Linked(Rewire(f, root, b, id, relay))
    ensures forall x :: x in f.nodes ==>
              Rewire(f, root, b, id, relay).nodes[x].stateChanged == f.nodes[x].stateChanged
  {
  }

  /** Changing listeners only changes no options, states or broadcasters. */
  lemma SetListenersShape(f: Forest, id: NodeId, s: Signal)
    requires id in f.nodes
    ensures SameShape(f, SetListeners(f, id, s))
    ensures Linked(f) ==> Linked(SetListeners(f, id, s))
    ensures BroadcastersMatch(f) ==> BroadcastersMatch(SetListeners(f, id, s))
  {
    var g := SetListeners(f, id, s);
    if BroadcastersMatch(f) {
      forall r, x | IsRoot(g, r)
        ensures multiset(g.nodes[r].options.broadcaster.listeners)[x]
                == if IsLeaf(g, x) && g.nodes[x].relay && RootOf(g, x) == r then 1 else 0
      {
        SameOptionsSameRoot(f, g, x);
      }
    }
  }

  /** A relay invariant holds of any forest with the same options, listeners, flags and broadcasters. */
  lemma RelayInvFrame(f: Forest, g: Forest)
    requires RelayInv(f) && SameOptions(f, g) && SameWiring(f, g)
    ensures RelayInv(g)
  {
    forall r, x | IsRoot(g, r)
      ensures multiset(g.nodes[r].options.broadcaster.listeners)[x]
              == if IsLeaf(g, x) && g.nodes[x].relay && RootOf(g, x) == r then 1 else 0
    {
      SameOptionsSameRoot(f, g, x);
    }
  }

  /** The broadcaster count of one relay in one root after attaching. */
  lemma AttachCount(f: Forest, id: NodeId, r: NodeId, x: NodeId)
    requires Linked(f) && IsLeaf(f, id) && BroadcastersMatch(f) && !f.nodes[id].relay
    requires IsRoot(Attach(f, id), r)
    ensures multiset(Attach(f, id).nodes[r].options.broadcaster.listeners)[x]
            == if IsLeaf(Attach(f, id), x) && Attach(f, id).nodes[x].relay && RootOf(Attach(f, id), x) == r then 1 else 0
  {
    var root := RootOf(f, id);
    RootOfIsRoot(f, id);
    var g := Attach(f, id);
    RewireShape(f, root, Subscribe(f.nodes[root].options.broadcaster, id), id, true);
    SameOptionsSameRoot(f, g, x);
    assert IsRoot(f, r);
    if r == root {
      assert multiset(g.nodes[r].options.broadcaster.listeners)[x]
             == multiset(f.nodes[r].options.broadcaster.listeners)[x] + (if x == id then 1 else 0);
    } else {
      assert g.nodes[r] == f.nodes[r];
    }
  }

  /** Attaching the relay of a leaf that had none puts it once in its root's broadcaster. */
  lemma AttachKeeps(f: Forest, id: NodeId)
    requires Linked(f) && IsLeaf(f, id) && BroadcastersMatch(f) && !f.nodes[id].relay
    ensures Linked(Attach(f, id)) && BroadcastersMatch(Attach(f, id)) && SameShape(f, Attach(f, id))
    ensures Attach(f, id).nodes[id].relay
    ensures forall x :: x in f.nodes ==> Attach(f, id).nodes[x].stateChanged == f.nodes[x].stateChanged
    ensures forall x :: x in f.nodes && x != id ==> Attach(f, id).nodes[x].relay == f.nodes[x].relay
    ensures Attach(f, id).log == f.log
  {
    RootOfIsRoot(f, id);
    RewireShape(f, RootOf(f, id), Subscribe(f.nodes[RootOf(f, id)].options.broadcaster, id), id, true);
    forall r, x | IsRoot(Attach(f, id), r)
      ensures multiset(Attach(f, id).nodes[r].options.broadcaster.listeners)[x]
              == if IsLeaf(Attach(f, id), x) && Attach(f, id).nodes[x].relay && RootOf(Attach(f, id), x) == r then 1 else 0
    {
      AttachCount(f, id, r, x);
    }
  }

  /** The broadcaster count of one relay in one root after detaching. */
  lemma DetachCount(f: Forest, id: NodeId, r: NodeId, x: NodeId)
    requires Linked(f) && IsLeaf(f, id) && BroadcastersMatch(f) && f.nodes[id].relay
    requires IsRoot(Detach(f, id), r)
    ensures multiset(Detach(f, id).nodes[r].options.broadcaster.listeners)[x]
            == if IsLeaf(Detach(f, id), x) && Detach(f, id).nodes[x].relay && RootOf(Detach(f, id), x) == r then 1 else 0
  {
    var root := RootOf(f, id);
    RootOfIsRoot(f, id);
    var g := Detach(f, id);
    var b := f.nodes[root].options.broadcaster;
    assert multiset(b.listeners)[id] == 1;
    RewireShape(f, root, Unsubscribe(b, id).0, id, false);
    SameOptionsSameRoot(f, g, x);
    assert IsRoot(f, r);
    if r == root {
      assert multiset(g.nodes[r].options.broadcaster.listeners)[x]
             == multiset(b.listeners)[x] - (if x == id then 1 else 0);
    } else {
      assert g.nodes[r] == f.nodes[r];
    }
  }

  /** Detaching the relay of a leaf removes its one entry from its root's broadcaster. */
  lemma DetachKeeps(f: Forest, id: NodeId)
    requires Linked(f) && IsLeaf(f, id) && BroadcastersMatch(f) && f.nodes[id].relay
    ensures Linked(Detach(f, id)) && BroadcastersMatch(Detach(f, id)) && SameShape(f, Detach(f, id))
    ensures !Detach(f, id).nodes[id].relay
    ensures forall x :: x in f.nodes ==> Detach(f, id).nodes[x].stateChanged == f.nodes[x].stateChanged
    ensures forall x :: x in f.nodes && x != id ==> Detach(f, id).nodes[x].relay == f.nodes[x].relay
    ensures Detach(f, id).log == f.log
  {
    RootOfIsRoot(f, id);
    var b := f.nodes[RootOf(f, id)].options.broadcaster;
    RewireShape(f, RootOf(f, id), Unsubscribe(b, id).0, id, false);
    forall r, x | IsRoot(Detach(f, id), r)
      ensures multiset(Detach(f, id).nodes[r].options.broadcaster.listeners)[x]
              == if IsLeaf(Detach(f, id), x) && Detach(f, id).nodes[x].relay && RootOf(Detach(f, id), x) == r then 1 else 0
    {
      DetachCount(f, id, r, x);
    }
  }

  /** `onStateChange` keeps the relay bookkeeping, subscribes the listener and changes no state. */
  lemma OnStateChangeKeeps(f: Forest, id: NodeId, l: ListenerId)
    requires Linked(f) && id in f.nodes && RelayInv(f)
    ensures Linked(OnStateChange(f, id, l)) && RelayInv(OnStateChange(f, id, l))
    ensures l in OnStateChange(f, id, l).nodes[id].stateChanged.listeners
    ensures forall x :: StateOf(OnStateChange(f, id, l), x) == StateOf(f, x)
    ensures OnStateChange(f, id, l).log == f.log
  {
    var attach := IsLeaf(f, id) && !HasListeners(f.nodes[id].stateChanged);
    var f1 := if attach then Attach(f, id) else f;
    if attach {
      AttachKeeps(f, id);
    }
    var s := Subscribe(f1.nodes[id].stateChanged, l);
    var g := SetListeners(f1, id, s);
    SetListenersShape(f1, id, s);
    assert s.listeners[|s.listeners| - 1] == l;
    forall x ensures StateOf(g, x) == StateOf(f, x) {
      SameShapeSameState(f, f1, x);
      SameShapeSameState(f1, g, x);
    }
  }

  /** Removing a listener keeps the relay bookkeeping and changes no state. */
  lemma RemoveListenerKeeps(f: Forest, id: NodeId, l: ListenerId)
    requires Linked(f) && id in f.nodes && RelayInv(f)
    ensures Linked(RemoveListener(f, id, l).0) && RelayInv(RemoveListener(f, id, l).0)
    ensures RemoveListener(f, id, l).1 <==> l in f.nodes[id].stateChanged.listeners
    ensures forall x :: StateOf(RemoveListener(f, id, l).0, x) == StateOf(f, x)
    ensures RemoveListener(f, id, l).0.log == f.log
  {
    var s := Unsubscribe(f.nodes[id].stateChanged, l).0;
    var f1 := SetListeners(f, id, s);
    SetListenersShape(f, id, s);
    var g := RemoveListener(f, id, l).0;
    if IsLeaf(f, id) && f.nodes[id].relay && !HasListeners(s) {
      DetachKeeps(f1, id);
    }
    forall x ensures StateOf(g, x) == StateOf(f, x) {
      SameShapeSameState(f, f1, x);
      SameShapeSameState(f1, g, x);
    }
  }

  // --------------------------------------------------------- writes and relays

  /** A list in which nothing occurs twice. */
  lemma CountsNoRepeats(xs: seq<NodeId>)
    requires forall x :: multiset(xs)[x] <= 1
    ensures NoRepeats(xs)
  {
    forall i, j | 0 <= i < j < |xs| ensures xs[i] != xs[j] {
      assert xs == xs[..j] + [xs[j]] + xs[j + 1..];
      assert xs[..j][i] == xs[i];
      assert multiset(xs[..j])[xs[i]] >= 1;
      assert multiset(xs)[xs[j]] == multiset(xs[..j])[xs[j]] + 1 + multiset(xs[j + 1..])[xs[j]];
    }
  }

  /** Under the relay bookkeeping no broadcaster holds a relay twice. */
  lemma InvNoRepeats(f: Forest, r: NodeId)
    requires RelayInv(f) && IsRoot(f, r)
    ensures NoRepeats(f.nodes[r].options.broadcaster.listeners)
  {
    var xs := f.nodes[r].options.broadcaster.listeners;
    assert BroadcastersMatch(f);
    forall x ensures multiset(xs)[x] <= 1 {
      var counted := IsLeaf(f, x) && f.nodes[x].relay && RootOf(f, x) == r;
      assert multiset(f.nodes[r].options.broadcaster.listeners)[x] == if counted then 1 else 0;
    }
    CountsNoRepeats(xs);
  }

  /** A write keeps the links and the relay bookkeeping. */
  lemma UpdateStateKeeps(f: Forest, id: NodeId, v: Value, action: string)
    requires Linked(f) && RelayInv(f)
    ensures Linked(UpdateState(f, id, v, action)) && RelayInv(UpdateState(f, id, v, action))
  {
    UpdateStateShape(f, id, v, action);
    RelayInvFrame(f, UpdateState(f, id, v, action));
  }

  /** A leaf's write is its root's write of the state its lenses compute. */
  lemma {:induction false} ClimbToRoot(f: Forest, id: NodeId, v: Value, action: string) returns (w: Value)
    requires Linked(f) && id in f.nodes
    ensures UpdateState(f, id, v, action) == UpdateState(f, RootOf(f, id), w, action)
    ensures IsRoot(f, id) ==> w == v
    decreases id
  {
    match f.nodes[id].options
    case RootOptions(_) =>
      w := v;
    case LeafOptions(src, lens) =>
      w := ClimbToRoot(f, src, lens.put(v, StateOf(f, src)), action);
  }

  /** Containers under other roots keep their state when one root is written. */
  lemma {:induction false} OtherRootState(f: Forest, g: Forest, root: NodeId, x: NodeId)
    requires Linked(f) && SameOptions(f, g)
    requires forall r :: IsRoot(f, r) && r != root ==> g.nodes[r].state == f.nodes[r].state
    requires x in f.nodes && RootOf(f, x) != root
    ensures StateOf(g, x) == StateOf(f, x)
    decreases x
  {
    if f.nodes[x].options.LeafOptions? {
      OtherRootState(f, g, root, f.nodes[x].options.source);
    }
  }

  // ------------------------------------------------- recorded views (corrected)

  /** Every leaf with a relay has recorded its current view. */
  ghost predicate Fresh(f: Forest) {
    forall x :: IsLeaf(f, x) && f.nodes[x].relay ==> f.nodes[x].state == StateOf(f, x)
  }

  /** A leaf records its current view. */
  function Record(f: Forest, id: NodeId): (r: Forest)
    requires id in f.nodes
    ensures r.nodes.Keys == f.nodes.Keys
  {
    f.(nodes := f.nodes[id := f.nodes[id].(state := StateOf(f, id))])
  }

  /**
   * `onStateChange` with the relay recording the leaf's view when it is
   * attached, so that its first comparison is against the state the new
   * listener saw rather than one recorded before an unobserved write.
   */
  function OnStateChangeFixed(f: Forest, id: NodeId, l: ListenerId): (r: Forest)
    requires Linked(f) && id in f.nodes
  {
    var f1 := if IsLeaf(f, id) && !HasListeners(f.nodes[id].stateChanged) then Record(Attach(f, id), id) else f;
    SetListeners(f1, id, Subscribe(f1.nodes[id].stateChanged, l))
  }

  lemma RecordShape(f: Forest, id: NodeId)
    requires IsLeaf(f, id)
    ensures SameShape(f, Record(f, id)) && SameWiring(f, Record(f, id))
    ensures Linked(f) ==> Linked(Record(f, id))
    ensures BroadcastersMatch(f) ==> BroadcastersMatch(Record(f, id))
    ensures Record(f, id).nodes[id].state == StateOf(f, id)
    ensures forall x :: x in f.nodes && x != id ==> Record(f, id).nodes[x] == f.nodes[x]
    ensures Record(f, id).log == f.log
  {
    var g := Record(f, id);
    if BroadcastersMatch(f) {
      forall r, x | IsRoot(g, r)
        ensures multiset(g.nodes[r].options.broadcaster.listeners)[x]
                == if IsLeaf(g, x) && g.nodes[x].relay && RootOf(g, x) == r then 1 else 0
      {
        SameOptionsSameRoot(f, g, x);
      }
    }
  }

  /** Attaching and recording a leaf's relay keeps every recorded view current. */
  lemma AttachRecordFresh(f: Forest, id: NodeId)
    requires Linked(f) && IsLeaf(f, id) && BroadcastersMatch(f) && !f.nodes[id].relay && Fresh(f)
    ensures Fresh(Record(Attach(f, id), id))
  {
    var a := Attach(f, id);
    var f1 := Record(a, id);
    AttachKeeps(f, id);
    RecordShape(a, id);
    forall x | IsLeaf(f1, x) && f1.nodes[x].relay ensures f1.nodes[x].state == StateOf(f1, x) {
      SameShapeSameState(f, a, x);
      SameShapeSameState(a, f1, x);
    }
  }

  /** Subscribing a listener keeps every recorded view current. */
  lemma SetListenersFresh(f: Forest, id: NodeId, s: Signal)
    requires id in f.nodes && Fresh(f)
    ensures Fresh(SetListeners(f, id, s))
  {
    var g := SetListeners(f, id, s);
    SetListenersShape(f, id, s);
    forall x | IsLeaf(g, x) && g.nodes[x].relay ensures g.nodes[x].state == StateOf(g, x) {
      SameShapeSameState(f, g, x);
    }
  }

  /** The corrected `onStateChange` keeps the relay bookkeeping and every recorded view current. */
  lemma OnStateChangeFixedKeeps(f: Forest, id: NodeId, l: ListenerId)
    requires Linked(f) && id in f.nodes && RelayInv(f) && Fresh(f)
    ensures Linked(OnStateChangeFixed(f, id, l)) && RelayInv(OnStateChangeFixed(f, id, l))
    ensures Fresh(OnStateChangeFixed(f, id, l))
    ensures l in OnStateChangeFixed(f, id, l).nodes[id].stateChanged.listeners
    ensures forall x :: StateOf(OnStateChangeFixed(f, id, l), x) == StateOf(f, x)
    ensures OnStateChangeFixed(f, id, l).log == f.log
  {
    OnStateChangeFixedInv(f, id, l);
    OnStateChangeFixedFresh(f, id, l);
  }

  lemma OnStateChangeFixedInv(f: Forest, id: NodeId, l: ListenerId)
    requires Linked(f) && id in f.nodes && RelayInv(f)
    ensures Linked(OnStateChangeFixed(f, id, l)) && RelayInv(OnStateChangeFixed(f, id, l))
  {
    var attach := IsLeaf(f, id) && !HasListeners(f.nodes[id].stateChanged);
    var f1 := if attach then Record(Attach(f, id), id) else f;
    if attach {
      AttachKeeps(f, id);
      RecordShape(Attach(f, id), id);
    }
    assert Linked(f1) && BroadcastersMatch(f1);
    assert forall x :: x in f.nodes && x != id ==> f1.nodes[x].relay == f.nodes[x].relay;
    assert forall x :: x in f.nodes ==> f1.nodes[x].stateChanged == f.nodes[x].stateChanged;
    assert f1.nodes.Keys == f.nodes.Keys && (IsLeaf(f1, id) <==> IsLeaf(f, id));
    assert attach ==> f1.nodes[id].relay;
    var s := Subscribe(f1.nodes[id].stateChanged, l);
    var g := SetListeners(f1, id, s);
    SetListenersShape(f1, id, s);
    forall x | IsLeaf(g, x) ensures g.nodes[x].relay <==> HasListeners(g.nodes[x].stateChanged) {
      if x == id {
        assert |s.listeners| > 0;
      } else {
        assert IsLeaf(f, x);
      }
    }
  }

  lemma OnStateChangeFixedFresh(f: Forest, id: NodeId, l: ListenerId)
    requires Linked(f) && id in f.nodes && RelayInv(f) && Fresh(f)
    ensures Fresh(OnStateChangeFixed(f, id, l))
    ensures l in OnStateChangeFixed(f, id, l).nodes[id].stateChanged.listeners
    ensures forall x :: StateOf(OnStateChangeFixed(f, id, l), x) == StateOf(f, x)
    ensures OnStateChangeFixed(f, id, l).log == f.log
  {
    var attach := IsLeaf(f, id) && !HasListeners(f.nodes[id].stateChanged);
    var f1 := if attach then Record(Attach(f, id), id) else f;
    if attach {
      AttachKeeps(f, id);
      RecordShape(Attach(f, id), id);
      AttachRecordFresh(f, id);
    }
    assert SameShape(f, f1);
    var s := Subscribe(f1.nodes[id].stateChanged, l);
    var g := SetListeners(f1, id, s);
    SetListenersShape(f1, id, s);
    SetListenersFresh(f1, id, s);
    assert s.listeners[|s.listeners| - 1] == l;
    forall x ensures StateOf(g, x) == StateOf(f, x) {
      SameShapeSameState(f, f1, x);
      SameShapeSameState(f1, g, x);
    }
  }

  /** Removing a listener keeps every recorded view current. */
  lemma RemoveListenerFresh(f: Forest, id: NodeId, l: ListenerId)
    requires Linked(f) && id in f.nodes && RelayInv(f) && Fresh(f)
    ensures Fresh(RemoveListener(f, id, l).0)
  {
    RemoveListenerKeeps(f, id, l);
    var s := Unsubscribe(f.nodes[id].stateChanged, l).0;
    var f1 := SetListeners(f, id, s);
    if IsLeaf(f, id) && f.nodes[id].relay && !HasListeners(s) {
      SetListenersShape(f, id, s);
      DetachKeeps(f1, id);
    }
  }

  /** After a root write, one leaf with a relay has recorded its current view. */
  lemma RootWriteFreshAt(f: Forest, root: NodeId, v: Value, action: string, x: NodeId)
    requires Linked(f) && RelayInv(f) && Fresh(f) && IsRoot(f, root)
    requires IsLeaf(UpdateState(f, root, v, action), x) && UpdateState(f, root, v, action).nodes[x].relay
    ensures UpdateState(f, root, v, action).nodes[x].state == StateOf(UpdateState(f, root, v, action), x)
  {
    var b := f.nodes[root].options.broadcaster;
    var stored := f.(nodes := f.nodes[root := f.nodes[root].(state := v)]);
    var g := UpdateState(f, root, v, action);
    UpdateStateShape(f, root, v, action);
    SameOptionsSameRoot(f, g, x);
    InvNoRepeats(f, root);
    assert BroadcastersMatch(f);
    var counted := IsLeaf(f, x) && f.nodes[x].relay && RootOf(f, x) == root;
    assert multiset(b.listeners)[x] == if counted then 1 else 0;
    if RootOf(f, x) == root {
      RootWriteRecords(f, root, v, action);
    } else {
      RunRelaysFrame(stored, b.listeners, action);
      forall r | IsRoot(f, r) && r != root ensures g.nodes[r].state == f.nodes[r].state {
        assert !IsLeaf(f, r);
        assert multiset(b.listeners)[r] == 0;
      }
      OtherRootState(f, g, root, x);
    }
  }

  /** Every write keeps every recorded view current. */
  lemma UpdateStateFresh(f: Forest, id: NodeId, v: Value, action: string)
    requires Linked(f) && RelayInv(f) && Fresh(f) && id in f.nodes
    ensures Fresh(UpdateState(f, id, v, action))
  {
    var w := ClimbToRoot(f, id, v, action);
    var root := RootOf(f, id);
    RootOfIsRoot(f, id);
    forall x | IsLeaf(UpdateState(f, root, w, action), x) && UpdateState(f, root, w, action).nodes[x].relay
      ensures UpdateState(f, root, w, action).nodes[x].state == StateOf(UpdateState(f, root, w, action), x)
    {
      RootWriteFreshAt(f, root, w, action, x);
    }
  }

  /** The intended relay behaviour: exactly the listed leaves whose view changed hear the new view. */
  function ChangedLog(f: Forest, g: Forest, relays: seq<NodeId>, action: string): seq<Heard>
    decreases |relays|
  {
    if relays == [] then []
    else
      var x := relays[0];
      (if x in f.nodes && StateOf(g, x) != StateOf(f, x)
       then Notify(x, f.nodes[x].stateChanged, StateOf(g, x), action) else [])
      + ChangedLog(f, g, relays[1..], action)
  }

  lemma {:induction false} RelayLogIsChangedLog(f: Forest, stored: Forest, g: Forest, xs: seq<NodeId>, action: string)
    requires forall x :: x in xs ==>
               (&& IsLeaf(stored, x) && x in f.nodes
                && stored.nodes[x].state == StateOf(f, x)
                && stored.nodes[x].stateChanged == f.nodes[x].stateChanged
                && StateOf(stored, x) == StateOf(g, x))
    ensures RelayLog(stored, xs, action) == ChangedLog(f, g, xs, action)
    decreases |xs|
  {
    if xs != [] {
      RelayLogIsChangedLog(f, stored, g, xs[1..], action);
    }
  }

  /** A container in a root's broadcaster is a leaf of that root with a relay. */
  lemma RelayedLeaf(f: Forest, root: NodeId, x: NodeId)
    requires RelayInv(f) && IsRoot(f, root)
    requires x in f.nodes[root].options.broadcaster.listeners
    ensures IsLeaf(f, x) && f.nodes[x].relay && RootOf(f, x) == root && x != root
  {
    var b := f.nodes[root].options.broadcaster;
    assert BroadcastersMatch(f);
    assert multiset(b.listeners)[x] == if IsLeaf(f, x) && f.nodes[x].relay && RootOf(f, x) == root then 1 else 0;
  }

  /** What a relay of a root sees on a write when every recorded view is current. */
  lemma FreshRelayFacts(f: Forest, root: NodeId, v: Value, action: string, x: NodeId)
    requires Linked(f) && RelayInv(f) && Fresh(f) && IsRoot(f, root)
    requires x in f.nodes[root].options.broadcaster.listeners
    ensures var stored := f.(nodes := f.nodes[root := f.nodes[root].(state := v)]);
            && IsLeaf(stored, x) && x in f.nodes
            && stored.nodes[x].state == StateOf(f, x)
            && stored.nodes[x].stateChanged == f.nodes[x].stateChanged
            && StateOf(stored, x) == StateOf(UpdateState(f, root, v, action), x)
  {
    var b := f.nodes[root].options.broadcaster;
    var stored := f.(nodes := f.nodes[root := f.nodes[root].(state := v)]);
    var relayed := RunRelays(stored, b.listeners, action);
    RelayedLeaf(f, root, x);
    assert stored.nodes[x] == f.nodes[x];
    RunRelaysShape(stored, b.listeners, action);
    SameShapeSameState(stored, relayed, x);
    assert UpdateState(f, root, v, action).nodes == relayed.nodes;
    SameShapeSameState(relayed, UpdateState(f, root, v, action), x);
  }

  /**
   * With every recorded view current, a root write notifies the listeners of
   * exactly those relayed leaves whose view changed, then the root's own.
   */
  lemma FreshWriteNotifiesChanges(f: Forest, root: NodeId, v: Value, action: string)
    requires Linked(f) && RelayInv(f) && Fresh(f) && IsRoot(f, root)
    ensures UpdateState(f, root, v, action).log
            == f.log + ChangedLog(f, UpdateState(f, root, v, action), f.nodes[root].options.broadcaster.listeners, action)
               + Notify(root, f.nodes[root].stateChanged, v, action)
  {
    var b := f.nodes[root].options.broadcaster;
    var stored := f.(nodes := f.nodes[root := f.nodes[root].(state := v)]);
    var relayed := RunRelays(stored, b.listeners, action);
    var g := UpdateState(f, root, v, action);
    InvNoRepeats(f, root);
    RootWriteLog(f, root, v, action, stored);
    forall x | x in b.listeners
      ensures && IsLeaf(stored, x) && x in f.nodes
              && stored.nodes[x].state == StateOf(f, x)
              && stored.nodes[x].stateChanged == f.nodes[x].stateChanged
              && StateOf(stored, x) == StateOf(g, x)
    {
      FreshRelayFacts(f, root, v, action, x);
    }
    RelayLogIsChangedLog(f, stored, g, b.listeners, action);
  }

  // --------------------------------------------- stale recorded view (as written)

  const CounterRoot := Node(RootOptions(Empty), Obj(map["count" := Num(1)]), Empty, false, Obj(map[]), map[])
  const CounterLeaf := Node(LeafOptions(0, Lenses.PropLens("count")), Num(1), Empty, false, Obj(map[]), map[])

  /** A root holding `{ count: 1 }` and a child on `count` with no listeners. */
  const CounterForest := Forest(map[0 := CounterRoot, 1 := CounterLeaf], 2, [])

  lemma CounterForestFacts()
    ensures Linked(CounterForest) && RelayInv(CounterForest) && Fresh(CounterForest)
    ensures StateOf(CounterForest, 1) == Num(1)
  {
  }

  /** A child on a property of a root writes the root's state with that property replaced. */
  lemma PropChildWrite(f: Forest, c: NodeId, name: string, v: Value, action: string)
    requires IsLeaf(f, c) && f.nodes[c].options.lens == Lenses.PropLens(name)
    requires f.nodes[c].options.source < c && IsRoot(f, f.nodes[c].options.source)
    ensures UpdateState(f, c, v, action)
            == UpdateState(f, f.nodes[c].options.source, With(f.nodes[f.nodes[c].options.source].state, name, v), action)
  {
  }

  const Count2 := Obj(map["count" := Num(2)])
  const Count1 := Obj(map["count" := Num(1)])

  /** After the unobserved increment. */
  const Incremented := Forest(map[0 := CounterRoot.(state := Count2), 1 := CounterLeaf], 2, [])

  lemma IncrementUnobserved()
    ensures Commit(CounterForest, 1, "increment", Num(2)).0 == Incremented
  {
    CounterForestFacts();
    PropChildWrite(CounterForest, 1, "count", Num(2), "increment");
    assert With(Count1, "count", Num(2)) == Count2;
  }

  /** After subscribing listener 7, as written: the recorded view is still 1. */
  const Subscribed := Forest(map[0 := CounterRoot.(state := Count2, options := RootOptions(Signal([1]))),
                                 1 := CounterLeaf.(stateChanged := Signal([7]), relay := true)], 2, [])

  lemma SubscribeAsWritten()
    ensures Linked(Incremented) && OnStateChange(Incremented, 1, 7) == Subscribed
    ensures StateOf(Subscribed, 1) == Num(2)
  {
    assert Linked(Incremented);
    assert RootOf(Incremented, 1) == 0;
  }

  lemma DecrementAsWritten()
    ensures Commit(Subscribed, 1, "decrement", Num(1)).0
            == Subscribed.(nodes := Subscribed.nodes[0 := Subscribed.nodes[0].(state := Count1)])
  {
    assert StateOf(Subscribed, 1) == Num(2);
    PropChildWrite(Subscribed, 1, "count", Num(1), "decrement");
    assert With(Count2, "count", Num(1)) == Count1;
    var stored := Subscribed.(nodes := Subscribed.nodes[0 := Subscribed.nodes[0].(state := Count1)]);
    assert StateOf(stored, 1) == Num(1);
    assert Relay(stored, 1, "decrement") == stored;
  }

  /**
   * As written, a relay attached after an unobserved write compares against
   * the view recorded before it: the child goes 1 -> 2 with no listener, a
   * listener subscribes, the child goes back 2 -> 1, and the listener is
   * never called although the state it saw changed.
   */
  lemma StaleRelayMissesChange()
    ensures Linked(Incremented)
    ensures Commit(CounterForest, 1, "increment", Num(2)).0 == Incremented
    ensures OnStateChange(Incremented, 1, 7) == Subscribed
    ensures Commit(Subscribed, 1, "decrement", Num(1)).0
            == Subscribed.(nodes := Subscribed.nodes[0 := Subscribed.nodes[0].(state := Count1)])
    ensures var f3 := Commit(OnStateChange(Commit(CounterForest, 1, "increment", Num(2)).0, 1, 7), 1, "decrement", Num(1)).0;
            && 7 in f3.nodes[1].stateChanged.listeners
            && StateOf(f3, 1) == Num(1) && f3.log == []
    ensures StateOf(OnStateChange(Incremented, 1, 7), 1) == Num(2)
  {
    IncrementUnobserved();
    SubscribeAsWritten();
    DecrementAsWritten();
  }

  /** After subscribing listener 7 with the correction: the recorded view is 2. */
  const SubscribedFixed := Subscribed.(nodes := Subscribed.nodes[1 := Subscribed.nodes[1].(state := Num(2))])

  lemma SubscribeFixed()
    ensures Linked(Incremented) && OnStateChangeFixed(Incremented, 1, 7) == SubscribedFixed
    ensures StateOf(SubscribedFixed, 1) == Num(2)
  {
    assert Linked(Incremented);
    assert RootOf(Incremented, 1) == 0;
    assert StateOf(Attach(Incremented, 1), 1) == Num(2);
  }

  lemma DecrementFixed()
    ensures Commit(SubscribedFixed, 1, "decrement", Num(1)).0.log == [Heard(1, Call(7, (Num(1), "decrement")))]
  {
    assert StateOf(SubscribedFixed, 1) == Num(2);
    PropChildWrite(SubscribedFixed, 1, "count", Num(1), "decrement");
    assert With(Count2, "count", Num(1)) == Count1;
    var stored := SubscribedFixed.(nodes := SubscribedFixed.nodes[0 := SubscribedFixed.nodes[0].(state := Count1)]);
    assert StateOf(stored, 1) == Num(1);
    assert Relay(stored, 1, "decrement").log == Notify(1, Signal([7]), Num(1), "decrement");
  }

  /** With the correction, the same sequence calls the listener once with the new state. */
  lemma FixedRelayHearsChange()
    ensures Linked(Incremented)
    ensures Commit(CounterForest, 1, "increment", Num(2)).0 == Incremented
    ensures OnStateChangeFixed(Incremented, 1, 7) == SubscribedFixed
    ensures Commit(OnStateChangeFixed(Commit(CounterForest, 1, "increment", Num(2)).0, 1, 7), 1, "decrement", Num(1)).0.log
            == [Heard(1, Call(7, (Num(1), "decrement")))]
  {
    IncrementUnobserved();
    SubscribeFixed();
    DecrementFixed();
  }
}

=== FILE: installer.dfy ===
/**
 * The plugin installer: a registry object from plugin names to decorator
 * factories, and `install`, which refuses a name that is already taken.
 *
 * The registry is a plain object, so reading `plugins[name]` also finds the
 * methods every object inherits.  Factories are represented by their
 * truthiness only: an inherited method is a function, so it is truthy.
 */
module Installer {
  import opened Values

  type Registry = map<string, Value>

  datatype InstallError = AlreadyInstalled(name: string)

  /** The properties a plain object inherits from `Object.prototype`. */
  const Inherited: set<string> := {
    "constructor", "hasOwnProperty", "isPrototypeOf", "propertyIsEnumerable",
    "toLocaleString", "toString", "valueOf", "__defineGetter__", "__defineSetter__",
    "__lookupGetter__", "__lookupSetter__", "__proto__"
  }

  /** `!!plugins[name]`: an own property shadows an inherited one. */
  predicate Taken(reg: Registry, name: string) {
    if name in reg then !Falsy(reg[name]) else name in Inherited
  }

  // ------------------------------------------------------------ as written

  /** `install({ name, decoratorFactory })`. */
  function Install(reg: Registry, name: string, factory: Value): (r: Result<Registry, InstallError>)
  {
    if Taken(reg, name) then Failure(AlreadyInstalled(name)) else Success(reg[name := factory])
  }

  /** A truthy factory cannot be installed twice under one name. */
  lemma InstallTwiceFails(reg: Registry, name: string, factory: Value, other: Value)
    requires !Falsy(factory) && Install(reg, name, factory).Success?
    ensures Install(Install(reg, name, factory).value, name, other) == Failure(AlreadyInstalled(name))
  {
  }

  /** As written: an empty registry refuses a plugin named like an inherited method. */
  lemma InheritedNameRefused()
    ensures Install(map[], "constructor", Bool(true)) == Failure(AlreadyInstalled("constructor"))
    ensures Install(map[], "toString", Bool(true)) == Failure(AlreadyInstalled("toString"))
  {
  }

  /** As written: a name whose factory is falsy counts as free again. */
  lemma FalsyFactoryReplaced(name: string, factory: Value)
    requires name !in Inherited
    ensures Install(map[name := Undefined], name, factory) == Success(map[name := factory])
  {
    assert map[name := Undefined][name := factory] == map[name := factory];
  }

  // ------------------------------------------------------------- corrected

  /** `install` reading only the registry's own properties. */
  function InstallFixed(reg: Registry, name: string, factory: Value): (r: Result<Registry, InstallError>)
    ensures r.Failure? <==> name in reg
    ensures r.Success? ==> r.value.Keys == reg.Keys + {name} && r.value[name] == factory
    ensures r.Success? ==> forall k :: k in reg ==> r.value[k] == reg[k]
  {
    if name in reg then Failure(AlreadyInstalled(name)) else Success(reg[name := factory])
  }

  /** No two entries share a name. */
  predicate DistinctNames(plugins: seq<(string, Value)>) {
    forall i, j :: 0 <= i < j < |plugins| ==> plugins[i].0 != plugins[j].0
  }

  function NamesOf(plugins: seq<(string, Value)>): (r: set<string>)
    ensures forall k :: k in r <==> exists i :: 0 <= i < |plugins| && plugins[i].0 == k
  {
    set i | 0 <= i < |plugins| :: plugins[i].0
  }

  /** Installing plugins one after the other, stopping at the first refusal. */
  function InstallAll(reg: Registry, plugins: seq<(string, Value)>): Result<Registry, InstallError>
    decreases |plugins|
  {
    if plugins == [] then Success(reg)
    else
      match InstallFixed(reg, plugins[0].0, plugins[0].1)
      case Failure(e) => Failure(e)
      case Success(reg1) => InstallAll(reg1, plugins[1..])
  }

  /**
   * With the corrected check, a series of installs succeeds exactly when the
   * names are distinct and none is registered yet, and then registers them all.
   */
  lemma {:induction false} InstallAllSucceeds(reg: Registry, plugins: seq<(string, Value)>)
    ensures InstallAll(reg, plugins).Success? <==> DistinctNames(plugins) && reg.Keys !! NamesOf(plugins)
    ensures InstallAll(reg, plugins).Success? ==> InstallAll(reg, plugins).value.Keys == reg.Keys + NamesOf(plugins)
    decreases |plugins|
  {
    if plugins != [] {
      var (name, factory) := plugins[0];
      var rest := plugins[1..];
      assert NamesOf(plugins) == {name} + NamesOf(rest) by {
        forall k | k in NamesOf(plugins) ensures k in {name} + NamesOf(rest) {
          var i :| 0 <= i < |plugins| && plugins[i].0 == k;
          if i > 0 { assert rest[i - 1].0 == k; }
        }
        forall k | k in NamesOf(rest) ensures k in NamesOf(plugins) {
          var i :| 0 <= i < |rest| && rest[i].0 == k;
          assert plugins[i + 1].0 == k;
        }
      }
      assert DistinctNames(plugins) <==> DistinctNames(rest) && name !in NamesOf(rest) by {
        if DistinctNames(plugins) {
          forall i, j | 0 <= i < j < |rest| ensures rest[i].0 != rest[j].0 {
            assert rest[i] == plugins[i + 1] && rest[j] == plugins[j + 1];
          }
          forall i | 0 <= i < |rest| ensures rest[i].0 != name {
            assert rest[i] == plugins[i + 1];
          }
        }
        if DistinctNames(rest) && name !in NamesOf(rest) {
          forall i, j | 0 <= i < j < |plugins| ensures plugins[i].0 != plugins[j].0 {
            assert plugins[j] == rest[j - 1];
            if i > 0 { assert plugins[i] == rest[i - 1]; }
          }
        }
      }
      if name !in reg {
        InstallAllSucceeds(reg[name := factory], rest);
      }
    }
  }

  /** With the corrected check, an empty registry accepts a plugin of any name. */
  lemma InheritedNameAccepted(name: string, factory: Value)
    ensures InstallFixed(map[], name, factory) == Success(map[name := factory])
  {
  }

  /** Away from inherited names and falsy factories, the corrected check agrees with the one as written. */
  lemma FixedAgrees(reg: Registry, name: string, factory: Value)
    requires name !in Inherited && (name in reg ==> !Falsy(reg[name]))
    ensures InstallFixed(reg, name, factory) == Install(reg, name, factory)
  {
  }
}

=== FILE: internals.dfy ===
/**
 * `BaseInternals`: the computed state of a module whose sub-modules hold
 * parts of it.  The computed state is the state last set, copied, with
 * each sub-module's state at its name; it is cached behind an up-to-date flag
 * that also asks every sub-module whether it is up to date.
 *
 * The owner's sub-module `name` is taken to expose its own internals'
 * computed state as `state`, so the internals form a tree.
 */
module BaseInternals {
  import opened Values
  import opened CustomSignal

  /**
   * One module's internals: the cache flag, the cached computed state, the
   * sub-module states merged into it (read only by the corrected check), the
   * state last set, the listeners and the sub-modules by name.
   */
  datatype Internals = Internals(
    flag: bool,
    computed: Value,
    seen: seq<Value>,
    setted: Value,
    listeners: Signal,
    subs: seq<Sub>)

  datatype Sub = Sub(name: string, node: Internals)

  function Names(subs: seq<Sub>): (r: seq<string>)
    ensures |r| == |subs| && forall i :: 0 <= i < |subs| ==> r[i] == subs[i].name
  {
    seq(|subs|, i requires 0 <= i < |subs| => subs[i].name)
  }

  /** `state[name] = value` for each name in order, on a copy of `base`. */
  function Overlay(base: map<string, Value>, names: seq<string>, vals: seq<Value>): (r: map<string, Value>)
    requires |names| == |vals|
    decreases |names|
  {
    if names == [] then base else Overlay(base[names[0] := vals[0]], names[1..], vals[1..])
  }

  /** A primitive state as it is; otherwise `{ ...setted }` with each sub-module's state at its name. */
  function Merged(setted: Value, names: seq<string>, vals: seq<Value>): Value
    requires |names| == |vals|
  {
    if IsPrimitive(setted) then setted else Obj(Overlay(Own(setted), names, vals))
  }

  /** The reference: the computed state worked out from scratch, ignoring every cache. */
  function Reference(n: Internals): Value
    decreases n, 1
  {
    Merged(n.setted, Names(n.subs), References(n.subs))
  }

  function References(subs: seq<Sub>): (r: seq<Value>)
    ensures |r| == |subs| && forall i :: 0 <= i < |subs| ==> r[i] == Reference(subs[i].node)
    decreases subs, 0
  {
    if subs == [] then [] else [Reference(subs[0].node)] + References(subs[1..])
  }

  // ------------------------------------------------------------ as written

  /** `isComputedStateUpToDate`: the own flag and every sub-module's. */
  predicate UpToDate(n: Internals)
    decreases n
  {
    n.flag && forall i :: 0 <= i < |n.subs| ==> UpToDate(n.subs[i].node)
  }

  /**
   * `getComputedState`: the cached state while up to date; otherwise the
   * state set (a primitive) or its copy with every sub-module's computed
   * state, which refreshes the sub-modules' caches on the way.
   */
  function GetComputed(n: Internals): (r: (Internals, Value))
    decreases n, 1
  {
    if UpToDate(n) then (n, n.computed)
    else if IsPrimitive(n.setted) then (n.(flag := true, computed := n.setted), n.setted)
    else
      var (subs, vals) := GetAll(n.subs);
      var v := Merged(n.setted, Names(n.subs), vals);
      (n.(flag := true, computed := v, seen := vals, subs := subs), v)
  }

  function GetAll(subs: seq<Sub>): (r: (seq<Sub>, seq<Value>))
    ensures |r.0| == |subs| == |r.1|
    ensures Names(r.0) == Names(subs)
    decreases subs, 0
  {
    if subs == [] then ([], [])
    else
      var (n, v) := GetComputed(subs[0].node);
      var (rest, vs) := GetAll(subs[1..]);
      ([Sub(subs[0].name, n)] + rest, [v] + vs)
  }

  /** `updateState`: clears the flag, stores the state and, with listeners, hands them the computed state. */
  function UpdateState(n: Internals, newState: Value, action: string): (r: (Internals, seq<Call<(Value, string)>>))
    ensures |r.1| == |n.listeners.listeners|
    ensures r.0.setted == newState && r.0.listeners == n.listeners
  {
    var n1 := n.(flag := false, setted := newState);
    if HasListeners(n.listeners) then
      var (n2, v) := GetComputed(n1);
      (n2, Calls(n.listeners, (v, action)))
    else (n1, [])
  }

  /** `onStateChange`. */
  function OnStateChange(n: Internals, l: ListenerId): (r: Internals)
    ensures r.listeners == Subscribe(n.listeners, l)
  {
    n.(listeners := Subscribe(n.listeners, l))
  }

  /** The sub-module at position `i` runs its own `updateState`. */
  function UpdateChild(n: Internals, i: nat, newState: Value, action: string): (r: Internals)
    requires i < |n.subs|
  {
    var (c, _) := UpdateState(n.subs[i].node, newState, action);
    n.(subs := n.subs[i := Sub(n.subs[i].name, c)])
  }

  /** No name occurs twice. */
  predicate Distinct(names: seq<string>) {
    forall i, j :: 0 <= i < j < |names| ==> names[i] != names[j]
  }

  /**
   * The copy of `base` with distinct names overlaid: exactly the base's keys
   * and the names, each name holding its value, every other key its base value.
   */
  lemma {:induction false} OverlayMeaning(base: map<string, Value>, names: seq<string>, vals: seq<Value>)
    requires |names| == |vals| && Distinct(names)
    ensures forall k :: k in Overlay(base, names, vals) <==> k in base || k in names
    ensures forall i :: 0 <= i < |names| ==> Overlay(base, names, vals)[names[i]] == vals[i]
    ensures forall k :: k in base && k !in names ==> Overlay(base, names, vals)[k] == base[k]
    decreases |names|
  {
    if names != [] {
      var rest := names[1..];
      assert Distinct(rest) by {
        forall i, j | 0 <= i < j < |rest| ensures rest[i] != rest[j] {
          assert rest[i] == names[i + 1] && rest[j] == names[j + 1];
        }
      }
      OverlayMeaning(base[names[0] := vals[0]], rest, vals[1..]);
      var o := Overlay(base, names, vals);
      assert forall k :: k in names <==> k == names[0] || k in rest by {
        assert names == [names[0]] + rest;
      }
      forall i | 0 <= i < |names| ensures names[i] in o && o[names[i]] == vals[i] {
        if i == 0 {
          assert names[0] !in rest by {
            forall j | 0 <= j < |rest| ensures rest[j] != names[0] {
              assert rest[j] == names[j + 1];
            }
          }
        } else {
          assert names[i] == rest[i - 1] && vals[i] == vals[1..][i - 1];
        }
      }
    }
  }

  /** While up to date, a read returns the cached state and changes nothing. */
  lemma CachedRead(n: Internals)
    requires UpToDate(n)
    ensures GetComputed(n) == (n, n.computed)
  {
  }

  /** Every up-to-date cache in the tree holds the reference computed state. */
  ghost predicate Consistent(n: Internals)
    decreases n
  {
    && (UpToDate(n) ==> n.computed == Reference(n))
    && forall i :: 0 <= i < |n.subs| ==> Consistent(n.subs[i].node)
  }

  /** Same names and, position by position, the same reference states. */
  ghost predicate SameReferences(a: seq<Sub>, b: seq<Sub>) {
    |a| == |b| && forall i :: 0 <= i < |a| ==> a[i].name == b[i].name && Reference(a[i].node) == Reference(b[i].node)
  }

  lemma SameReferencesNames(a: seq<Sub>, b: seq<Sub>)
    requires SameReferences(a, b)
    ensures Names(a) == Names(b) && References(a) == References(b)
  {
  }

  /**
   * On a consistent tree, `getComputedState` returns the reference state and
   * leaves the tree consistent, with the same set state and reference.
   */
  lemma {:induction false} GetComputedCorrect(n: Internals)
    requires Consistent(n)
    ensures GetComputed(n).1 == Reference(n)
    ensures Consistent(GetComputed(n).0) && Reference(GetComputed(n).0) == Reference(n)
    ensures GetComputed(n).0.setted == n.setted && GetComputed(n).0.listeners == n.listeners
    ensures GetComputed(n).0.computed == GetComputed(n).1
    decreases n, 1
  {
    if !UpToDate(n) && !IsPrimitive(n.setted) {
      GetAllCorrect(n.subs);
      var (subs, vals) := GetAll(n.subs);
      SameReferencesNames(subs, n.subs);
    }
  }

  lemma {:induction false} GetAllCorrect(subs: seq<Sub>)
    requires forall i :: 0 <= i < |subs| ==> Consistent(subs[i].node)
    ensures GetAll(subs).1 == References(subs)
    ensures forall i :: 0 <= i < |subs| ==> Consistent(GetAll(subs).0[i].node)
    ensures SameReferences(GetAll(subs).0, subs)
    decreases subs, 0
  {
    if subs != [] {
      GetComputedCorrect(subs[0].node);
      GetAllCorrect(subs[1..]);
    }
  }

  /** On a consistent tree, a second read returns what the first one did. */
  lemma ReadTwice(n: Internals)
    requires Consistent(n)
    ensures GetComputed(GetComputed(n).0).1 == GetComputed(n).1
  {
    GetComputedCorrect(n);
    GetComputedCorrect(GetComputed(n).0);
  }

  /** `updateState` keeps the tree consistent and hands the listeners the new reference state. */
  lemma UpdateStateCorrect(n: Internals, newState: Value, action: string)
    requires Consistent(n)
    ensures Consistent(UpdateState(n, newState, action).0)
    ensures Reference(UpdateState(n, newState, action).0) == Reference(n.(setted := newState))
    ensures UpdateState(n, newState, action).1 ==
            if HasListeners(n.listeners) then Calls(n.listeners, (Reference(n.(setted := newState)), action)) else []
  {
    var n1 := n.(flag := false, setted := newState);
    assert Consistent(n1);
    GetComputedCorrect(n1);
  }

  // --------------------------------------------- stale parent cache (as written)

  const Child0 := Internals(false, Undefined, [], Num(1), Signal([5]), [])
  const Parent0 := Internals(false, Undefined, [], Obj(map[]), Empty, [Sub("c", Child0)])

  lemma ParentReadOnce() returns (p1: Internals)
    ensures p1 == GetComputed(Parent0).0
    ensures p1.flag && p1.computed == Obj(map["c" := Num(1)]) && |p1.subs| == 1 && p1.subs[0].name == "c"
    ensures p1.subs[0].node == Child0.(flag := true, computed := Num(1))
  {
    p1 := GetComputed(Parent0).0;
    assert !UpToDate(Parent0);
    assert !UpToDate(Child0);
    var c1 := Child0.(flag := true, computed := Num(1));
    assert GetComputed(Child0) == (c1, Num(1));
    assert Parent0.subs[1..] == [];
    assert GetAll(Parent0.subs[1..]) == ([], []);
    assert GetAll(Parent0.subs) == ([Sub("c", c1)] + [], [Num(1)] + []);
    assert Names(Parent0.subs) == ["c"];
    assert Own(Parent0.setted) == map[];
    assert Overlay(map[], ["c"], [Num(1)]) == map["c" := Num(1)];
  }

  /**
   * As written, a sub-module that recomputes its own state (because it has a
   * listener) reports itself up to date again, so the parent keeps serving
   * the computed state that holds the sub-module's previous state.
   */
  lemma StaleParentCache()
    ensures var p2 := UpdateChild(GetComputed(Parent0).0, 0, Num(2), "set");
            && GetComputed(p2).1 == Obj(map["c" := Num(1)])
            && Reference(p2) == Obj(map["c" := Num(2)])
  {
    var p1 := ParentReadOnce();
    var p2 := UpdateChild(p1, 0, Num(2), "set");
    var c2 := p2.subs[0].node;
    var n1 := p1.subs[0].node.(flag := false, setted := Num(2));
    assert HasListeners(n1.listeners) && !UpToDate(n1);
    assert GetComputed(n1) == (n1.(flag := true, computed := Num(2)), Num(2));
    assert c2 == Child0.(flag := true, computed := Num(2), setted := Num(2));
    assert Names(p2.subs) == ["c"];
    assert UpToDate(c2);
    assert UpToDate(p2);
    assert References(p2.subs) == [Num(2)];
    assert Overlay(map[], ["c"], [Num(2)]) == map["c" := Num(2)];
  }

  // ------------------------------------------------------------- corrected

  /**
   * The corrected check: the own flag, and every sub-module up to date with
   * the computed state that was merged into this one (a primitive state
   * depends on no sub-module).
   */
  predicate UpToDateFixed(n: Internals)
    decreases n
  {
    && n.flag
    && (|| IsPrimitive(n.setted)
        || (&& |n.seen| == |n.subs|
            && forall i :: 0 <= i < |n.subs| ==>
                 UpToDateFixed(n.subs[i].node) && n.subs[i].node.computed == n.seen[i]))
  }

  function GetComputedFixed(n: Internals): (r: (Internals, Value))
    decreases n, 1
  {
    if UpToDateFixed(n) then (n, n.computed)
    else if IsPrimitive(n.setted) then (n.(flag := true, computed := n.setted), n.setted)
    else
      var (subs, vals) := GetAllFixed(n.subs);
      var v := Merged(n.setted, Names(n.subs), vals);
      (n.(flag := true, computed := v, seen := vals, subs := subs), v)
  }

  function GetAllFixed(subs: seq<Sub>): (r: (seq<Sub>, seq<Value>))
    ensures |r.0| == |subs| == |r.1|
    ensures Names(r.0) == Names(subs)
    decreases subs, 0
  {
    if subs == [] then ([], [])
    else
      var (n, v) := GetComputedFixed(subs[0].node);
      var (rest, vs) := GetAllFixed(subs[1..]);
      ([Sub(subs[0].name, n)] + rest, [v] + vs)
  }

  function UpdateStateFixed(n: Internals, newState: Value, action: string): (r: (Internals, seq<Call<(Value, string)>>))
  {
    var n1 := n.(flag := false, setted := newState);
    if HasListeners(n.listeners) then
      var (n2, v) := GetComputedFixed(n1);
      (n2, Calls(n.listeners, (v, action)))
    else (n1, [])
  }

  function UpdateChildFixed(n: Internals, i: nat, newState: Value, action: string): (r: Internals)
    requires i < |n.subs|
  {
    var (c, _) := UpdateStateFixed(n.subs[i].node, newState, action);
    n.(subs := n.subs[i := Sub(n.subs[i].name, c)])
  }

  /** Each cache that claims to be set holds the merge of the sub-states it recorded. */
  ghost predicate Coherent(n: Internals)
    decreases n
  {
    && (n.flag && IsPrimitive(n.setted) ==> n.computed == n.setted)
    && (n.flag && !IsPrimitive(n.setted) ==>
          |n.seen| == |n.subs| && n.computed == Merged(n.setted, Names(n.subs), n.seen))
    && forall i :: 0 <= i < |n.subs| ==> Coherent(n.subs[i].node)
  }

  /** Under coherence, an up-to-date cache holds the reference state. */
  lemma {:induction false} FixedSound(n: Internals)
    requires Coherent(n) && UpToDateFixed(n)
    ensures n.computed == Reference(n)
    decreases n
  {
    if !IsPrimitive(n.setted) {
      forall i | 0 <= i < |n.subs| ensures n.seen[i] == References(n.subs)[i] {
        FixedSound(n.subs[i].node);
      }
      assert n.seen == References(n.subs);
    }
  }

  lemma {:induction false} GetComputedFixedCorrect(n: Internals)
    requires Coherent(n)
    ensures GetComputedFixed(n).1 == Reference(n)
    ensures Coherent(GetComputedFixed(n).0) && Reference(GetComputedFixed(n).0) == Reference(n)
    ensures GetComputedFixed(n).0.setted == n.setted && GetComputedFixed(n).0.listeners == n.listeners
    decreases n, 1
  {
    if UpToDateFixed(n) {
      FixedSound(n);
    } else if !IsPrimitive(n.setted) {
      GetAllFixedCorrect(n.subs);
      var (subs, vals) := GetAllFixed(n.subs);
      SameReferencesNames(subs, n.subs);
    }
  }

  lemma {:induction false} GetAllFixedCorrect(subs: seq<Sub>)
    requires forall i :: 0 <= i < |subs| ==> Coherent(subs[i].node)
    ensures GetAllFixed(subs).1 == References(subs)
    ensures forall i :: 0 <= i < |subs| ==> Coherent(GetAllFixed(subs).0[i].node)
    ensures SameReferences(GetAllFixed(subs).0, subs)
    decreases subs, 0
  {
    if subs != [] {
      GetComputedFixedCorrect(subs[0].node);
      GetAllFixedCorrect(subs[1..]);
    }
  }

  lemma UpdateStateFixedCorrect(n: Internals, newState: Value, action: string)
    requires Coherent(n)
    ensures Coherent(UpdateStateFixed(n, newState, action).0)
    ensures Reference(UpdateStateFixed(n, newState, action).0) == Reference(n.(setted := newState))
    ensures UpdateStateFixed(n, newState, action).1 ==
            if HasListeners(n.listeners) then Calls(n.listeners, (Reference(n.(setted := newState)), action)) else []
  {
    var n1 := n.(flag := false, setted := newState);
    assert Coherent(n1);
    GetComputedFixedCorrect(n1);
  }

  /**
   * With the corrected check, a sub-module's own update never leaves its
   * parent serving a stale state: the parent's next read is the reference.
   */
  lemma ChildUpdateReachesParent(n: Internals, i: nat, newState: Value, action: string)
    requires Coherent(n) && i < |n.subs|
    ensures Coherent(UpdateChildFixed(n, i, newState, action))
    ensures GetComputedFixed(UpdateChildFixed(n, i, newState, action)).1 == Reference(UpdateChildFixed(n, i, newState, action))
  {
    UpdateStateFixedCorrect(n.subs[i].node, newState, action);
    var p := UpdateChildFixed(n, i, newState, action);
    assert Names(p.subs) == Names(n.subs);
    assert Coherent(p);
    GetComputedFixedCorrect(p);
  }

  /** The same sequence as `StaleParentCache`, corrected: the parent serves the new sub-state. */
  lemma FixedParentCache()
    ensures var p2 := UpdateChildFixed(GetComputedFixed(Parent0).0, 0, Num(2), "set");
            GetComputedFixed(p2).1 == Obj(map["c" := Num(2)])
  {
    assert Coherent(Parent0);
    GetComputedFixedCorrect(Parent0);
    var p1 := GetComputedFixed(Parent0).0;
    assert |p1.subs| == 1 by {
      assert Names(p1.subs) == Names(Parent0.subs);
    }
    ChildUpdateReachesParent(p1, 0, Num(2), "set");
    var p2 := UpdateChildFixed(p1, 0, Num(2), "set");
    assert p2.setted == Obj(map[]) && Names(p2.subs) == ["c"];
    UpdateStateFixedCorrect(p1.subs[0].node, Num(2), "set");
    assert Reference(p2.subs[0].node) == Num(2);
    assert References(p2.subs) == [Num(2)];
    assert Overlay(map[], ["c"], [Num(2)]) == map["c" := Num(2)];
  }
}

=== FILE: lenses.dfy ===
/**
 * The optics of `lenses.ts`, written directly as get/set pairs: the first
 * element matching a predicate, all matching elements, a sorted view whose
 * writes are scattered back to the original positions, and one object
 * property.  Collections are JavaScript arrays, here `seq<Value>`.
 */
module Lenses {
  import opened Values

  /** A `SplitLens`: a getter and a setter over a whole `S` focusing an `A`. */
  datatype Lens<!S, !A> = Lens(get: S -> A, put: (A, S) -> S)

  type Predicate = Value -> bool

  /* ------------------------------------------------------------------ */
  /* lensFind                                                            */
  /* ------------------------------------------------------------------ */

  /** `Array.prototype.findIndex`: the first matching position, or -1. */
  function FindIndex(s: seq<Value>, p: Predicate): (r: int)
    ensures -1 <= r < |s|
    ensures r == -1 <==> forall i :: 0 <= i < |s| ==> !p(s[i])
    ensures r >= 0 ==> p(s[r]) && forall i :: 0 <= i < r ==> !p(s[i])
  {
    if |s| == 0 then -1
    else if p(s[0]) then 0
    else
      var k := FindIndex(s[1..], p);
      assert forall i :: 1 <= i < |s| ==> s[i] == s[1..][i - 1];
      if k == -1 then -1 else k + 1
  }

  /** The view of `lensFind(p)`: `s[findIndex(s, p)]`, undefined when nothing matches. */
  function FindView(p: Predicate, s: seq<Value>): (r: Value)
    ensures (exists i :: 0 <= i < |s| && p(s[i])) ==>
              exists i :: 0 <= i < |s| && p(s[i]) && r == s[i] && forall j :: 0 <= j < i ==> !p(s[j])
    ensures (forall i :: 0 <= i < |s| ==> !p(s[i])) ==> r == Undefined
  {
    var k := FindIndex(s, p);
    if k == -1 then Undefined else s[k]
  }

  /** The setter of `lensFind(p)`: a copy with the first match replaced, or `s` itself. */
  function FindSet(p: Predicate, a: Value, s: seq<Value>): (r: seq<Value>)
    ensures |r| == |s|
    ensures FindIndex(s, p) == -1 ==> r == s
    ensures FindIndex(s, p) >= 0 ==> r[FindIndex(s, p)] == a
    ensures forall j :: 0 <= j < |s| && j != FindIndex(s, p) ==> r[j] == s[j]
  {
    var k := FindIndex(s, p);
    if k == -1 then s else s[k := a]
  }

  /** Setting the viewed element back gives the array unchanged (get-put). */
  lemma FindGetPut(p: Predicate, s: seq<Value>)
    ensures FindSet(p, FindView(p, s), s) == s
  {
  }

  /** A matching replacement is what the view then shows (put-get). */
  lemma FindPutGet(p: Predicate, a: Value, s: seq<Value>)
    requires p(a)
    requires exists i :: 0 <= i < |s| && p(s[i])
    ensures FindView(p, FindSet(p, a, s)) == a
  {
    var k := FindIndex(s, p);
    var r := FindSet(p, a, s);
    assert forall i :: 0 <= i < k ==> r[i] == s[i];
    assert FindIndex(r, p) == k;
  }

  /* ------------------------------------------------------------------ */
  /* findIndexes, setAtIndexes and lensFilter                            */
  /* ------------------------------------------------------------------ */

  /** `findIndexes`: the matching positions in increasing order, built as the loop does. */
  function FindIndexes(s: seq<Value>, p: Predicate): (r: seq<nat>)
    ensures forall i :: 0 <= i < |r| ==> r[i] < |s| && p(s[r[i]])
    ensures forall k :: 0 <= k < |s| && p(s[k]) ==> k in r
    ensures forall i, j :: 0 <= i < j < |r| ==> r[i] < r[j]
    decreases |s|
  {
    if |s| == 0 then []
    else
      var n := |s| - 1;
      var rest := FindIndexes(s[..n], p);
      if p(s[n]) then rest + [n] else rest
  }

  predicate Distinct(idx: seq<nat>) {
    forall i, j :: 0 <= i < |idx| && 0 <= j < |idx| && i != j ==> idx[i] != idx[j]
  }

  predicate InRange(idx: seq<nat>, n: nat) {
    forall i :: 0 <= i < |idx| ==> idx[i] < n
  }

  /** `setAtIndexes`: a copy of `arr` with `vals[i]` written at `idx[i]`, in order. */
  function SetAtIndexes(arr: seq<Value>, idx: seq<nat>, vals: seq<Value>): (r: seq<Value>)
    requires InRange(idx, |arr|)
    ensures |r| == |arr|
    ensures forall j :: 0 <= j < |arr| && j !in idx ==> r[j] == arr[j]
    ensures Distinct(idx) ==> forall i :: 0 <= i < |idx| ==> r[idx[i]] == At(vals, i)
    decreases |idx|
  {
    if |idx| == 0 then arr
    else
      var n := |idx| - 1;
      assert forall j :: j in idx[..n] ==> j in idx;
      SetAtIndexes(arr, idx[..n], vals)[idx[n] := At(vals, n)]
  }

  /** Writing back each position's own value changes nothing. */
  lemma {:induction false} SetOwnValues(arr: seq<Value>, idx: seq<nat>, vals: seq<Value>)
    requires InRange(idx, |arr|)
    requires forall i :: 0 <= i < |idx| ==> At(vals, i) == arr[idx[i]]
    ensures SetAtIndexes(arr, idx, vals) == arr
    decreases |idx|
  {
    if |idx| > 0 {
      var n := |idx| - 1;
      SetOwnValues(arr, idx[..n], vals);
    }
  }

  /** `s[idx[0]], s[idx[1]], ...`. */
  function Pick(s: seq<Value>, idx: seq<nat>): (r: seq<Value>)
    requires InRange(idx, |s|)
    ensures |r| == |idx|
    ensures forall i :: 0 <= i < |idx| ==> r[i] == s[idx[i]]
  {
    seq(|idx|, i requires 0 <= i < |idx| => s[idx[i]])
  }

  /** Reference definition: the matching elements in order. */
  function Filter(s: seq<Value>, p: Predicate): seq<Value> {
    if |s| == 0 then [] else (if p(s[0]) then [s[0]] else []) + Filter(s[1..], p)
  }

  lemma {:induction false} FilterSnoc(s: seq<Value>, x: Value, p: Predicate)
    ensures Filter(s + [x], p) == Filter(s, p) + (if p(x) then [x] else [])
    decreases |s|
  {
    if |s| > 0 {
      assert (s + [x])[1..] == s[1..] + [x];
      FilterSnoc(s[1..], x, p);
    }
  }

  /** The view of `lensFilter(p)`. */
  function FilterView(p: Predicate, s: seq<Value>): (r: seq<Value>)
    ensures |r| == |FindIndexes(s, p)|
    ensures forall x :: x in r ==> p(x)
  {
    Pick(s, FindIndexes(s, p))
  }

  /** The setter of `lensFilter(p)`: `s` itself when nothing matches. */
  function FilterSet(p: Predicate, a: seq<Value>, s: seq<Value>): (r: seq<Value>)
    ensures |r| == |s|
  {
    var idx := FindIndexes(s, p);
    if |idx| == 0 then s else SetAtIndexes(s, idx, a)
  }

  /** The filter view is the subsequence of matching elements, in order. */
  lemma {:induction false} FilterViewIsFilter(p: Predicate, s: seq<Value>)
    ensures FilterView(p, s) == Filter(s, p)
    decreases |s|
  {
    if |s| > 0 {
      var n := |s| - 1;
      var rest := FindIndexes(s[..n], p);
      FilterViewIsFilter(p, s[..n]);
      assert Pick(s, rest) == Pick(s[..n], rest);
      FilterSnoc(s[..n], s[n], p);
      assert s[..n] + [s[n]] == s;
      if p(s[n]) {
        assert Pick(s, rest + [n]) == Pick(s, rest) + [s[n]];
      }
    }
  }

  /** Filter setter: the i-th replacement lands at the i-th match, the rest is untouched. */
  lemma FilterSetWrites(p: Predicate, a: seq<Value>, s: seq<Value>)
    ensures forall j :: 0 <= j < |s| && !p(s[j]) ==> FilterSet(p, a, s)[j] == s[j]
    ensures forall i :: 0 <= i < |FindIndexes(s, p)| ==>
              FilterSet(p, a, s)[FindIndexes(s, p)[i]] == At(a, i)
    ensures |FindIndexes(s, p)| == 0 ==> FilterSet(p, a, s) == s
  {
    var idx := FindIndexes(s, p);
    assert Distinct(idx);
    forall j | 0 <= j < |s| && !p(s[j]) ensures j !in idx {
    }
  }

  /** get-put for `lensFilter`. */
  lemma FilterGetPut(p: Predicate, s: seq<Value>)
    ensures FilterSet(p, FilterView(p, s), s) == s
  {
    var idx := FindIndexes(s, p);
    if |idx| > 0 {
      SetOwnValues(s, idx, FilterView(p, s));
    }
  }

  /** put-get for `lensFilter`: a replacement of the right length whose elements all match. */
  lemma FilterPutGet(p: Predicate, a: seq<Value>, s: seq<Value>)
    requires |a| == |FindIndexes(s, p)|
    requires forall x :: x in a ==> p(x)
    ensures FilterView(p, FilterSet(p, a, s)) == a
  {
    var idx := FindIndexes(s, p);
    var r := FilterSet(p, a, s);
    FilterSetWrites(p, a, s);
    forall k | 0 <= k < |r| ensures p(r[k]) <==> p(s[k]) {
      if p(s[k]) {
        var i :| 0 <= i < |idx| && idx[i] == k;
        assert r[k] == a[i];
      }
    }
    SameMatchesSameIndexes(p, s, r);
  }

  lemma {:induction false} SameMatchesSameIndexes(p: Predicate, s: seq<Value>, r: seq<Value>)
    requires |s| == |r|
    requires forall k :: 0 <= k < |s| ==> (p(r[k]) <==> p(s[k]))
    ensures FindIndexes(r, p) == FindIndexes(s, p)
    decreases |s|
  {
    if |s| > 0 {
      var n := |s| - 1;
      SameMatchesSameIndexes(p, s[..n], r[..n]);
    }
  }

  /* ------------------------------------------------------------------ */
  /* lensSort                                                            */
  /* ------------------------------------------------------------------ */

  type Comparator = (Value, Value) -> int

  /** JavaScript `<` on two numbers or two strings (other mixes are not modelled). */
  predicate Less(a: Value, b: Value) {
    if a.Num? && b.Num? then a.n < b.n
    else if a.Str? && b.Str? then StrLess(a.s, b.s)
    else false
  }

  /**
   * Lexicographic order on characters.  A Dafny `char` is a Unicode scalar
   * value, so this is code-point order; JavaScript compares UTF-16 code
   * units, which agrees except on characters outside the Basic Multilingual
   * Plane.
   */
  predicate StrLess(a: string, b: string) {
    if |b| == 0 then false
    else if |a| == 0 then true
    else if a[0] != b[0] then a[0] < b[0]
    else StrLess(a[1..], b[1..])
  }

  /** The default comparator `a > b ? 1 : a < b ? -1 : 0`. */
  function DefaultCompare(a: Value, b: Value): (r: int)
    ensures r == 1 <==> Less(b, a)
    ensures r == -1 <==> !Less(b, a) && Less(a, b)
    ensures -1 <= r <= 1
  {
    if Less(b, a) then 1 else if Less(a, b) then -1 else 0
  }

  predicate Le(cmp: Comparator, a: Value, b: Value) {
    cmp(a, b) <= 0
  }

  /** A comparator consistent enough for a sort to be well defined. */
  ghost predicate TotalPreorder(cmp: Comparator) {
    && (forall a, b :: Le(cmp, a, b) || Le(cmp, b, a))
    && (forall a, b, c :: Le(cmp, a, b) && Le(cmp, b, c) ==> Le(cmp, a, c))
  }

  /** `{ index, value }` records. */
  type Pair = (nat, Value)

  function Indexed(s: seq<Value>): (r: seq<Pair>)
    ensures |r| == |s|
    ensures forall i :: 0 <= i < |s| ==> r[i] == (i, s[i])
  {
    seq(|s|, i requires 0 <= i < |s| => (i, s[i]))
  }

  function Firsts(ps: seq<Pair>): (r: seq<nat>)
    ensures |r| == |ps|
    ensures forall i :: 0 <= i < |ps| ==> r[i] == ps[i].0
  {
    if ps == [] then [] else [ps[0].0] + Firsts(ps[1..])
  }

  function Seconds(ps: seq<Pair>): (r: seq<Value>)
    ensures |r| == |ps|
    ensures forall i :: 0 <= i < |ps| ==> r[i] == ps[i].1
  {
    if ps == [] then [] else [ps[0].1] + Seconds(ps[1..])
  }

  /** Insert `x` before the first element that compares strictly greater. */
  function Insert(x: Pair, l: seq<Pair>, cmp: Comparator): (r: seq<Pair>)
    ensures multiset(r) == multiset(l) + multiset{x}
  {
    if l == [] then [x]
    else if cmp(l[0].1, x.1) > 0 then [x] + l
    else
      assert l == [l[0]] + l[1..];
      [l[0]] + Insert(x, l[1..], cmp)
  }

  /** The stable sort `Array.prototype.sort` performs, as an insertion sort. */
  function SortPairs(ps: seq<Pair>, cmp: Comparator): (r: seq<Pair>)
    ensures multiset(r) == multiset(ps)
    decreases |ps|
  {
    if ps == [] then []
    else
      var n := |ps| - 1;
      assert ps == ps[..n] + [ps[n]];
      Insert(ps[n], SortPairs(ps[..n], cmp), cmp)
  }

  /** The view of `lensSort(cmp)`. */
  function SortView(cmp: Comparator, s: seq<Value>): (r: seq<Value>)
    ensures |r| == |s|
  {
    SortLength(Indexed(s), cmp);
    Seconds(SortPairs(Indexed(s), cmp))
  }

  /** The original positions of the sorted elements. */
  function SortIndexes(cmp: Comparator, s: seq<Value>): (r: seq<nat>)
    ensures |r| == |s|
    ensures InRange(r, |s|)
    ensures Distinct(r)
    ensures forall i :: 0 <= i < |r| ==> SortView(cmp, s)[i] == s[r[i]]
  {
    var sorted := SortPairs(Indexed(s), cmp);
    SortedPairsAreIndexed(s, cmp);
    assert SortView(cmp, s) == Seconds(sorted);
    Firsts(sorted)
  }

  /** The setter of `lensSort(cmp)`. */
  function SortSet(cmp: Comparator, a: seq<Value>, s: seq<Value>): (r: seq<Value>)
    ensures |r| == |s|
    ensures forall i :: 0 <= i < |s| ==> r[SortIndexes(cmp, s)[i]] == At(a, i)
  {
    SetAtIndexes(s, SortIndexes(cmp, s), a)
  }

  ghost predicate DistinctFirsts(ps: seq<Pair>) {
    forall i, j :: 0 <= i < j < |ps| ==> ps[i].0 != ps[j].0
  }

  lemma InsertMember(x: Pair, l: seq<Pair>, cmp: Comparator, j: nat)
    requires j < |Insert(x, l, cmp)|
    ensures Insert(x, l, cmp)[j] == x || Insert(x, l, cmp)[j] in l
  {
    var r := Insert(x, l, cmp);
    assert r[j] in multiset(r);
  }

  lemma SortMember(ps: seq<Pair>, cmp: Comparator, j: nat)
    requires j < |SortPairs(ps, cmp)|
    ensures SortPairs(ps, cmp)[j] in ps
  {
    var r := SortPairs(ps, cmp);
    assert r[j] in multiset(r);
  }

  lemma SortLength(ps: seq<Pair>, cmp: Comparator)
    ensures |SortPairs(ps, cmp)| == |ps|
  {
    assert |multiset(SortPairs(ps, cmp))| == |multiset(ps)|;
  }

  /** The tail keeps distinct positions, none of them `x`'s. */
  lemma TailDistinct(x: Pair, l: seq<Pair>)
    requires l != [] && DistinctFirsts(l)
    requires forall y :: y in l ==> y.0 != x.0
    ensures DistinctFirsts(l[1..]) && forall y :: y in l[1..] ==> y.0 != x.0
  {
    var t := l[1..];
    forall i, j | 0 <= i < j < |t| ensures t[i].0 != t[j].0 {
      assert t[i] == l[i + 1] && t[j] == l[j + 1];
    }
    forall y | y in t ensures y.0 != x.0 {
      var k :| 0 <= k < |t| && t[k] == y;
      assert l[k + 1] == y;
    }
  }

  /** When `x` goes behind the head, distinct positions of the recursive insertion carry over. */
  lemma InsertDistinctStep(x: Pair, l: seq<Pair>, cmp: Comparator)
    requires l != [] && !(cmp(l[0].1, x.1) > 0)
    requires DistinctFirsts(l) && forall y :: y in l ==> y.0 != x.0
    requires DistinctFirsts(Insert(x, l[1..], cmp))
    ensures DistinctFirsts(Insert(x, l, cmp))
  {
    var tail := Insert(x, l[1..], cmp);
    TailAvoidsHead(x, l, cmp);
    ConsDistinct(l[0], tail);
  }

  /** No record of the insertion into the tail shares the head's position. */
  lemma TailAvoidsHead(x: Pair, l: seq<Pair>, cmp: Comparator)
    requires l != [] && DistinctFirsts(l) && forall y :: y in l ==> y.0 != x.0
    ensures forall y :: y in Insert(x, l[1..], cmp) ==> y.0 != l[0].0
  {
    var tail := Insert(x, l[1..], cmp);
    forall y | y in tail ensures y.0 != l[0].0 {
      var j :| 0 <= j < |tail| && tail[j] == y;
      InsertMember(x, l[1..], cmp, j);
      if y != x {
        var k :| 0 <= k < |l[1..]| && l[1..][k] == y;
        assert l[k + 1] == y;
      } else {
        assert l[0] in l;
      }
    }
  }

  lemma {:induction false} InsertKeepsDistinct(x: Pair, l: seq<Pair>, cmp: Comparator)
    requires DistinctFirsts(l)
    requires forall y :: y in l ==> y.0 != x.0
    ensures DistinctFirsts(Insert(x, l, cmp))
  {
    if l == [] {
    } else if cmp(l[0].1, x.1) > 0 {
      ConsDistinct(x, l);
    } else {
      TailDistinct(x, l);
      InsertKeepsDistinct(x, l[1..], cmp);
      InsertDistinctStep(x, l, cmp);
    }
  }

  lemma ConsDistinct(x: Pair, l: seq<Pair>)
    requires DistinctFirsts(l)
    requires forall y :: y in l ==> y.0 != x.0
    ensures DistinctFirsts([x] + l)
  {
    var r := [x] + l;
    forall i, j | 0 <= i < j < |r| ensures r[i].0 != r[j].0 {
      assert r[j] == l[j - 1];
      if i > 0 {
        assert r[i] == l[i - 1];
      }
    }
  }

  lemma {:induction false} SortKeepsDistinct(ps: seq<Pair>, cmp: Comparator)
    requires DistinctFirsts(ps)
    ensures DistinctFirsts(SortPairs(ps, cmp))
    decreases |ps|
  {
    if ps != [] {
      var n := |ps| - 1;
      var sorted := SortPairs(ps[..n], cmp);
      SortKeepsDistinct(ps[..n], cmp);
      forall y | y in sorted ensures y.0 != ps[n].0 {
        var j :| 0 <= j < |sorted| && sorted[j] == y;
        SortMember(ps[..n], cmp, j);
      }
      InsertKeepsDistinct(ps[n], sorted, cmp);
    }
  }

  /** Every sorted record is `(k, s[k])` and the positions are distinct. */
  lemma SortedPairsAreIndexed(s: seq<Value>, cmp: Comparator)
    ensures |SortPairs(Indexed(s), cmp)| == |s|
    ensures forall i :: 0 <= i < |s| ==>
              SortPairs(Indexed(s), cmp)[i].0 < |s| &&
              SortPairs(Indexed(s), cmp)[i].1 == s[SortPairs(Indexed(s), cmp)[i].0]
    ensures Distinct(Firsts(SortPairs(Indexed(s), cmp)))
  {
    var ps := Indexed(s);
    var r := SortPairs(ps, cmp);
    SortLength(ps, cmp);
    forall i | 0 <= i < |s| ensures r[i].0 < |s| && r[i].1 == s[r[i].0] {
      SortMember(ps, cmp, i);
    }
    SortKeepsDistinct(ps, cmp);
    var f := Firsts(r);
    forall i, j | 0 <= i < |f| && 0 <= j < |f| && i != j ensures f[i] != f[j] {
      if i < j {
        assert r[i].0 != r[j].0;
      } else {
        assert r[j].0 != r[i].0;
      }
    }
  }

  /** Writing the unchanged sorted view back reproduces the input (get-put). */
  lemma SortGetPut(cmp: Comparator, s: seq<Value>)
    ensures SortSet(cmp, SortView(cmp, s), s) == s
  {
    SetOwnValues(s, SortIndexes(cmp, s), SortView(cmp, s));
  }

  ghost predicate SortedBy(cmp: Comparator, vs: seq<Value>) {
    forall i, j :: 0 <= i < j < |vs| ==> Le(cmp, vs[i], vs[j])
  }

  ghost predicate SortedPairs(cmp: Comparator, l: seq<Pair>) {
    forall i, j :: 0 <= i < j < |l| ==> Le(cmp, l[i].1, l[j].1)
  }

  /** Equal elements keep their original relative order. */
  ghost predicate Stable(cmp: Comparator, l: seq<Pair>) {
    forall i, j :: 0 <= i < j < |l| && Le(cmp, l[j].1, l[i].1) ==> l[i].0 < l[j].0
  }

  lemma Trans(cmp: Comparator, a: Value, b: Value, c: Value)
    requires TotalPreorder(cmp)
    requires Le(cmp, a, b) && Le(cmp, b, c)
    ensures Le(cmp, a, c)
  {
  }

  lemma Total(cmp: Comparator, a: Value, b: Value)
    requires TotalPreorder(cmp)
    ensures Le(cmp, a, b) || Le(cmp, b, a)
  {
  }

  /** `x` goes in front of a list whose head is strictly greater. */
  lemma InsertSortedFront(x: Pair, l: seq<Pair>, cmp: Comparator)
    requires TotalPreorder(cmp)
    requires SortedPairs(cmp, l) && Stable(cmp, l)
    requires forall y :: y in l ==> y.0 < x.0
    requires l != [] && cmp(l[0].1, x.1) > 0
    ensures SortedPairs(cmp, [x] + l) && Stable(cmp, [x] + l)
  {
    var r := [x] + l;
    Total(cmp, x.1, l[0].1);
    forall j | 0 < j < |r| ensures Le(cmp, x.1, r[j].1) && !Le(cmp, r[j].1, x.1) {
      assert r[j] == l[j - 1];
      if j > 1 {
        Trans(cmp, x.1, l[0].1, l[j - 1].1);
        if Le(cmp, r[j].1, x.1) {
          Trans(cmp, l[0].1, l[j - 1].1, x.1);
        }
      }
    }
    forall i, j | 0 <= i < j < |r| ensures Le(cmp, r[i].1, r[j].1) {
      if i > 0 {
        assert r[i] == l[i - 1] && r[j] == l[j - 1];
      }
    }
    forall i, j | 0 <= i < j < |r| && Le(cmp, r[j].1, r[i].1) ensures r[i].0 < r[j].0 {
      if i > 0 {
        assert r[i] == l[i - 1] && r[j] == l[j - 1];
      }
    }
  }

  /** `x` goes behind a head that is not greater than it. */
  lemma InsertSortedBehind(x: Pair, l: seq<Pair>, cmp: Comparator, tail: seq<Pair>)
    requires SortedPairs(cmp, l) && Stable(cmp, l)
    requires forall y :: y in l ==> y.0 < x.0
    requires l != [] && Le(cmp, l[0].1, x.1)
    requires SortedPairs(cmp, tail) && Stable(cmp, tail)
    requires forall j :: 0 <= j < |tail| ==> tail[j] == x || tail[j] in l[1..]
    ensures SortedPairs(cmp, [l[0]] + tail) && Stable(cmp, [l[0]] + tail)
  {
    var r := [l[0]] + tail;
    HeadBeforeTail(x, l, cmp, tail);
    forall i, j | 0 <= i < j < |r| ensures Le(cmp, r[i].1, r[j].1) {
      if i > 0 {
        assert r[i] == tail[i - 1] && r[j] == tail[j - 1];
      }
    }
    forall i, j | 0 <= i < j < |r| && Le(cmp, r[j].1, r[i].1) ensures r[i].0 < r[j].0 {
      if i > 0 {
        assert r[i] == tail[i - 1] && r[j] == tail[j - 1];
      }
    }
  }

  /** The tail of a sorted, stable list is sorted and stable, and its positions stay below `x`'s. */
  lemma TailSorted(x: Pair, l: seq<Pair>, cmp: Comparator)
    requires l != [] && SortedPairs(cmp, l) && Stable(cmp, l)
    requires forall y :: y in l ==> y.0 < x.0
    ensures SortedPairs(cmp, l[1..]) && Stable(cmp, l[1..])
    ensures forall y :: y in l[1..] ==> y.0 < x.0
  {
    var t := l[1..];
    forall i, j | 0 <= i < j < |t| ensures Le(cmp, t[i].1, t[j].1) && (Le(cmp, t[j].1, t[i].1) ==> t[i].0 < t[j].0) {
      assert t[i] == l[i + 1] && t[j] == l[j + 1];
    }
    forall y | y in t ensures y.0 < x.0 {
      var k :| 0 <= k < |t| && t[k] == y;
      assert l[k + 1] == y;
    }
  }

  /** When `x` goes behind the head, sorting and stability of the recursive insertion carry over. */
  lemma InsertBehindStep(x: Pair, l: seq<Pair>, cmp: Comparator)
    requires l != [] && !(cmp(l[0].1, x.1) > 0)
    requires SortedPairs(cmp, l) && Stable(cmp, l)
    requires forall y :: y in l ==> y.0 < x.0
    requires SortedPairs(cmp, Insert(x, l[1..], cmp)) && Stable(cmp, Insert(x, l[1..], cmp))
    ensures SortedPairs(cmp, Insert(x, l, cmp)) && Stable(cmp, Insert(x, l, cmp))
  {
    var tail := Insert(x, l[1..], cmp);
    forall j | 0 <= j < |tail| ensures tail[j] == x || tail[j] in l[1..] {
      InsertMember(x, l[1..], cmp, j);
    }
    InsertSortedBehind(x, l, cmp, tail);
  }

  /** The head of `l` sorts before, and stably precedes, every record of `tail`. */
  lemma HeadBeforeTail(x: Pair, l: seq<Pair>, cmp: Comparator, tail: seq<Pair>)
    requires SortedPairs(cmp, l) && Stable(cmp, l)
    requires forall y :: y in l ==> y.0 < x.0
    requires l != [] && Le(cmp, l[0].1, x.1)
    requires forall j :: 0 <= j < |tail| ==> tail[j] == x || tail[j] in l[1..]
    ensures forall j :: 0 <= j < |tail| ==> Le(cmp, l[0].1, tail[j].1) && (Le(cmp, tail[j].1, l[0].1) ==> l[0].0 < tail[j].0)
  {
    assert l[0] in l;
    forall j | 0 <= j < |tail| ensures Le(cmp, l[0].1, tail[j].1) && (Le(cmp, tail[j].1, l[0].1) ==> l[0].0 < tail[j].0) {
      if tail[j] != x {
        var k :| 0 <= k < |l[1..]| && l[1..][k] == tail[j];
        assert l[k + 1] == tail[j];
      }
    }
  }

  lemma {:induction false} InsertSorted(x: Pair, l: seq<Pair>, cmp: Comparator)
    requires TotalPreorder(cmp)
    requires SortedPairs(cmp, l)
    requires Stable(cmp, l)
    requires forall y :: y in l ==> y.0 < x.0
    ensures SortedPairs(cmp, Insert(x, l, cmp))
    ensures Stable(cmp, Insert(x, l, cmp))
  {
    if l == [] {
    } else if cmp(l[0].1, x.1) > 0 {
      InsertSortedFront(x, l, cmp);
    } else {
      TailSorted(x, l, cmp);
      InsertSorted(x, l[1..], cmp);
      InsertBehindStep(x, l, cmp);
    }
  }

  ghost predicate IncreasingFirsts(ps: seq<Pair>) {
    forall i, j :: 0 <= i < j < |ps| ==> ps[i].0 < ps[j].0
  }

  /** The prefix of a list with increasing positions keeps them increasing, and its sort stays below the last position. */
  lemma PrefixBelowLast(ps: seq<Pair>, cmp: Comparator)
    requires ps != []
    requires IncreasingFirsts(ps)
    ensures IncreasingFirsts(ps[..|ps| - 1])
    ensures forall y :: y in SortPairs(ps[..|ps| - 1], cmp) ==> y.0 < ps[|ps| - 1].0
  {
    var n := |ps| - 1;
    var sorted := SortPairs(ps[..n], cmp);
    forall i, j | 0 <= i < j < n ensures ps[..n][i].0 < ps[..n][j].0 {
      assert ps[..n][i] == ps[i] && ps[..n][j] == ps[j];
    }
    forall y | y in sorted ensures y.0 < ps[n].0 {
      var j :| 0 <= j < |sorted| && sorted[j] == y;
      SortMember(ps[..n], cmp, j);
    }
  }

  lemma {:induction false} SortPairsSorted(ps: seq<Pair>, cmp: Comparator)
    requires TotalPreorder(cmp)
    requires IncreasingFirsts(ps)
    ensures SortedPairs(cmp, SortPairs(ps, cmp))
    ensures Stable(cmp, SortPairs(ps, cmp))
    decreases |ps|
  {
    if ps != [] {
      var n := |ps| - 1;
      PrefixBelowLast(ps, cmp);
      SortPairsSorted(ps[..n], cmp);
      InsertSorted(ps[n], SortPairs(ps[..n], cmp), cmp);
    }
  }

  /** The sorted view is ordered by the comparator and stable. */
  lemma SortViewSorted(cmp: Comparator, s: seq<Value>)
    requires TotalPreorder(cmp)
    ensures SortedBy(cmp, SortView(cmp, s))
    ensures forall i, j :: 0 <= i < j < |s| && Le(cmp, SortView(cmp, s)[j], SortView(cmp, s)[i]) ==>
              SortIndexes(cmp, s)[i] < SortIndexes(cmp, s)[j]
  {
    SortPairsSorted(Indexed(s), cmp);
    SortLength(Indexed(s), cmp);
  }

  /* ------------------------------------------------------------------ */
  /* splitLensProp                                                       */
  /* ------------------------------------------------------------------ */

  /** `splitLensProp(name)`: `s[name]` and `{ ...s, [name]: a }`. */
  function PropLens(name: string): Lens<Value, Value> {
    Lens(s => Get(s, name), (a, s) => With(s, name, a))
  }

  /** put-get, and the setter leaves every other key as it was. */
  lemma PropLensLaws(name: string, a: Value, s: Value)
    ensures PropLens(name).get(PropLens(name).put(a, s)) == a
    ensures forall k :: k != name ==> Get(PropLens(name).put(a, s), k) == Get(s, k)
    ensures Own(PropLens(name).put(a, s)).Keys == Own(s).Keys + {name}
  {
  }

  /** get-put holds whenever the key is already an own property. */
  lemma PropLensGetPut(name: string, s: Value)
    requires s.Obj? && name in s.props
    ensures PropLens(name).put(PropLens(name).get(s), s) == s
  {
    assert Own(s)[name := s.props[name]] == s.props;
  }
}

=== FILE: memo.dfy ===
/**
 * The small caches and comparisons of the internal utilities: `memoize`
 * (last call, started from an `undefined` argument), `memoizeOne` (last call,
 * started empty), `valuesEqual` and `hashGrid`.  A memoized function is
 * observed through the value it returns and whether it ran the underlying
 * function.
 */
module Memoization {
  import opened Values

  // ---------------------------------------------------------------- memoize

  /** The two variables `memoize` closes over. */
  datatype Memo = Memo(lastArg: Value, lastResult: Value)

  /** Both variables start out `undefined`. */
  const Fresh: Memo := Memo(Undefined, Undefined)

  /** The cache agrees with `fn`, or has never stored anything. */
  predicate Consistent(fn: Value -> Value, m: Memo) {
    m == Fresh || m.lastResult == fn(m.lastArg)
  }

  /** A call of the memoized function: its result, the new cache, and whether `fn` ran. */
  datatype MemoCall = MemoCall(result: Value, memo: Memo, called: bool)

  function Memoize(fn: Value -> Value, m: Memo, arg: Value): (r: MemoCall)
    ensures r.called <==> arg != m.lastArg
    ensures r.memo.lastArg == arg
    ensures Consistent(fn, m) ==> Consistent(fn, r.memo)
    ensures Consistent(fn, m) && !(m == Fresh && arg == Undefined) ==> r.result == fn(arg)
  {
    if m.lastArg == arg then MemoCall(m.lastResult, m, false)
    else
      var res := fn(arg);
      MemoCall(res, Memo(arg, res), true)
  }

  /** Repeating an argument answers from the cache without running `fn`. */
  lemma MemoizeRepeat(fn: Value -> Value, m: Memo, arg: Value)
    requires Consistent(fn, m)
    ensures var r := Memoize(fn, m, arg);
      !Memoize(fn, r.memo, arg).called && Memoize(fn, r.memo, arg).result == r.result
  {
  }

  /** The one call where the cache is wrong: an `undefined` first argument. */
  lemma MemoizeFirstUndefined()
    ensures var fn := (v: Value) => Num(1);
      Memoize(fn, Fresh, Undefined).result == Undefined && fn(Undefined) == Num(1)
  {
  }

  // ------------------------------------------------------------- memoizeOne

  /** `memoizeOne`'s cache: `None` until initialized. */
  type OneCache<I, O> = Option<(I, O)>

  ghost predicate ConsistentOne<I, O>(fn: I -> O, c: OneCache<I, O>) {
    c.Some? ==> c.value.1 == fn(c.value.0)
  }

  function MemoizeOne<I(==), O>(fn: I -> O, c: OneCache<I, O>, arg: I): (r: (O, OneCache<I, O>, bool))
    ensures ConsistentOne(fn, c) ==> r.0 == fn(arg) && ConsistentOne(fn, r.1)
    ensures r.2 <==> c.None? || c.value.0 != arg
    ensures r.1.Some? && r.1.value.0 == arg
  {
    if c.Some? && c.value.0 == arg then (c.value.1, c, false)
    else
      var res := fn(arg);
      (res, Some((arg, res)), true)
  }

  /** Unlike `memoize`, the first call always runs, whatever its argument. */
  lemma MemoizeOneFirstCallRuns<I, O>(fn: I -> O, arg: I)
    ensures MemoizeOne(fn, None, arg).2
    ensures MemoizeOne(fn, None, arg).0 == fn(arg)
  {
  }

  // ------------------------------------------------------------ valuesEqual

  /** Every element of `a` from position `i` on occurs somewhere in `b` (`indexOf` is not -1). */
  function AllOccur(a: seq<Value>, b: seq<Value>, i: nat): (r: bool)
    requires i <= |a|
    ensures r <==> forall j :: i <= j < |a| ==> a[j] in b
    decreases |a| - i
  {
    if i == |a| then true
    else if a[i] !in b then false
    else AllOccur(a, b, i + 1)
  }

  /** `valuesEqual`: equal length, and every element of the first occurs in the second. */
  function ValuesEqual(a: seq<Value>, b: seq<Value>): (r: bool)
    ensures r <==> |a| == |b| && forall x :: x in a ==> x in b
  {
    if |a| != |b| then false
    else if |a| == 0 then true
    else
      assert forall x :: x in a ==> exists j :: 0 <= j < |a| && a[j] == x;
      AllOccur(a, b, 0)
  }

  /** Arrays that are permutations of each other compare equal. */
  lemma PermutationsAreValuesEqual(a: seq<Value>, b: seq<Value>)
    requires multiset(a) == multiset(b)
    ensures ValuesEqual(a, b)
  {
    assert |a| == |multiset(a)| == |multiset(b)| == |b|;
    forall x | x in a ensures x in b {
      assert x in multiset(a);
    }
  }

  /** The comparison is weaker than a permutation check and is not symmetric. */
  lemma ValuesEqualNotPermutation()
    ensures ValuesEqual([Num(1), Num(1)], [Num(1), Num(2)])
    ensures !ValuesEqual([Num(1), Num(2)], [Num(1), Num(1)])
    ensures multiset([Num(1), Num(1)]) != multiset([Num(1), Num(2)])
  {
    assert Num(2) in [Num(1), Num(2)];
    assert Num(2) !in [Num(1), Num(1)];
    assert multiset([Num(1), Num(1)])[Num(2)] == 0;
  }

  // --------------------------------------------------------------- hashGrid

  /** The nested `true`-maps `hashGrid` builds, as sets. */
  type Grid = map<string, set<string>>

  /**
   * `hashGrid`: for each key of the object (in `Object.keys` order), the set of
   * strings in its array, so that membership becomes a property lookup.
   */
  method HashGrid(m: seq<Entry<seq<string>>>) returns (grid: Grid)
    requires DistinctKeys(m)
    ensures grid.Keys == set i | 0 <= i < |m| :: m[i].key
    ensures forall i, v :: 0 <= i < |m| ==> (v in grid[m[i].key] <==> v in m[i].val)
  {
    grid := map[];
    var i := 0;
    while i < |m|
      invariant 0 <= i <= |m|
      invariant grid.Keys == set j | 0 <= j < i :: m[j].key
      invariant forall j, v :: 0 <= j < i ==> (v in grid[m[j].key] <==> v in m[j].val)
    {
      var sub: set<string> := {};
      var values := m[i].val;
      var k := 0;
      while k < |values|
        invariant 0 <= k <= |values|
        invariant forall v :: v in sub <==> v in values[..k]
      {
        sub := sub + {values[k]};
        assert values[..k + 1] == values[..k] + [values[k]];
        k := k + 1;
      }
      assert values[..k] == values;
      grid := grid[m[i].key := sub];
      i := i + 1;
    }
  }
}

=== FILE: modules.dfy ===
/**
 * The module builders: `onActionTypes` restricts a middleware to some action
 * types; `createSimpleModule` turns a spec of actions, middlewares and a
 * reducer into action creators, action types, a middleware list and the
 * reducer; `createCombinedModule` merges named submodules, handing each
 * submodule's middlewares a state getter projected on its name and combining
 * their reducers; `createModule` picks one or merges both by the spec's shape.
 *
 * Objects keyed by name (a spec's `actions`, a combined spec's `modules`) are
 * given as their keys in `Object.keys` order alongside the values under them.
 */
module ModuleBuilders {
  import opened Values
  import Reducers
  import CallChain

  /** The `io` a middleware is bound to: a state getter and its other fields. */
  datatype IO = IO(getState: () -> Value, fields: map<string, Value>)

  /** `(io) => (action, next) => …`, with the call itself synchronous. */
  type Middleware = IO -> CallChain.Run

  /** An action creator: the arguments of the call to the action. */
  type ActionCreator = seq<Value> -> Value

  /** One entry of a spec's `actions`: its type, optional creator and optional middlewares. */
  datatype ActionSpec = ActionSpec(actionType: string, creator: Option<ActionCreator>, middlewares: seq<Middleware>)

  /** What every builder returns. */
  datatype Module = Module(
    actionCreators: map<string, ActionCreator>,
    actionTypes: seq<string>,
    middlewares: seq<Middleware>,
    reducer: Reducers.Reducer)

  // ------------------------------------------------------------ onActionTypes

  /** `actionTypes.indexOf(action.type) !== -1`. */
  predicate Listed(types: seq<string>, action: Value) {
    Get(action, "type").Str? && Get(action, "type").s in types
  }

  /** A middleware's answer that calls `next` with the action as it is and returns what `next` returns. */
  ghost predicate Passes(d: CallChain.Decision, action: Value) {
    d.Next? && d.action == action && forall x :: d.after(x) == x
  }

  /** `onActionTypes(types, middleware)`. */
  function OnActionTypes(types: seq<string>, mw: Middleware): Middleware {
    io =>
      var run := mw(io);
      a => if Listed(types, a) then run(a) else CallChain.Next(a, x => x)
  }

  /** A listed type runs the middleware; any other calls `next()` and returns its answer. */
  lemma OnActionTypesFilters(types: seq<string>, mw: Middleware, io: IO, a: Value)
    ensures Listed(types, a) ==> OnActionTypes(types, mw)(io)(a) == mw(io)(a)
    ensures !Listed(types, a) ==> Passes(OnActionTypes(types, mw)(io)(a), a)
  {
  }

  // ------------------------------------------------------- createSimpleModule

  /** `() => ({ type })`: the creator of an action declared without one. */
  function DefaultCreator(actionType: string): ActionCreator {
    args => Obj(map["type" := Str(actionType)])
  }

  function CreatorOf(a: ActionSpec): ActionCreator {
    if a.creator.Some? then a.creator.value else DefaultCreator(a.actionType)
  }

  /** `Object.keys(spec.actions).map(name => spec.actions[name].type)`. */
  function TypesOf(actions: seq<ActionSpec>): (r: seq<string>)
    ensures |r| == |actions| && forall i :: 0 <= i < |actions| ==> r[i] == actions[i].actionType
  {
    seq(|actions|, i requires 0 <= i < |actions| => actions[i].actionType)
  }

  /** The names of a sequence, as a set. */
  function NameSet(names: seq<string>): set<string> {
    if names == [] then {} else {names[0]} + NameSet(names[1..])
  }

  lemma {:induction false} NameSetMembers(names: seq<string>)
    ensures NameSet(names) == set i | 0 <= i < |names| :: names[i]
  {
    if names != [] {
      NameSetMembers(names[1..]);
      forall k | k in NameSet(names) ensures exists i :: 0 <= i < |names| && names[i] == k {
        if k != names[0] {
          var i :| 0 <= i < |names[1..]| && names[1..][i] == k;
          assert names[i + 1] == k;
        }
      }
    }
  }

  /** The creators registered by the first `n` iterations of the loop over the actions. */
  function Creators(names: seq<string>, actions: seq<ActionSpec>, n: nat): map<string, ActionCreator>
    requires n <= |names| == |actions|
  {
    if n == 0 then map[] else Creators(names, actions, n - 1)[names[n - 1] := CreatorOf(actions[n - 1])]
  }

  lemma {:induction false} CreatorsFacts(names: seq<string>, actions: seq<ActionSpec>, n: nat)
    requires n <= |names| == |actions| && Unique(names)
    ensures Creators(names, actions, n).Keys == set i | 0 <= i < n :: names[i]
    ensures forall i :: 0 <= i < n ==> Creators(names, actions, n)[names[i]] == CreatorOf(actions[i])
  {
    if n > 0 {
      CreatorsFacts(names, actions, n - 1);
    }
  }

  /** `onActionTypes([type], m)` for each middleware of one action. */
  function Restricted(a: ActionSpec): (r: seq<Middleware>)
    ensures |r| == |a.middlewares|
  {
    seq(|a.middlewares|, j requires 0 <= j < |a.middlewares| => OnActionTypes([a.actionType], a.middlewares[j]))
  }

  /** `onActionTypes(types, m)` for each module-level middleware, in order. */
  function RestrictAll(types: seq<string>, mws: seq<Middleware>): (r: seq<Middleware>)
    ensures |r| == |mws| && forall i :: 0 <= i < |mws| ==> r[i] == OnActionTypes(types, mws[i])
  {
    if mws == [] then [] else [OnActionTypes(types, mws[0])] + RestrictAll(types, mws[1..])
  }

  /** The middlewares pushed by the first `n` iterations of the loop over the actions. */
  function ActionMiddlewares(actions: seq<ActionSpec>, n: nat): seq<Middleware>
    requires n <= |actions|
  {
    if n == 0 then [] else ActionMiddlewares(actions, n - 1) + Restricted(actions[n - 1])
  }

  /** How many middlewares the first `n` actions declare. */
  function Count(actions: seq<ActionSpec>, n: nat): nat
    requires n <= |actions|
  {
    if n == 0 then 0 else Count(actions, n - 1) + |actions[n - 1].middlewares|
  }

  /** The `j`-th middleware of action `i` sits after those of the actions before it, restricted to its type. */
  lemma {:induction false} ActionMiddlewaresAt(actions: seq<ActionSpec>, n: nat, i: nat, j: nat)
    requires n <= |actions| && i < n && j < |actions[i].middlewares|
    ensures |ActionMiddlewares(actions, n)| == Count(actions, n)
    ensures Count(actions, i) + j < Count(actions, n)
    ensures ActionMiddlewares(actions, n)[Count(actions, i) + j] == OnActionTypes([actions[i].actionType], actions[i].middlewares[j])
  {
    ActionMiddlewaresLength(actions, n);
    if i < n - 1 {
      ActionMiddlewaresAt(actions, n - 1, i, j);
    } else {
      ActionMiddlewaresLength(actions, n - 1);
    }
  }

  lemma {:induction false} ActionMiddlewaresLength(actions: seq<ActionSpec>, n: nat)
    requires n <= |actions|
    ensures |ActionMiddlewares(actions, n)| == Count(actions, n)
  {
    if n > 0 {
      ActionMiddlewaresLength(actions, n - 1);
    }
  }

  /** A spec for `createSimpleModule`: its actions by name, module-level middlewares and reducer. */
  datatype SimpleSpec = SimpleSpec(
    names: seq<string>,
    actions: seq<ActionSpec>,
    middlewares: seq<Middleware>,
    reducer: Reducers.Reducer)
  {
    ghost predicate Valid() {
      |names| == |actions| && Unique(names)
    }
  }

  /**
   * `createSimpleModule(spec, subModulesActionTypes)`: each action's type in
   * key order; a creator per action name; the module-level middlewares first,
   * each restricted to the module's types and the submodules' ones, then each
   * action's middlewares restricted to its type; the reducer as given.
   */
  function CreateSimpleModule(spec: SimpleSpec, subTypes: seq<string>): (r: Module)
    requires spec.Valid()
    ensures r.actionTypes == TypesOf(spec.actions)
    ensures r.actionCreators.Keys == NameSet(spec.names)
    ensures forall i :: 0 <= i < |spec.names| ==> spec.names[i] in r.actionCreators && r.actionCreators[spec.names[i]] == CreatorOf(spec.actions[i])
    ensures |r.middlewares| == |spec.middlewares| + Count(spec.actions, |spec.actions|)
    ensures r.reducer == spec.reducer
  {
    CreatorsFacts(spec.names, spec.actions, |spec.actions|);
    NameSetMembers(spec.names);
    ActionMiddlewaresLength(spec.actions, |spec.actions|);
    var types := TypesOf(spec.actions);
    var moduleLevel := RestrictAll(types + subTypes, spec.middlewares);
    Module(
      Creators(spec.names, spec.actions, |spec.actions|),
      types,
      moduleLevel + ActionMiddlewares(spec.actions, |spec.actions|),
      spec.reducer)
  }

  /** An action declared without a creator gets one answering `{ type }`; a declared one is kept. */
  lemma SimpleModuleCreators(spec: SimpleSpec, subTypes: seq<string>, i: nat, args: seq<Value>)
    requires spec.Valid() && i < |spec.names|
    ensures var c := CreateSimpleModule(spec, subTypes).actionCreators[spec.names[i]];
      && (spec.actions[i].creator.None? ==> c(args) == Obj(map["type" := Str(spec.actions[i].actionType)]))
      && (spec.actions[i].creator.Some? ==> c == spec.actions[i].creator.value)
  {
  }

  /**
   * Module-level middlewares come first; each runs on the module's own action
   * types and the submodules' ones, and lets every other action through.
   */
  lemma SimpleModuleLevelMiddleware(spec: SimpleSpec, subTypes: seq<string>, i: nat, io: IO, a: Value)
    requires spec.Valid() && i < |spec.middlewares|
    ensures var m := CreateSimpleModule(spec, subTypes).middlewares[i](io)(a);
      && (Listed(TypesOf(spec.actions) + subTypes, a) ==> m == spec.middlewares[i](io)(a))
      && (!Listed(TypesOf(spec.actions) + subTypes, a) ==> Passes(m, a))
  {
    OnActionTypesFilters(TypesOf(spec.actions) + subTypes, spec.middlewares[i], io, a);
  }

  /**
   * The `j`-th middleware of action `i` follows the module-level ones and those
   * of the actions before it, and is that middleware restricted to the
   * action's own type: by `OnActionTypesFilters` it runs on actions of that
   * type and lets every other action through.
   */
  lemma SimpleActionMiddleware(spec: SimpleSpec, subTypes: seq<string>, i: nat, j: nat)
    requires spec.Valid() && i < |spec.actions| && j < |spec.actions[i].middlewares|
    ensures var p := |spec.middlewares| + Count(spec.actions, i) + j;
      var r := CreateSimpleModule(spec, subTypes);
      p < |r.middlewares| && r.middlewares[p] == OnActionTypes([spec.actions[i].actionType], spec.actions[i].middlewares[j])
  {
    ActionMiddlewaresAt(spec.actions, |spec.actions|, i, j);
  }

  /** With no middleware declared anywhere the middleware list is empty. */
  lemma SimpleModuleNoMiddlewares(spec: SimpleSpec, subTypes: seq<string>)
    requires spec.Valid() && spec.middlewares == []
    requires forall i :: 0 <= i < |spec.actions| ==> spec.actions[i].middlewares == []
    ensures CreateSimpleModule(spec, subTypes).middlewares == []
  {
    NoActionMiddlewares(spec.actions, |spec.actions|);
  }

  lemma {:induction false} NoActionMiddlewares(actions: seq<ActionSpec>, n: nat)
    requires n <= |actions|
    requires forall i :: 0 <= i < |actions| ==> actions[i].middlewares == []
    ensures Count(actions, n) == 0
  {
    if n > 0 {
      NoActionMiddlewares(actions, n - 1);
    }
  }

  /** The documented counter module: `increment(5)` uses its creator, `decrement()` the default one, no middlewares. */
  function IncrementCreator(args: seq<Value>): Value {
    Obj(map["type" := Str("INCREMENT"), "val" := At(args, 0)])
  }

  const CounterSpec: SimpleSpec := SimpleSpec(
    ["decrement", "increment"],
    [ActionSpec("DECREMENT", None, []), ActionSpec("INCREMENT", Some(IncrementCreator), [])],
    [],
    Reducers.Counter)

  lemma SimpleModuleExample()
    ensures CounterSpec.Valid()
    ensures var m := CreateSimpleModule(CounterSpec, []);
      && m.actionTypes == ["DECREMENT", "INCREMENT"]
      && m.actionCreators.Keys == {"decrement", "increment"}
      && m.actionCreators["increment"]([Num(5)]) == Obj(map["type" := Str("INCREMENT"), "val" := Num(5)])
      && m.actionCreators["decrement"]([]) == Obj(map["type" := Str("DECREMENT")])
      && m.middlewares == []
      && m.reducer(Num(5), Obj(map["type" := Str("DECREMENT")])) == Num(4)
  {
    assert CounterSpec.Valid();
    SimpleModuleCreators(CounterSpec, [], 0, []);
    SimpleModuleNoMiddlewares(CounterSpec, []);
    var m := CreateSimpleModule(CounterSpec, []);
    assert CounterSpec.names[0] == "decrement" && CounterSpec.names[1] == "increment";
    assert "decrement" in m.actionCreators && "increment" in m.actionCreators;
    assert m.actionCreators["increment"] == IncrementCreator;
  }

  // ----------------------------------------------------- createCombinedModule

  /** `{ ...io, getState: () => io.getState()[name] }`. */
  function Localize(io: IO, name: string): (r: IO)
    ensures r.fields == io.fields
  {
    IO(() => Get(io.getState(), name), io.fields)
  }

  /** A submodule's middleware bound to the localized io. */
  function Localized(name: string, mw: Middleware): Middleware {
    io => mw(Localize(io, name))
  }

  /** The state getter a submodule's middleware sees reads its slice of the state. */
  lemma LocalizedState(io: IO, name: string)
    ensures Localize(io, name).getState() == Get(io.getState(), name)
  {
  }

  /** Nesting combined modules reads the slice of the slice. */
  lemma LocalizedTwice(io: IO, outer: string, inner: string)
    ensures Localize(Localize(io, outer), inner).getState() == Get(Get(io.getState(), outer), inner)
  {
  }

  /** The submodule example: a middleware of `counter1` sees the number under `counter1`. */
  lemma LocalizedExample()
    ensures Localize(IO(() => Obj(map["counter1" := Num(0), "counter2" := Num(0)]), map[]), "counter1").getState() == Num(0)
  {
  }

  /** The action creators after the first `n` modules: each spread over the previous ones. */
  function MergedCreators(modules: seq<Module>, n: nat): map<string, ActionCreator>
    requires n <= |modules|
  {
    if n == 0 then map[] else MergedCreators(modules, n - 1) + modules[n - 1].actionCreators
  }

  /** A name defined by module `i` and by none after it. */
  ghost predicate LastDefinedIn(modules: seq<Module>, n: nat, i: nat, k: string)
    requires i < n <= |modules|
  {
    k in modules[i].actionCreators && forall j :: i < j < n ==> k !in modules[j].actionCreators
  }

  lemma MergedCreatorsFacts(modules: seq<Module>, n: nat)
    requires n <= |modules|
    ensures forall k :: k in MergedCreators(modules, n) <==> exists i :: 0 <= i < n && k in modules[i].actionCreators
    ensures forall i, k :: 0 <= i < n && LastDefinedIn(modules, n, i, k) ==>
      MergedCreators(modules, n)[k] == modules[i].actionCreators[k]
  {
    MergedCreatorsKeys(modules, n);
    MergedCreatorsValues(modules, n);
  }

  lemma {:induction false} MergedCreatorsKeys(modules: seq<Module>, n: nat)
    requires n <= |modules|
    ensures forall k :: k in MergedCreators(modules, n) <==> exists i :: 0 <= i < n && k in modules[i].actionCreators
  {
    if n > 0 {
      MergedCreatorsKeys(modules, n - 1);
      var prev := MergedCreators(modules, n - 1);
      forall k | k in MergedCreators(modules, n) ensures exists i :: 0 <= i < n && k in modules[i].actionCreators {
        if k !in modules[n - 1].actionCreators {
          assert k in prev;
        }
      }
    }
  }

  lemma {:induction false} MergedCreatorsValues(modules: seq<Module>, n: nat)
    requires n <= |modules|
    ensures forall i, k :: 0 <= i < n && LastDefinedIn(modules, n, i, k) ==>
      k in MergedCreators(modules, n) && MergedCreators(modules, n)[k] == modules[i].actionCreators[k]
  {
    if n > 0 {
      MergedCreatorsValues(modules, n - 1);
      forall i, k | 0 <= i < n && LastDefinedIn(modules, n, i, k)
        ensures k in MergedCreators(modules, n) && MergedCreators(modules, n)[k] == modules[i].actionCreators[k]
      {
        if i < n - 1 {
          assert k !in modules[n - 1].actionCreators;
          assert LastDefinedIn(modules, n - 1, i, k);
        }
      }
    }
  }

  /** The action types of the first `n` modules, one after the other. */
  function MergedTypes(modules: seq<Module>, n: nat): seq<string>
    requires n <= |modules|
  {
    if n == 0 then [] else MergedTypes(modules, n - 1) + modules[n - 1].actionTypes
  }

  lemma {:induction false} MergedTypesFacts(modules: seq<Module>, n: nat)
    requires n <= |modules|
    ensures forall t :: t in MergedTypes(modules, n) <==> exists i :: 0 <= i < n && t in modules[i].actionTypes
  {
    if n > 0 {
      MergedTypesFacts(modules, n - 1);
    }
  }

  /** How many action types the first `n` modules list, duplicates included. */
  function TypeCount(modules: seq<Module>, n: nat): nat
    requires n <= |modules|
  {
    if n == 0 then 0 else TypeCount(modules, n - 1) + |modules[n - 1].actionTypes|
  }

  lemma {:induction false} MergedTypesLength(modules: seq<Module>, n: nat)
    requires n <= |modules|
    ensures |MergedTypes(modules, n)| == TypeCount(modules, n)
  {
    if n > 0 {
      MergedTypesLength(modules, n - 1);
    }
  }

  /** The `j`-th type of module `i` follows every type of the modules before it. */
  lemma {:induction false} MergedTypesAt(modules: seq<Module>, n: nat, i: nat, j: nat)
    requires n <= |modules| && i < n && j < |modules[i].actionTypes|
    ensures TypeCount(modules, i) + j < TypeCount(modules, n) == |MergedTypes(modules, n)|
    ensures MergedTypes(modules, n)[TypeCount(modules, i) + j] == modules[i].actionTypes[j]
  {
    MergedTypesLength(modules, n);
    if i < n - 1 {
      MergedTypesAt(modules, n - 1, i, j);
    } else {
      MergedTypesLength(modules, n - 1);
    }
  }

  /** The middlewares of the first `n` modules, one module after the other, each localized on its name. */
  function MergedMiddlewares(names: seq<string>, modules: seq<Module>, n: nat): seq<Middleware>
    requires n <= |names| == |modules|
  {
    if n == 0 then []
    else
      var m := modules[n - 1].middlewares;
      MergedMiddlewares(names, modules, n - 1)
        + seq(|m|, j requires 0 <= j < |m| => Localized(names[n - 1], m[j]))
  }

  /** How many middlewares the first `n` modules have. */
  function MiddlewareCount(modules: seq<Module>, n: nat): nat
    requires n <= |modules|
  {
    if n == 0 then 0 else MiddlewareCount(modules, n - 1) + |modules[n - 1].middlewares|
  }

  lemma {:induction false} MergedMiddlewaresLength(names: seq<string>, modules: seq<Module>, n: nat)
    requires n <= |names| == |modules|
    ensures |MergedMiddlewares(names, modules, n)| == MiddlewareCount(modules, n)
  {
    if n > 0 {
      MergedMiddlewaresLength(names, modules, n - 1);
    }
  }

  /** The `j`-th middleware of module `i` follows those of the modules before it and sees that module's slice. */
  lemma {:induction false} MergedMiddlewaresAt(names: seq<string>, modules: seq<Module>, n: nat, i: nat, j: nat)
    requires n <= |names| == |modules| && i < n && j < |modules[i].middlewares|
    ensures MiddlewareCount(modules, i) + j < MiddlewareCount(modules, n) == |MergedMiddlewares(names, modules, n)|
    ensures MergedMiddlewares(names, modules, n)[MiddlewareCount(modules, i) + j] == Localized(names[i], modules[i].middlewares[j])
  {
    MergedMiddlewaresLength(names, modules, n);
    if i < n - 1 {
      MergedMiddlewaresAt(names, modules, n - 1, i, j);
    } else {
      MergedMiddlewaresLength(names, modules, n - 1);
    }
  }

  function ReducersOf(modules: seq<Module>): (r: seq<Reducers.Reducer>)
    ensures |r| == |modules| && forall i :: 0 <= i < |modules| ==> r[i] == modules[i].reducer
  {
    seq(|modules|, i requires 0 <= i < |modules| => modules[i].reducer)
  }

  /**
   * `createCombinedModule({ modules })`: action creators spread module after
   * module, so a later module wins a name; action types and middlewares
   * concatenated in module order, each middleware seeing its module's slice of
   * the state; the reducer combining the module reducers under their names.
   */
  function CreateCombinedModule(names: seq<string>, modules: seq<Module>): (r: Module)
    requires |names| == |modules| && Unique(names)
    ensures forall k :: k in r.actionCreators <==> exists i :: 0 <= i < |modules| && k in modules[i].actionCreators
    ensures forall i, k :: 0 <= i < |modules| && LastDefinedIn(modules, |modules|, i, k) ==>
      r.actionCreators[k] == modules[i].actionCreators[k]
    ensures forall t :: t in r.actionTypes <==> exists i :: 0 <= i < |modules| && t in modules[i].actionTypes
    ensures |r.actionTypes| == TypeCount(modules, |modules|)
    ensures |r.middlewares| == MiddlewareCount(modules, |modules|)
    ensures forall s, a, i :: 0 <= i < |names| ==>
      Get(r.reducer(s, a), names[i]) == modules[i].reducer(Get(Reducers.CombineInput(s), names[i]), a)
    ensures forall s, a, k :: k !in names ==> Get(r.reducer(s, a), k) == Get(Reducers.CombineInput(s), k)
  {
    MergedCreatorsFacts(modules, |modules|);
    MergedTypesFacts(modules, |modules|);
    MergedTypesLength(modules, |modules|);
    MergedMiddlewaresLength(names, modules, |modules|);
    var reducers := ReducersOf(modules);
    Module(
      MergedCreators(modules, |modules|),
      MergedTypes(modules, |modules|),
      MergedMiddlewares(names, modules, |modules|),
      (s, a) => Reducers.CombineReduce(names, reducers, s, a))
  }

  /** Each submodule middleware keeps its module's position and sees its module's slice of the state. */
  lemma CombinedMiddleware(names: seq<string>, modules: seq<Module>, i: nat, j: nat, io: IO, a: Value)
    requires |names| == |modules| && Unique(names) && i < |modules| && j < |modules[i].middlewares|
    ensures var r := CreateCombinedModule(names, modules);
      var p := MiddlewareCount(modules, i) + j;
      && p < |r.middlewares|
      && r.middlewares[p](io)(a) == modules[i].middlewares[j](Localize(io, names[i]))(a)
  {
    MergedMiddlewaresAt(names, modules, |modules|, i, j);
  }

  /**
   * The combined types are the modules' types concatenated in module order,
   * duplicates kept: the `j`-th type of module `i` follows every type of the
   * modules before it.
   */
  lemma CombinedTypesAt(names: seq<string>, modules: seq<Module>, i: nat, j: nat)
    requires |names| == |modules| && Unique(names) && i < |modules| && j < |modules[i].actionTypes|
    ensures var r := CreateCombinedModule(names, modules);
      var p := TypeCount(modules, i) + j;
      && p < |r.actionTypes| == TypeCount(modules, |modules|)
      && r.actionTypes[p] == modules[i].actionTypes[j]
  {
    MergedTypesAt(modules, |modules|, i, j);
  }

  /** When no submodule reducer changes its slice, the combined reducer returns the very same state. */
  lemma CombinedReducerKeeps(names: seq<string>, modules: seq<Module>, s: Value, a: Value)
    requires |names| == |modules| && Unique(names)
    requires forall i :: 0 <= i < |modules| ==>
      modules[i].reducer(Get(Reducers.CombineInput(s), names[i]), a) == Get(Reducers.CombineInput(s), names[i])
    ensures CreateCombinedModule(names, modules).reducer(s, a) == Reducers.CombineInput(s)
  {
    var reducers := ReducersOf(modules);
    assert Reducers.AllKept(names, reducers, Reducers.CombineInput(s), a, |names|);
  }

  // ------------------------------------------------------------- createModule

  /** A full spec: actions, module-level middlewares, an optional reducer and optional submodules. */
  datatype Spec = Spec(
    names: seq<string>,
    actions: seq<ActionSpec>,
    middlewares: seq<Middleware>,
    reducer: Option<Reducers.Reducer>,
    moduleNames: seq<string>,
    modules: Option<seq<Module>>)
  {
    ghost predicate Valid() {
      |names| == |actions| && Unique(names)
      && (modules.Some? ==> |moduleNames| == |modules.value| && Unique(moduleNames))
    }

    function Simple(): SimpleSpec
      requires reducer.Some?
    {
      SimpleSpec(names, actions, middlewares, reducer.value)
    }
  }

  /**
   * `createModule(spec)`: with a reducer and submodules, both modules merged
   * (the combined one's creators winning, the simple one's types and
   * middlewares first, the reducers merged); with a reducer only, the simple
   * module; otherwise the combined module, which needs `modules`
   * (`Object.keys(undefined)` throws).
   */
  function CreateModule(spec: Spec): (r: Option<Module>)
    requires spec.Valid()
    ensures r.None? <==> spec.reducer.None? && spec.modules.None?
    ensures spec.reducer.Some? && spec.modules.None? ==> r == Some(CreateSimpleModule(spec.Simple(), []))
    ensures spec.reducer.None? && spec.modules.Some? ==> r == Some(CreateCombinedModule(spec.moduleNames, spec.modules.value))
    ensures spec.reducer.Some? && spec.modules.Some? ==>
      var combined := CreateCombinedModule(spec.moduleNames, spec.modules.value);
      var simple := CreateSimpleModule(spec.Simple(), combined.actionTypes);
      && r.value.actionTypes == TypesOf(spec.actions) + combined.actionTypes
      && |r.value.middlewares| == |simple.middlewares| + |combined.middlewares|
      && r.value.middlewares[..|simple.middlewares|] == simple.middlewares
      && r.value.middlewares[|simple.middlewares|..] == combined.middlewares
      && (forall k :: k in r.value.actionCreators <==> k in simple.actionCreators || k in combined.actionCreators)
      && (forall k :: k in combined.actionCreators ==> r.value.actionCreators[k] == combined.actionCreators[k])
      && (forall k :: k in simple.actionCreators && k !in combined.actionCreators ==>
            r.value.actionCreators[k] == simple.actionCreators[k])
      && (forall s, a :: r.value.reducer(s, a) == Reducers.MergeReduce([spec.reducer.value, combined.reducer], s, a))
  {
    if spec.reducer.Some? then
      if spec.modules.Some? then
        var combined := CreateCombinedModule(spec.moduleNames, spec.modules.value);
        var simple := CreateSimpleModule(spec.Simple(), combined.actionTypes);
        var reducers := [simple.reducer, combined.reducer];
        Some(Module(
          simple.actionCreators + combined.actionCreators,
          simple.actionTypes + combined.actionTypes,
          simple.middlewares + combined.middlewares,
          (s, a) => Reducers.MergeReduce(reducers, s, a)))
      else Some(CreateSimpleModule(spec.Simple(), []))
    else if spec.modules.Some? then Some(CreateCombinedModule(spec.moduleNames, spec.modules.value))
    else None
  }

  /**
   * The merged reducer is `mergeReducers(spec.reducer, combined.reducer)`: it
   * never drops a key of the state it is given, and returns it when neither
   * part changes it.
   */
  lemma MergedModuleReducer(spec: Spec, s: Value, a: Value)
    requires spec.Valid() && spec.reducer.Some? && spec.modules.Some?
    ensures var r := CreateModule(spec).value;
      var combined := CreateCombinedModule(spec.moduleNames, spec.modules.value);
      && r.reducer(s, a) == Reducers.MergeReduce([spec.reducer.value, combined.reducer], s, a)
      && Own(s).Keys <= Own(r.reducer(s, a)).Keys
      && (Reducers.AllReturnInput([spec.reducer.value, combined.reducer], s, a) ==> r.reducer(s, a) == s)
  {
  }

  /**
   * Key by key, the merged reducer holds the combined reducer's answer where
   * it owns the key (that reducer runs on the simple one's merged output),
   * else the spec reducer's answer where it owns it, else the input's value.
   */
  lemma MergedModuleReducerValues(spec: Spec, s: Value, a: Value, k: string)
    requires spec.Valid() && spec.reducer.Some? && spec.modules.Some?
    ensures var r := CreateModule(spec).value;
      var rs := [spec.reducer.value, CreateCombinedModule(spec.moduleNames, spec.modules.value).reducer];
      var first, second := Reducers.Answer(rs, s, a, 0), Reducers.Answer(rs, s, a, 1);
      && (k in Own(second) ==> Get(r.reducer(s, a), k) == Get(second, k))
      && (k !in Own(second) && k in Own(first) ==> Get(r.reducer(s, a), k) == Get(first, k))
      && (k !in Own(second) && k !in Own(first) ==> Get(r.reducer(s, a), k) == Get(s, k))
  {
    var rs := [spec.reducer.value, CreateCombinedModule(spec.moduleNames, spec.modules.value).reducer];
    MergedModuleReducer(spec, s, a);
    Reducers.MergeReduceValues(rs, s, a, k);
    if k in Own(Reducers.Answer(rs, s, a, 1)) {
      assert Reducers.LastDefines(rs, s, a, 2, k, 1);
    } else if k in Own(Reducers.Answer(rs, s, a, 0)) {
      assert Reducers.LastDefines(rs, s, a, 2, k, 0);
    }
  }

  /** A module-level middleware of the merged module also runs on the submodules' action types. */
  lemma ModuleMiddlewareCoversSubmodules(spec: Spec, i: nat, io: IO, a: Value, m: nat)
    requires spec.Valid() && spec.reducer.Some? && spec.modules.Some?
    requires i < |spec.middlewares| && m < |spec.modules.value|
    requires Get(a, "type").Str? && Get(a, "type").s in spec.modules.value[m].actionTypes
    ensures CreateModule(spec).value.middlewares[i](io)(a) == spec.middlewares[i](io)(a)
  {
    var combined := CreateCombinedModule(spec.moduleNames, spec.modules.value);
    assert Get(a, "type").s in combined.actionTypes;
    var simple := CreateSimpleModule(spec.Simple(), combined.actionTypes);
    SimpleModuleLevelMiddleware(spec.Simple(), combined.actionTypes, i, io, a);
    assert CreateModule(spec).value.middlewares[i] == simple.middlewares[i];
  }
}

=== FILE: reducers.dfy ===
/**
 * Reducer composition: `hasOwnProperties`, `partializeReducer`,
 * `combineReducers` and `mergeReducers`.  Each composed reducer returns the
 * very state it was given when no part changed, so that a `!==` check upstream
 * sees no change.
 */
module Reducers {
  import opened Values

  type Reducer = (Value, Value) -> Value

  /** The action `{ type: undefined }` used to read a reducer's default state. */
  const InitAction: Value := Obj(map["type" := Undefined])

  // -------------------------------------------------------- hasOwnProperties

  /** Whether `source` has every key as an own property (primitives have none). */
  predicate HasAll(keys: seq<string>, source: Value) {
    forall i :: 0 <= i < |keys| ==> keys[i] in Own(source)
  }

  /**
   * The generated check `source.hasOwnProperty(k0) && ...`: with no keys the
   * body is an empty `return`, so the answer is `undefined`.
   */
  function HasOwnProperties(keys: seq<string>, source: Value): (r: Value)
    ensures keys == [] ==> r == Undefined
    ensures keys != [] ==> r == Bool(HasAll(keys, source))
    ensures Falsy(r) <==> !(keys != [] && HasAll(keys, source))
    decreases |keys|
  {
    if keys == [] then Undefined
    else if keys[0] !in Own(source) then Bool(false)
    else if |keys| == 1 then Bool(true)
    else
      var rest := HasOwnProperties(keys[1..], source);
      assert forall i :: 1 <= i < |keys| ==> keys[i] == keys[1..][i - 1];
      rest
  }

  /** The documented example. */
  lemma HasOwnPropertiesExample()
    ensures HasOwnProperties(["firstName", "lastName"], Obj(map["firstName" := Str("Michael")])) == Bool(false)
    ensures HasOwnProperties(["firstName", "lastName"],
      Obj(map["firstName" := Str("Michael"), "lastName" := Str("Jackson")])) == Bool(true)
  {
  }

  // ------------------------------------------------------- partializeReducer

  /** The reducer's default state. */
  function Default(reducer: Reducer): Value {
    reducer(Undefined, InitAction)
  }

  /** `hasOwnProperties` over the default state's keys, whatever order `Object.keys` lists them in. */
  function IsComplete(keys: set<string>, source: Value): (r: Value)
    ensures keys == {} ==> r == Undefined
    ensures keys != {} ==> r == Bool(keys <= Own(source).Keys)
  {
    if keys == {} then Undefined else Bool(keys <= Own(source).Keys)
  }

  /** The generated check depends only on the set of keys. */
  lemma HasOwnPropertiesAnyOrder(ks: seq<string>, keys: set<string>, source: Value)
    requires forall k :: k in ks <==> k in keys
    ensures HasOwnProperties(ks, source) == IsComplete(keys, source)
  {
    if ks != [] {
      assert ks[0] in keys;
      if HasAll(ks, source) {
        forall k | k in keys ensures k in Own(source) {
          var i :| 0 <= i < |ks| && ks[i] == k;
        }
      }
    }
  }

  /**
   * The state a partialized reducer hands to the reducer: `undefined` for a
   * falsy state, the state itself when it already has every default key,
   * otherwise the defaults overlaid with the state.
   */
  function PartialInput(reducer: Reducer, state: Value): (r: Value)
    ensures Falsy(state) ==> r == Undefined
    ensures !Falsy(state) ==> forall k :: k in Own(state) ==> k in Own(r) && Own(r)[k] == Own(state)[k]
    ensures !Falsy(state) ==> forall k :: k in Own(Default(reducer)) ==> k in Own(r)
    ensures !Falsy(state) && Own(Default(reducer)) != map[] && Own(Default(reducer)).Keys <= Own(state).Keys ==> r == state
  {
    var keys := Own(Default(reducer)).Keys;
    if Falsy(state) then Undefined
    else if !Falsy(IsComplete(keys, state)) then state
    else Spread(Default(reducer), state)
  }

  /** `partializeReducer(reducer)`: the reducer, applied to the completed state. */
  function Partialize(reducer: Reducer, state: Value, action: Value): (r: Value)
    ensures Falsy(state) ==> r == reducer(Undefined, action)
  {
    reducer(PartialInput(reducer, state), action)
  }

  /** A partial state reaches the reducer with every missing default key filled in. */
  lemma PartialStateCompleted(reducer: Reducer, state: Value, k: string)
    requires state.Obj?
    requires k in Own(Default(reducer)) && k !in Own(state)
    ensures Get(PartialInput(reducer, state), k) == Get(Default(reducer), k)
  {
  }

  // --------------------------------------------------------- combineReducers

  /**
   * The state after the first `n` iterations of the loop over the mapping's
   * keys: a key whose reducer returns a value not `===` the current one is
   * replaced in a fresh copy.
   */
  function CombineSteps(props: seq<string>, reducers: seq<Reducer>, s0: Value, action: Value, n: nat): Value
    requires n <= |props| == |reducers|
  {
    if n == 0 then s0
    else
      var st := CombineSteps(props, reducers, s0, action, n - 1);
      var sub := reducers[n - 1](Get(st, props[n - 1]), action);
      if sub != Get(st, props[n - 1]) then With(st, props[n - 1], sub) else st
  }

  /** `state = {}`: only `undefined` is replaced by the default. */
  function CombineInput(state: Value): Value {
    if state == Undefined then Obj(map[]) else state
  }

  /** Every reducer of the mapping leaves its slice `===` as it was. */
  predicate AllKept(props: seq<string>, reducers: seq<Reducer>, s0: Value, action: Value, n: nat)
    requires n <= |props| == |reducers|
  {
    forall i :: 0 <= i < n ==> reducers[i](Get(s0, props[i]), action) == Get(s0, props[i])
  }

  lemma {:induction false} CombineStepsFacts(props: seq<string>, reducers: seq<Reducer>, s0: Value, action: Value, n: nat)
    requires n <= |props| == |reducers| && Unique(props)
    ensures var r := CombineSteps(props, reducers, s0, action, n);
      && (forall i :: 0 <= i < n ==> Get(r, props[i]) == reducers[i](Get(s0, props[i]), action))
      && (forall k :: k !in props[..n] ==> Get(r, k) == Get(s0, k))
      && (AllKept(props, reducers, s0, action, n) ==> r == s0)
  {
    if n > 0 {
      CombineStepsFacts(props, reducers, s0, action, n - 1);
      var st := CombineSteps(props, reducers, s0, action, n - 1);
      var p := props[n - 1];
      LastKeyFresh(props, n);
      assert Get(st, p) == Get(s0, p);
    }
  }

  /** With unique keys, the `n`-th key is not among the first `n - 1`, and the first `n` keys are those plus it. */
  lemma LastKeyFresh(props: seq<string>, n: nat)
    requires 0 < n <= |props| && Unique(props)
    ensures props[n - 1] !in props[..n - 1]
    ensures forall k :: k !in props[..n] ==> k !in props[..n - 1] && k != props[n - 1]
  {
    var p, pre := props[n - 1], props[..n - 1];
    forall j | 0 <= j < |pre| ensures pre[j] != p {
      assert pre[j] == props[j];
    }
    assert props[..n] == pre + [p];
  }

  /**
   * `combineReducers(mapping)(state, action)`, with the mapping given as its
   * keys in `Object.keys` order and the reducer under each: every key holds
   * its reducer's answer to the key's old value, other keys are kept, and
   * when no reducer changed its slice the very same state is returned.
   */
  function CombineReduce(props: seq<string>, reducers: seq<Reducer>, state: Value, action: Value): (r: Value)
    requires |props| == |reducers| && Unique(props)
    ensures forall i :: 0 <= i < |props| ==> Get(r, props[i]) == reducers[i](Get(CombineInput(state), props[i]), action)
    ensures forall k :: k !in props ==> Get(r, k) == Get(CombineInput(state), k)
    ensures AllKept(props, reducers, CombineInput(state), action, |props|) ==> r == CombineInput(state)
  {
    CombineStepsFacts(props, reducers, CombineInput(state), action, |props|);
    assert props[..|props|] == props;
    CombineSteps(props, reducers, CombineInput(state), action, |props|)
  }

  /** The counter reducer of the combined example: a number defaulting to 0. */
  function Counter(state: Value, action: Value): Value {
    var s := if state == Undefined then Num(0) else state;
    if Get(action, "type") == Str("INCREMENT") && s.Num? then Num(s.n + 1)
    else if Get(action, "type") == Str("DECREMENT") && s.Num? then Num(s.n - 1)
    else s
  }

  /** The todos reducer of the combined example: `{ list }` defaulting to an empty list. */
  function TodoList(state: Value, action: Value): Value {
    var s := if state == Undefined then Obj(map["list" := Arr([])]) else state;
    if Get(action, "type") == Str("ADD_TODOS") && Get(s, "list").Arr? then
      With(s, "list", Arr(Get(s, "list").items + [Get(action, "data")]))
    else s
  }

  lemma CombineReducersExample()
    ensures CombineReduce(["counter", "todos"], [Counter, TodoList], Undefined, Obj(map["type" := Str("INCREMENT")]))
      == Obj(map["counter" := Num(1), "todos" := Obj(map["list" := Arr([])])])
    ensures CombineReduce(["counter", "todos"], [Counter, TodoList], Obj(map["counter" := Num(10)]), Obj(map["type" := Str("INCREMENT")]))
      == Obj(map["counter" := Num(11), "todos" := Obj(map["list" := Arr([])])])
  {
    var props := ["counter", "todos"];
    var reducers: seq<Reducer> := [Counter, TodoList];
    var inc := Obj(map["type" := Str("INCREMENT")]);
    assert Counter(Undefined, inc) == Num(1);
    assert CombineSteps(props, reducers, Obj(map[]), inc, 0) == Obj(map[]);
    var s1 := CombineSteps(props, reducers, Obj(map[]), inc, 1);
    assert s1 == With(Obj(map[]), "counter", Num(1));
    assert s1 == Obj(map["counter" := Num(1)]);
    var s2 := Obj(map["counter" := Num(10)]);
    assert CombineSteps(props, reducers, s2, inc, 1) == Obj(map["counter" := Num(11)]);
  }

  // ----------------------------------------------------------- mergeReducers

  /**
   * The state after the first `n` partialized reducers: an answer not `===`
   * the current state is spread over it.
   */
  function MergeSteps(reducers: seq<Reducer>, state: Value, action: Value, n: nat): Value
    requires n <= |reducers|
  {
    if n == 0 then state else MergeStep(reducers[n - 1], MergeSteps(reducers, state, action, n - 1), action)
  }

  /** One iteration: the partialized reducer's answer, spread over the state when not `===` it. */
  function MergeStep(reducer: Reducer, st: Value, action: Value): Value {
    var next := Partialize(reducer, st, action);
    if next != st then Spread(st, next) else st
  }

  /** Every partialized reducer leaves the state `===` as it was. */
  predicate AllReturnInput(reducers: seq<Reducer>, state: Value, action: Value) {
    forall i :: 0 <= i < |reducers| ==> Partialize(reducers[i], state, action) == state
  }

  lemma {:induction false} MergeStepsFacts(reducers: seq<Reducer>, state: Value, action: Value, n: nat)
    requires n <= |reducers|
    ensures Own(state).Keys <= Own(MergeSteps(reducers, state, action, n)).Keys
    ensures AllReturnInput(reducers, state, action) ==> MergeSteps(reducers, state, action, n) == state
  {
    if n > 0 {
      MergeStepsFacts(reducers, state, action, n - 1);
    }
  }

  /**
   * `mergeReducers(...reducers)(state, action)`: keys are only ever added or
   * overwritten, never removed, and when every partialized reducer returns the
   * state it was given the very same state comes back.
   */
  function MergeReduce(reducers: seq<Reducer>, state: Value, action: Value): (r: Value)
    ensures Own(state).Keys <= Own(r).Keys
    ensures AllReturnInput(reducers, state, action) ==> r == state
  {
    MergeStepsFacts(reducers, state, action, |reducers|);
    MergeSteps(reducers, state, action, |reducers|)
  }

  /** The key written by the last reducer holds that reducer's answer. */
  lemma MergeLastWins(reducers: seq<Reducer>, state: Value, action: Value, k: string)
    requires |reducers| > 0
    requires var n := |reducers|;
      var st := MergeSteps(reducers, state, action, n - 1);
      k in Own(Partialize(reducers[n - 1], st, action))
    ensures var n := |reducers|;
      var st := MergeSteps(reducers, state, action, n - 1);
      Get(MergeReduce(reducers, state, action), k) == Get(Partialize(reducers[n - 1], st, action), k)
  {
  }

  /** The `i`-th partialized reducer's answer, given the state the loop has reached by then. */
  function Answer(reducers: seq<Reducer>, state: Value, action: Value, i: nat): Value
    requires i < |reducers|
  {
    Partialize(reducers[i], MergeSteps(reducers, state, action, i), action)
  }

  /** Among the first `n` answers, the `i`-th is the last one owning `k`. */
  ghost predicate LastDefines(reducers: seq<Reducer>, state: Value, action: Value, n: nat, k: string, i: nat) {
    && n <= |reducers| && i < n
    && k in Own(Answer(reducers, state, action, i))
    && forall j: nat :: i < j < n ==> k !in Own(Answer(reducers, state, action, j))
  }

  /** One step leaves `k` as the answer has it when the answer owns `k`, and as it was otherwise. */
  lemma MergeStepGet(reducer: Reducer, st: Value, action: Value, k: string)
    ensures k in Own(Partialize(reducer, st, action)) ==>
      Get(MergeStep(reducer, st, action), k) == Get(Partialize(reducer, st, action), k)
    ensures k !in Own(Partialize(reducer, st, action)) ==>
      Get(MergeStep(reducer, st, action), k) == Get(st, k)
  {
  }

  /** Step `n` leaves `k` as the `n`-th answer has it when that answer owns `k`, and as it was otherwise. */
  lemma StepLink(reducers: seq<Reducer>, state: Value, action: Value, n: nat, k: string)
    requires 0 < n <= |reducers|
    ensures k in Own(Answer(reducers, state, action, n - 1)) ==>
      Get(MergeSteps(reducers, state, action, n), k) == Get(Answer(reducers, state, action, n - 1), k)
    ensures k !in Own(Answer(reducers, state, action, n - 1)) ==>
      Get(MergeSteps(reducers, state, action, n), k) == Get(MergeSteps(reducers, state, action, n - 1), k)
  {
    MergeStepGet(reducers[n - 1], MergeSteps(reducers, state, action, n - 1), action, k);
  }

  /**
   * A chain of states `sts` driven by answers `ans`: step `j` takes `k` from
   * `ans[j]` when that answer owns it, and keeps it otherwise.
   */
  ghost predicate ChainStep(sts: seq<Value>, ans: seq<Value>, k: string, j: nat)
    requires j < |ans| && |sts| == |ans| + 1
  {
    && (k in Own(ans[j]) ==> Get(sts[j + 1], k) == Get(ans[j], k))
    && (k !in Own(ans[j]) ==> Get(sts[j + 1], k) == Get(sts[j], k))
  }

  /** No answer at a position from `lo` up to `hi` (exclusive) owns `k`. */
  ghost predicate NoOwner(ans: seq<Value>, k: string, lo: nat, hi: nat) {
    forall j: nat :: lo <= j < hi && j < |ans| ==> k !in Own(ans[j])
  }

  /** Along such a chain, `k` ends as the last answer owning it left it, or as it started. */
  lemma {:induction false} ChainValue(sts: seq<Value>, ans: seq<Value>, k: string, n: nat)
    requires |sts| == |ans| + 1 && n <= |ans|
    requires forall j: nat :: j < |ans| ==> ChainStep(sts, ans, k, j)
    ensures NoOwner(ans, k, 0, n) ==> Get(sts[n], k) == Get(sts[0], k)
    ensures forall i: nat :: i < n && k in Own(ans[i]) && NoOwner(ans, k, i + 1, n) ==> Get(sts[n], k) == Get(ans[i], k)
  {
    if n > 0 {
      ChainValue(sts, ans, k, n - 1);
      assert ChainStep(sts, ans, k, n - 1);
      if NoOwner(ans, k, 0, n) {
        assert NoOwner(ans, k, 0, n - 1);
        assert k !in Own(ans[n - 1]);
      }
      forall i: nat | i < n && k in Own(ans[i]) && NoOwner(ans, k, i + 1, n) ensures Get(sts[n], k) == Get(ans[i], k) {
        if i < n - 1 {
          assert NoOwner(ans, k, i + 1, n - 1);
          assert k !in Own(ans[n - 1]);
        }
      }
    }
  }

  /** The states the merge loop passes through and the answers that drive it, as a chain for `k`. */
  lemma MergeChain(reducers: seq<Reducer>, state: Value, action: Value, k: string) returns (sts: seq<Value>, ans: seq<Value>)
    ensures |ans| == |reducers| && |sts| == |ans| + 1
    ensures sts[0] == state && sts[|ans|] == MergeReduce(reducers, state, action)
    ensures forall j: nat :: j < |ans| ==> ans[j] == Answer(reducers, state, action, j)
    ensures forall j: nat :: j < |ans| ==> ChainStep(sts, ans, k, j)
  {
    var n := |reducers|;
    sts := seq(n + 1, j requires 0 <= j <= n => MergeSteps(reducers, state, action, j));
    ans := seq(n, j requires 0 <= j < n => Answer(reducers, state, action, j));
    MergeChainSteps(reducers, state, action, k, sts, ans);
  }

  lemma MergeChainSteps(reducers: seq<Reducer>, state: Value, action: Value, k: string, sts: seq<Value>, ans: seq<Value>)
    requires |ans| == |reducers| && |sts| == |ans| + 1
    requires forall j: nat :: j <= |ans| ==> sts[j] == MergeSteps(reducers, state, action, j)
    requires forall j: nat :: j < |ans| ==> ans[j] == Answer(reducers, state, action, j)
    ensures forall j: nat :: j < |ans| ==> ChainStep(sts, ans, k, j)
  {
    forall j: nat | j < |ans| ensures ChainStep(sts, ans, k, j) {
      StepLink(reducers, state, action, j + 1, k);
    }
  }

  /**
   * The value of every key of the merged state: the answer of the last
   * reducer whose answer owns the key, or the given state's value when no
   * answer owns it.
   */
  lemma MergeReduceValues(reducers: seq<Reducer>, state: Value, action: Value, k: string)
    ensures (forall i: nat :: i < |reducers| ==> k !in Own(Answer(reducers, state, action, i))) ==>
      Get(MergeReduce(reducers, state, action), k) == Get(state, k)
    ensures forall i: nat :: LastDefines(reducers, state, action, |reducers|, k, i) ==>
      Get(MergeReduce(reducers, state, action), k) == Get(Answer(reducers, state, action, i), k)
  {
    var n := |reducers|;
    var sts, ans := MergeChain(reducers, state, action, k);
    ChainValue(sts, ans, k, n);
    if forall i: nat :: i < n ==> k !in Own(Answer(reducers, state, action, i)) {
      assert NoOwner(ans, k, 0, n);
    }
    forall i: nat | LastDefines(reducers, state, action, n, k, i)
      ensures Get(MergeReduce(reducers, state, action), k) == Get(Answer(reducers, state, action, i), k)
    {
      assert NoOwner(ans, k, i + 1, n);
    }
  }

  /** The counter reducer of the merged example: `{ counter }` defaulting to 0. */
  function CounterObj(state: Value, action: Value): Value {
    var s := if state == Undefined then Obj(map["counter" := Num(0)]) else state;
    var c := Get(s, "counter");
    if Get(action, "type") == Str("INCREMENT") && c.Num? then With(s, "counter", Num(c.n + 1))
    else if Get(action, "type") == Str("DECREMENT") && c.Num? then With(s, "counter", Num(c.n - 1))
    else s
  }

  /** The todos reducer of the merged example: `{ todos }` defaulting to an empty list. */
  function TodosObj(state: Value, action: Value): Value {
    var s := if state == Undefined then Obj(map["todos" := Arr([])]) else state;
    if Get(action, "type") == Str("ADD_TODOS") && Get(s, "todos").Arr? then
      With(s, "todos", Arr(Get(s, "todos").items + [Get(action, "data")]))
    else s
  }

  const Inc: Value := Obj(map["type" := Str("INCREMENT")])

  lemma CounterFromUndefined()
    ensures MergeSteps([CounterObj, TodosObj], Undefined, Inc, 1) == Obj(map["counter" := Num(1)])
  {
    assert Partialize(CounterObj, Undefined, Inc) == Obj(map["counter" := Num(1)]);
  }

  lemma CounterFromTen()
    ensures MergeSteps([CounterObj, TodosObj], Obj(map["counter" := Num(10)]), Inc, 1) == Obj(map["counter" := Num(11)])
  {
    var ten := Obj(map["counter" := Num(10)]);
    assert Default(CounterObj) == Obj(map["counter" := Num(0)]);
    assert PartialInput(CounterObj, ten) == ten;
  }

  /** The todos reducer receives the counter state completed with its default `todos`. */
  lemma TodosFilled(c: int)
    ensures Partialize(TodosObj, Obj(map["counter" := Num(c)]), Inc) == Obj(map["todos" := Arr([]), "counter" := Num(c)])
  {
    assert Default(TodosObj) == Obj(map["todos" := Arr([])]);
    assert PartialInput(TodosObj, Obj(map["counter" := Num(c)])) == Obj(map["todos" := Arr([]), "counter" := Num(c)]);
  }

  /** The todos step on `{ counter: c }` adds the empty list. */
  lemma TodosStep(c: int)
    ensures MergeStep(TodosObj, Obj(map["counter" := Num(c)]), Inc) == Obj(map["counter" := Num(c), "todos" := Arr([])])
  {
    TodosFilled(c);
    assert Spread(Obj(map["counter" := Num(c)]), Obj(map["todos" := Arr([]), "counter" := Num(c)]))
      == Obj(map["counter" := Num(c), "todos" := Arr([])]);
  }

  lemma MergeReducersExample()
    ensures MergeReduce([CounterObj, TodosObj], Undefined, Inc) == Obj(map["counter" := Num(1), "todos" := Arr([])])
  {
    CounterFromUndefined();
    TodosStep(1);
  }

  lemma MergeReducersPartialExample()
    ensures MergeReduce([CounterObj, TodosObj], Obj(map["counter" := Num(10)]), Inc)
      == Obj(map["counter" := Num(11), "todos" := Arr([])])
  {
    CounterFromTen();
    TodosStep(11);
  }
}

=== FILE: scoped.dfy ===
/**
 * `createScoped`: a scoped app derives its state from a parent app through a
 * memoized selector, notifies its subscribers when that derived state
 * changes, and builds nested scoped apps for the sub-selectors attached to
 * its selector.  A selector that builds a fresh object or array on every call
 * returns values that are never `===`; that is recorded by `allocates`, per
 * parent state.
 *
 * `subscribe` registers a wrapper on the parent through `parentSubscribe`.
 * A nested app's parent is this app, so its `subscribe` registers a wrapper
 * of a wrapper: every registration, nested or not, lands in order on the
 * outermost parent.  They are kept in the outermost app's `registrations`.
 */
module Scoped {
  import opened Values
  import opened Memoization
  import opened CustomSignal

  /** A selector and, per parent state, whether two calls of it there are not `===`. */
  datatype Selector = Selector(fn: Value -> Value, allocates: Value -> bool)

  /** A selector with the sub-selectors attached to it, in `Object.keys` order. */
  datatype SelectorNode = SelectorNode(name: string, sel: Selector, children: seq<SelectorNode>)

  /**
   * A wrapper registered on the parent: its token (the function `subscribe`
   * returns removes exactly this wrapper), the nested app whose `subscribe`
   * made it (positions in `scopeds`, outermost first; empty for this app's
   * own `subscribe`) and the listener it guards.
   */
  datatype Registration = Registration(token: nat, path: seq<nat>, listener: ListenerId)

  /**
   * A scoped app: its selector, the `memoize` cache, the shared
   * `selectorState`, the wrappers registered on the parent through it or its
   * nested apps (in order), the next token, and its nested scoped apps.
   */
  datatype ScopedApp = ScopedApp(
    name: string,
    sel: Value -> Value,
    memo: Memo,
    selectorState: Value,
    registrations: seq<Registration>,
    nextToken: nat,
    scopeds: seq<ScopedApp>)

  datatype ScopedError = Unstable(name: string)

  /** What `memoize(selector)` returns on its first call. */
  function FirstCall(fn: Value -> Value, parentState: Value): (r: Value)
    ensures parentState != Undefined ==> r == fn(parentState)
    ensures parentState == Undefined ==> r == Undefined
  {
    Memoize(fn, Fresh, parentState).result
  }

  /**
   * Some selector in the tree builds fresh values on the state it is created
   * on: its parent's state for the root, and its parent app's first state for
   * a sub-selector.
   */
  predicate Allocates(node: SelectorNode, parentState: Value)
    decreases node
  {
    || node.sel.allocates(parentState)
    || exists i :: 0 <= i < |node.children| && Allocates(node.children[i], FirstCall(node.sel.fn, parentState))
  }

  /** Some selector in the list of trees builds fresh values on `parentState`. */
  predicate AnyAllocates(nodes: seq<SelectorNode>, parentState: Value)
    decreases nodes
  {
    exists i :: 0 <= i < |nodes| && Allocates(nodes[i], parentState)
  }

  /** The names of a tree, pre-order. */
  function Names(node: SelectorNode): (r: set<string>)
    decreases node
  {
    {node.name} + NamesAll(node.children)
  }

  function NamesAll(nodes: seq<SelectorNode>): (r: set<string>)
    decreases nodes
  {
    if nodes == [] then {} else Names(nodes[0]) + NamesAll(nodes[1..])
  }

  /**
   * `createScoped(selector, getParentState, ...)`: throws when two calls of the
   * selector on the current parent state are not `===`, otherwise memoizes it,
   * computes the first selector state and builds the nested scoped apps from
   * the sub-selectors, whose parent state is this app's state.
   */
  function Create(node: SelectorNode, parentState: Value): (r: Result<ScopedApp, ScopedError>)
    ensures r.Success? ==> r.value.name == node.name && r.value.registrations == []
    ensures r.Failure? ==> r.error.name in Names(node)
    decreases node, 1
  {
    if node.sel.allocates(parentState) then Failure(Unstable(node.name))
    else
      var m := Memoize(node.sel.fn, Fresh, parentState);
      match CreateAll(node.children, m.result)
      case Failure(e) => Failure(e)
      case Success(children) => Success(ScopedApp(node.name, node.sel.fn, m.memo, m.result, [], 0, children))
  }

  /** The `Object.keys(selector).reduce` over sub-selectors: the first failure propagates. */
  function CreateAll(nodes: seq<SelectorNode>, parentState: Value): (r: Result<seq<ScopedApp>, ScopedError>)
    ensures r.Success? ==> |r.value| == |nodes|
    ensures r.Failure? ==> r.error.name in NamesAll(nodes)
    decreases nodes, 0
  {
    if nodes == [] then Success([])
    else
      match Create(nodes[0], parentState)
      case Failure(e) => Failure(e)
      case Success(app) =>
        match CreateAll(nodes[1..], parentState)
        case Failure(e) => Failure(e)
        case Success(rest) => Success([app] + rest)
  }

  /**
   * A created app matches its selector tree: every node holds its selector's
   * first result on its parent's state, no registrations yet, a consistent
   * cache, and one nested app per sub-selector.
   */
  ghost predicate Matches(app: ScopedApp, node: SelectorNode, parentState: Value)
    decreases node
  {
    && app.name == node.name
    && app.sel == node.sel.fn
    && app.selectorState == FirstCall(node.sel.fn, parentState)
    && Consistent(app.sel, app.memo)
    && app.registrations == []
    && |app.scopeds| == |node.children|
    && forall i :: 0 <= i < |node.children| ==> Matches(app.scopeds[i], node.children[i], app.selectorState)
  }

  /** Creation succeeds exactly when no selector in the tree allocates on its state, and then matches the tree. */
  lemma {:induction false} CreateCorrect(node: SelectorNode, parentState: Value)
    ensures Create(node, parentState).Success? <==> !Allocates(node, parentState)
    ensures Create(node, parentState).Success? ==> Matches(Create(node, parentState).value, node, parentState)
    decreases node, 1
  {
    if !node.sel.allocates(parentState) {
      var m := Memoize(node.sel.fn, Fresh, parentState);
      CreateAllCorrect(node.children, m.result);
    }
  }

  lemma {:induction false} CreateAllCorrect(nodes: seq<SelectorNode>, parentState: Value)
    ensures CreateAll(nodes, parentState).Success? <==> !AnyAllocates(nodes, parentState)
    ensures CreateAll(nodes, parentState).Success? ==>
      forall i :: 0 <= i < |nodes| ==> Matches(CreateAll(nodes, parentState).value[i], nodes[i], parentState)
    decreases nodes, 0
  {
    if nodes != [] {
      CreateCorrect(nodes[0], parentState);
      CreateAllCorrect(nodes[1..], parentState);
      assert forall i :: 1 <= i < |nodes| ==> nodes[1..][i - 1] == nodes[i];
      if AnyAllocates(nodes[1..], parentState) {
        var i :| 0 <= i < |nodes[1..]| && Allocates(nodes[1..][i], parentState);
        assert Allocates(nodes[i + 1], parentState);
      }
      if AnyAllocates(nodes, parentState) && !Allocates(nodes[0], parentState) {
        var i :| 0 <= i < |nodes| && Allocates(nodes[i], parentState);
        assert Allocates(nodes[1..][i - 1], parentState);
      }
    }
  }

  /** A selector that allocates only on some states: creation fails or succeeds with the parent's state. */
  lemma AllocatesDependsOnState()
    ensures var node := SelectorNode("items", Selector((s: Value) => s, (s: Value) => s.Obj?), []);
      && Create(node, Obj(map[])) == Failure(Unstable("items"))
      && Create(node, Num(0)).Success?
  {
  }

  // ------------------------------------------------------------ app trees

  /** The shape of an app tree: names, selectors and nesting, without the caches. */
  datatype Skeleton = Skeleton(name: string, sel: Value -> Value, children: seq<Skeleton>)

  function Shape(app: ScopedApp): (r: Skeleton)
    ensures |r.children| == |app.scopeds|
    decreases app
  {
    Skeleton(app.name, app.sel, seq(|app.scopeds|, i requires 0 <= i < |app.scopeds| => Shape(app.scopeds[i])))
  }

  /** `path` leads through nested apps of a tree of this shape. */
  predicate PathIn(sk: Skeleton, path: seq<nat>)
    decreases |path|
  {
    path == [] || (path[0] < |sk.children| && PathIn(sk.children[path[0]], path[1..]))
  }

  predicate ValidPath(app: ScopedApp, path: seq<nat>) {
    PathIn(Shape(app), path)
  }

  /** A step down a valid path stays valid. */
  lemma PathStep(app: ScopedApp, path: seq<nat>)
    requires ValidPath(app, path) && path != []
    ensures path[0] < |app.scopeds| && ValidPath(app.scopeds[path[0]], path[1..])
  {
    assert Shape(app).children[path[0]] == Shape(app.scopeds[path[0]]);
  }

  /** Replacing a nested app by one of the same shape keeps the shape. */
  lemma ReplaceChildShape(app: ScopedApp, i: nat, c: ScopedApp)
    requires i < |app.scopeds| && Shape(c) == Shape(app.scopeds[i])
    ensures Shape(app.(scopeds := app.scopeds[i := c])) == Shape(app)
  {
    var app1 := app.(scopeds := app.scopeds[i := c]);
    assert Shape(app1).children == Shape(app).children;
  }

  /** Every cache in the tree agrees with its selector. */
  ghost predicate ConsistentTree(app: ScopedApp)
    decreases app
  {
    && Consistent(app.sel, app.memo)
    && forall i :: 0 <= i < |app.scopeds| ==> ConsistentTree(app.scopeds[i])
  }

  /**
   * What the memoized selector answers for `v`: the selector's result, except
   * that a cache that never stored anything answers `undefined` for an
   * `undefined` state without running the selector.
   */
  function Answer(app: ScopedApp, v: Value): Value {
    if app.memo == Fresh && v == Undefined then Undefined else app.sel(v)
  }

  /** A memoized call returns the answer, keeps the cache consistent and the answer unchanged. */
  lemma MemoAnswer(app: ScopedApp, v: Value)
    requires Consistent(app.sel, app.memo)
    ensures Memoize(app.sel, app.memo, v).result == Answer(app, v)
    ensures Consistent(app.sel, Memoize(app.sel, app.memo, v).memo)
    ensures Answer(app.(memo := Memoize(app.sel, app.memo, v).memo), v) == Answer(app, v)
  {
  }

  /** The projection a listener at the end of `path` is about: each nested app's answer on its parent's. */
  function Final(app: ScopedApp, path: seq<nat>, v: Value): Value
    requires ValidPath(app, path)
    decreases |path|
  {
    if path == [] then Answer(app, v)
    else
      PathStep(app, path);
      Final(app.scopeds[path[0]], path[1..], Answer(app, v))
  }

  /** Along `path`, every app's answer differs from its shared `selectorState`. */
  ghost predicate ChangedAlong(app: ScopedApp, path: seq<nat>, v: Value)
    requires ValidPath(app, path)
    decreases |path|
  {
    && Answer(app, v) != app.selectorState
    && (path != [] ==> (PathStep(app, path); ChangedAlong(app.scopeds[path[0]], path[1..], Answer(app, v))))
  }

  /** Along `path`, every app's shared `selectorState` holds its answer. */
  ghost predicate HoldsAlong(app: ScopedApp, path: seq<nat>, v: Value)
    requires ValidPath(app, path)
    decreases |path|
  {
    && app.selectorState == Answer(app, v)
    && (path != [] ==> (PathStep(app, path); HoldsAlong(app.scopeds[path[0]], path[1..], Answer(app, v))))
  }

  // --------------------------------------------------- getState, subscribe

  /**
   * `getState()`: runs the memoized selector on the parent's current state and
   * replaces `selectorState` when the result differs.
   */
  function GetState(app: ScopedApp, parentState: Value): (r: (Value, ScopedApp))
    ensures r.0 == r.1.selectorState
    ensures Consistent(app.sel, app.memo) ==> r.0 == Answer(app, parentState) && Consistent(r.1.sel, r.1.memo)
    ensures Consistent(app.sel, app.memo) && parentState != Undefined ==> r.0 == app.sel(parentState)
    ensures r.1.registrations == app.registrations && Shape(r.1) == Shape(app)
  {
    var m := Memoize(app.sel, app.memo, parentState);
    var st := if app.selectorState != m.result then m.result else app.selectorState;
    (st, app.(memo := m.memo, selectorState := st))
  }

  /**
   * `getState()` of the nested app at `path` below this one (empty: this
   * app).  A nested app's `getParentState` is its parent's `getState`, so
   * every app along the path, from this one down, runs its memoized selector
   * on its parent's fresh answer and stores the result; the apps off the path
   * are untouched.
   */
  function GetStateAt(app: ScopedApp, path: seq<nat>, parentState: Value): (r: (Value, ScopedApp))
    requires ValidPath(app, path)
    ensures Shape(r.1) == Shape(app)
    ensures r.1.registrations == app.registrations && r.1.nextToken == app.nextToken
    ensures path != [] ==> forall j :: 0 <= j < |app.scopeds| && j != path[0] ==> r.1.scopeds[j] == app.scopeds[j]
    decreases |path|
  {
    var g := GetState(app, parentState);
    if path == [] then g
    else
      var i := path[0];
      PathStep(app, path);
      var d := GetStateAt(g.1.scopeds[i], path[1..], g.0);
      ReplaceChildShape(g.1, i, d.1);
      (d.0, g.1.(scopeds := g.1.scopeds[i := d.1]))
  }

  /**
   * A nested `getState()` answers the projection at the end of its path and
   * leaves every app along the path holding its answer, with the caches still
   * consistent and the projection unchanged.
   */
  lemma {:induction false} GetStateAtMeaning(app: ScopedApp, path: seq<nat>, v: Value)
    requires ValidPath(app, path) && ConsistentTree(app)
    ensures var r := GetStateAt(app, path, v);
      && r.0 == Final(app, path, v)
      && ValidPath(r.1, path) && HoldsAlong(r.1, path, v)
      && ConsistentTree(r.1)
      && Answer(r.1, v) == Answer(app, v)
    decreases |path|
  {
    MemoAnswer(app, v);
    var g := GetState(app, v);
    assert Answer(g.1, v) == Answer(app, v);
    if path != [] {
      var i := path[0];
      PathStep(app, path);
      GetStateAtMeaning(app.scopeds[i], path[1..], g.0);
      var d := GetStateAt(g.1.scopeds[i], path[1..], g.0);
      var r := GetStateAt(app, path, v);
      assert r.1.scopeds == app.scopeds[i := d.1];
      assert forall j :: 0 <= j < |r.1.scopeds| ==> ConsistentTree(r.1.scopeds[j]);
      PathStep(r.1, path);
      assert r.1.scopeds[i] == d.1;
    }
  }

  /** Every registration goes through nested apps of this one and has its own token, below `nextToken`. */
  ghost predicate Registered(app: ScopedApp) {
    && (forall i :: 0 <= i < |app.registrations| ==>
          app.registrations[i].token < app.nextToken && ValidPath(app, app.registrations[i].path))
    && (forall i, j :: 0 <= i < j < |app.registrations| ==> app.registrations[i].token != app.registrations[j].token)
  }

  /**
   * `subscribe(listener)` of the app at `path` below this one (empty: this
   * app): one more wrapper on the outermost parent, after the others.
   * Answers the token of the wrapper, which the returned function removes.
   */
  function Subscribe(app: ScopedApp, path: seq<nat>, l: ListenerId): (r: (ScopedApp, nat))
    requires ValidPath(app, path)
    ensures r.0.registrations == app.registrations + [Registration(r.1, path, l)]
    ensures Registered(app) ==> Registered(r.0)
    ensures Registered(app) ==> forall i :: 0 <= i < |app.registrations| ==> app.registrations[i].token != r.1
    ensures r.0.selectorState == app.selectorState && r.0.memo == app.memo && Shape(r.0) == Shape(app)
  {
    var app1 := app.(registrations := app.registrations + [Registration(app.nextToken, path, l)], nextToken := app.nextToken + 1);
    assert Shape(app1) == Shape(app);
    (app1, app.nextToken)
  }

  /** The first position of the registration holding `token`, or -1. */
  function Find(regs: seq<Registration>, token: nat): (r: int)
    ensures -1 <= r < |regs|
    ensures r == -1 <==> forall i :: 0 <= i < |regs| ==> regs[i].token != token
    ensures r >= 0 ==> regs[r].token == token && forall i :: 0 <= i < r ==> regs[i].token != token
    decreases |regs|
  {
    if regs == [] then -1
    else if regs[0].token == token then 0
    else
      var k := Find(regs[1..], token);
      assert forall i :: 1 <= i < |regs| ==> regs[i] == regs[1..][i - 1];
      if k == -1 then -1 else k + 1
  }

  /**
   * The function `subscribe` returns: the parent's unsubscribe of that
   * wrapper, answering whether it was still registered.
   */
  function Unsubscribe(app: ScopedApp, token: nat): (r: (ScopedApp, bool))
    ensures r.1 <==> exists i :: 0 <= i < |app.registrations| && app.registrations[i].token == token
    ensures !r.1 ==> r.0 == app
    ensures r.1 ==> exists i :: 0 <= i < |app.registrations| && app.registrations[i].token == token
                      && r.0.registrations == app.registrations[..i] + app.registrations[i + 1..]
    ensures r.0.selectorState == app.selectorState && Shape(r.0) == Shape(app)
  {
    var i := Find(app.registrations, token);
    if i == -1 then (app, false)
    else
      var app1 := app.(registrations := app.registrations[..i] + app.registrations[i + 1..]);
      assert Shape(app1) == Shape(app);
      (app1, true)
  }

  /**
   * Unsubscribing right after subscribing removes exactly the new wrapper and
   * answers true; a second call answers false and changes nothing.
   */
  lemma SubscribeUnsubscribe(app: ScopedApp, path: seq<nat>, l: ListenerId)
    requires Registered(app) && ValidPath(app, path)
    ensures var (app1, t) := Subscribe(app, path, l);
      && Unsubscribe(app1, t) == (app1.(registrations := app.registrations), true)
      && Unsubscribe(Unsubscribe(app1, t).0, t) == (Unsubscribe(app1, t).0, false)
  {
    var (app1, t) := Subscribe(app, path, l);
    var regs := app1.registrations;
    var n := |app.registrations|;
    assert regs[n].token == t;
    assert forall i :: 0 <= i < n ==> regs[i].token != t;
    assert Find(regs, t) == n;
    assert regs[..n] + regs[n + 1..] == app.registrations;
  }

  // --------------------------------------------------- notification as written

  /**
   * The wrapper of a registration made through the nested app at `path`,
   * called by the parent with `(receivedState, action)`: this app's wrapper
   * runs the memoized selector and, if the result differs from the shared
   * `selectorState`, stores it and calls the next wrapper down the path with
   * it, or the listener at the end of the path.
   */
  function Deliver(app: ScopedApp, path: seq<nat>, l: ListenerId, receivedState: Value, action: Value)
    : (r: (ScopedApp, seq<Call<(Value, Value)>>))
    requires ValidPath(app, path)
    ensures Shape(r.0) == Shape(app)
    ensures r.0.registrations == app.registrations && r.0.nextToken == app.nextToken
    ensures |r.1| <= 1
    decreases |path|
  {
    var m := Memoize(app.sel, app.memo, receivedState);
    var app1 := app.(memo := m.memo);
    assert Shape(app1) == Shape(app);
    if app1.selectorState == m.result then (app1, [])
    else
      var app2 := app1.(selectorState := m.result);
      assert Shape(app2) == Shape(app);
      if path == [] then (app2, [Call(l, (m.result, action))])
      else
        var i := path[0];
        PathStep(app, path);
        var d := Deliver(app2.scopeds[i], path[1..], l, m.result, action);
        ReplaceChildShape(app2, i, d.0);
        (app2.(scopeds := app2.scopeds[i := d.0]), d.1)
  }

  /**
   * A wrapper calls its listener exactly when every app along its path has a
   * new answer, and then with the projection at the end of the path; this
   * app's shared state becomes its answer.
   */
  lemma {:induction false} DeliverMeaning(app: ScopedApp, path: seq<nat>, l: ListenerId, v: Value, action: Value)
    requires ValidPath(app, path) && ConsistentTree(app)
    ensures var r := Deliver(app, path, l, v, action);
      && r.1 == (if ChangedAlong(app, path, v) then [Call(l, (Final(app, path, v), action))] else [])
      && r.0.selectorState == Answer(app, v)
      && r.0.sel == app.sel
      && ConsistentTree(r.0)
    decreases |path|
  {
    MemoAnswer(app, v);
    var m := Memoize(app.sel, app.memo, v);
    if app.selectorState != m.result && path != [] {
      var i := path[0];
      PathStep(app, path);
      DeliverMeaning(app.scopeds[i], path[1..], l, m.result, action);
      var r := Deliver(app, path, l, v, action);
      assert r.0.scopeds == app.scopeds[i := Deliver(app.scopeds[i], path[1..], l, m.result, action).0];
      assert forall j :: 0 <= j < |r.0.scopeds| ==> ConsistentTree(r.0.scopeds[j]);
    }
  }

  /** The parent's notification: every registered wrapper, in registration order. */
  function Broadcast(app: ScopedApp, regs: seq<Registration>, receivedState: Value, action: Value)
    : (r: (ScopedApp, seq<Call<(Value, Value)>>))
    requires forall i :: 0 <= i < |regs| ==> ValidPath(app, regs[i].path)
    ensures Shape(r.0) == Shape(app)
    ensures r.0.registrations == app.registrations && r.0.nextToken == app.nextToken
    ensures |r.1| <= |regs|
    decreases |regs|
  {
    if regs == [] then (app, [])
    else
      var d := Deliver(app, regs[0].path, regs[0].listener, receivedState, action);
      forall i | 0 <= i < |regs[1..]| ensures ValidPath(d.0, regs[1..][i].path) {
        assert regs[1..][i] == regs[i + 1];
        assert ValidPath(app, regs[i + 1].path);
      }
      var rest := Broadcast(d.0, regs[1..], receivedState, action);
      (rest.0, d.1 + rest.1)
  }

  /** Once the shared state holds this app's answer, every wrapper stays silent. */
  lemma {:induction false} BroadcastSilent(app: ScopedApp, regs: seq<Registration>, v: Value, action: Value)
    requires forall i :: 0 <= i < |regs| ==> ValidPath(app, regs[i].path)
    requires Consistent(app.sel, app.memo)
    requires app.selectorState == Answer(app, v)
    ensures Broadcast(app, regs, v, action).1 == []
    ensures Broadcast(app, regs, v, action).0.selectorState == app.selectorState
    decreases |regs|
  {
    if regs != [] {
      MemoAnswer(app, v);
      var m := Memoize(app.sel, app.memo, v);
      BroadcastSilent(app.(memo := m.memo), regs[1..], v, action);
    }
  }

  /**
   * As written, a notification reaches at most the first registration: its
   * wrapper stores the new answer in the shared `selectorState`, so every
   * later wrapper, nested or not, sees no change.
   */
  lemma BroadcastFirstOnly(app: ScopedApp, v: Value, action: Value)
    requires Registered(app) && ConsistentTree(app)
    ensures var regs := app.registrations;
      var r := Broadcast(app, regs, v, action);
      && (regs != [] ==> r.0.selectorState == Answer(app, v))
      && r.1 == (if regs != [] && ChangedAlong(app, regs[0].path, v)
                 then [Call(regs[0].listener, (Final(app, regs[0].path, v), action))]
                 else [])
  {
    var regs := app.registrations;
    if regs != [] {
      DeliverMeaning(app, regs[0].path, regs[0].listener, v, action);
      var d := Deliver(app, regs[0].path, regs[0].listener, v, action);
      MemoAnswer(app, v);
      assert Answer(d.0, v) == Answer(app, v);
      BroadcastSilent(d.0, regs[1..], v, action);
    }
  }

  /**
   * A `getState()` between the parent's change and its notification (for
   * instance from an earlier parent listener) silences every registration.
   */
  lemma GetStateSilencesSubscribers(app: ScopedApp, parentState: Value, action: Value)
    requires Registered(app) && Consistent(app.sel, app.memo)
    ensures var after := GetState(app, parentState).1;
      Broadcast(after, after.registrations, parentState, action).1 == []
  {
    MemoAnswer(app, parentState);
    var after := GetState(app, parentState).1;
    assert Answer(after, parentState) == Answer(app, parentState);
    BroadcastSilent(after, app.registrations, parentState, action);
  }

  /** The counter app of the examples, with a cache for `{ counter: 0 }`. */
  function CounterApp(regs: seq<Registration>): ScopedApp {
    ScopedApp("counter", (s: Value) => Get(s, "counter"), Memo(Obj(map["counter" := Num(0)]), Num(0)), Num(0), regs, |regs|, [])
  }

  /** Two subscribers, one change: the second listener is never called. */
  lemma SecondSubscriberMissesChange()
    ensures var app := CounterApp([Registration(0, [], 1), Registration(1, [], 2)]);
      Broadcast(app, app.registrations, Obj(map["counter" := Num(1)]), Str("INC")).1 == [Call(1, (Num(1), Str("INC")))]
  {
    var app := CounterApp([Registration(0, [], 1), Registration(1, [], 2)]);
    var v := Obj(map["counter" := Num(1)]);
    assert Registered(app);
    assert ConsistentTree(app);
    assert Answer(app, v) == Num(1);
    assert ChangedAlong(app, [], v) && Final(app, [], v) == Num(1);
    BroadcastFirstOnly(app, v, Str("INC"));
  }

  const Todo0: Value := Obj(map["done" := Bool(false)])
  const Todo1: Value := Obj(map["done" := Bool(true)])

  /**
   * An app on `state.todo` with a nested app on its `done`: listener 1
   * subscribed to the app, then listener 2 to the nested app.
   */
  function TodoApp(): ScopedApp {
    var done := ScopedApp("done", (t: Value) => Get(t, "done"), Memo(Todo0, Bool(false)), Bool(false), [], 0, []);
    ScopedApp("todo", (s: Value) => Get(s, "todo"), Memo(Obj(map["todo" := Todo0]), Todo0), Todo0,
      [Registration(0, [], 1), Registration(1, [0], 2)], 2, [done])
  }

  /** The example tree is well formed. */
  lemma TodoAppFacts()
    ensures ValidPath(TodoApp(), [0]) && Registered(TodoApp()) && ConsistentTree(TodoApp())
  {
    var app := TodoApp();
    assert Shape(app).children[0] == Shape(app.scopeds[0]);
    assert ConsistentTree(app.scopeds[0]);
  }

  /** The example's projections after `todo.done` turns true. */
  lemma TodoAppAnswers(v: Value)
    requires v == Obj(map["todo" := Todo1])
    ensures Final(TodoApp(), [], v) == Todo1 && ChangedAlong(TodoApp(), [], v)
    ensures ValidPath(TodoApp(), [0]) && Final(TodoApp(), [0], v) == Bool(true)
  {
    var app := TodoApp();
    TodoAppFacts();
    assert Answer(app, v) == Todo1;
    assert Answer(app.scopeds[0], Todo1) == Bool(true);
  }

  /**
   * The nested subscriber misses its change too: `done` goes from false to
   * true, yet only the app's own listener is called.
   */
  lemma NestedSubscriberMissesChange()
    ensures var app := TodoApp();
      var v := Obj(map["todo" := Todo1]);
      && Final(app, [0], v) == Bool(true) != app.scopeds[0].selectorState
      && Broadcast(app, app.registrations, v, Str("DONE")).1 == [Call(1, (Todo1, Str("DONE")))]
  {
    var app := TodoApp();
    var v := Obj(map["todo" := Todo1]);
    TodoAppFacts();
    TodoAppAnswers(v);
    BroadcastFirstOnly(app, v, Str("DONE"));
  }

  /** The todo app of the examples with no subscribers yet. */
  function QuietTodoApp(): ScopedApp {
    TodoApp().(registrations := [], nextToken := 0)
  }

  /**
   * The state goes from `todo.done` false to true while nobody listens, the
   * nested `done` app's `getState()` refreshes the `todo` app on the way, a
   * listener subscribes to the `todo` app, and the state goes back: the
   * listener hears the return to the first todo.
   */
  lemma NestedGetStateRefreshesParent()
    ensures var a := Obj(map["todo" := Todo0]);
      var b := Obj(map["todo" := Todo1]);
      var g := GetStateAt(QuietTodoApp(), [0], b);
      && g.0 == Bool(true)
      && var s := Subscribe(g.1, [], 1).0;
      Broadcast(s, s.registrations, a, Str("UNDO")).1 == [Call(1, (Todo0, Str("UNDO")))]
  {
    var a := Obj(map["todo" := Todo0]);
    var b := Obj(map["todo" := Todo1]);
    var app := QuietTodoApp();
    TodoAppFacts();
    assert Shape(app) == Shape(TodoApp());
    assert ConsistentTree(app.scopeds[0]);
    assert ConsistentTree(app);
    TodoAppAnswers(b);
    GetStateAtMeaning(app, [0], b);
    var g := GetStateAt(app, [0], b);
    assert g.1.selectorState == Todo1;
    var s := Subscribe(g.1, [], 1).0;
    assert s.registrations == [Registration(0, [], 1)];
    assert Registered(s);
    assert ConsistentTree(s);
    assert Answer(s, a) == Todo0;
    assert ChangedAlong(s, [], a) && Final(s, [], a) == Todo0;
    BroadcastFirstOnly(s, a, Str("UNDO"));
  }

  // --------------------------------------------------- notification corrected

  /**
   * The evidently intended wrapper: the chain hands the projection down to
   * the registration's own wrapper, which remembers what it last delivered
   * (`seen`) and calls its listener whenever the projection differs from it.
   * The shared `selectorState` still follows the answers, for `getState`.
   */
  function DeliverFixed(app: ScopedApp, path: seq<nat>, l: ListenerId, seen: Value, receivedState: Value, action: Value)
    : (r: (ScopedApp, Value, seq<Call<(Value, Value)>>))
    requires ValidPath(app, path)
    ensures Shape(r.0) == Shape(app)
    ensures r.0.registrations == app.registrations && r.0.nextToken == app.nextToken
    decreases |path|
  {
    var m := Memoize(app.sel, app.memo, receivedState);
    var app1 := app.(memo := m.memo, selectorState := m.result);
    assert Shape(app1) == Shape(app);
    if path == [] then
      if seen != m.result then (app1, m.result, [Call(l, (m.result, action))]) else (app1, seen, [])
    else
      var i := path[0];
      PathStep(app, path);
      var d := DeliverFixed(app1.scopeds[i], path[1..], l, seen, m.result, action);
      ReplaceChildShape(app1, i, d.0);
      (app1.(scopeds := app1.scopeds[i := d.0]), d.1, d.2)
  }

  /** A corrected delivery changes no projection of any registration. */
  lemma {:induction false} FinalStable(app: ScopedApp, p: seq<nat>, l: ListenerId, seen: Value, v: Value, action: Value, q: seq<nat>)
    requires ConsistentTree(app) && ValidPath(app, p) && ValidPath(app, q)
    ensures var r := DeliverFixed(app, p, l, seen, v, action).0;
      ValidPath(r, q) && Final(r, q, v) == Final(app, q, v)
    decreases |p|
  {
    var r := DeliverFixed(app, p, l, seen, v, action).0;
    MemoAnswer(app, v);
    assert Answer(r, v) == Answer(app, v);
    if q != [] {
      PathStep(app, q);
      PathStep(r, q);
      var j := q[0];
      var a := Answer(app, v);
      if p != [] && p[0] == j {
        PathStep(app, p);
        FinalStable(app.scopeds[j], p[1..], l, seen, a, action, q[1..]);
      } else {
        assert r.scopeds[j] == app.scopeds[j];
      }
    }
  }

  /**
   * The corrected wrapper delivers the projection at the end of its path
   * exactly when it differs from what it delivered last, and remembers it.
   */
  lemma {:induction false} DeliverFixedMeaning(app: ScopedApp, path: seq<nat>, l: ListenerId, seen: Value, v: Value, action: Value)
    requires ValidPath(app, path) && ConsistentTree(app)
    ensures var r := DeliverFixed(app, path, l, seen, v, action);
      var f := Final(app, path, v);
      && r.1 == f
      && r.2 == (if seen != f then [Call(l, (f, action))] else [])
      && ConsistentTree(r.0)
    decreases |path|
  {
    MemoAnswer(app, v);
    var m := Memoize(app.sel, app.memo, v);
    if path != [] {
      var i := path[0];
      PathStep(app, path);
      DeliverFixedMeaning(app.scopeds[i], path[1..], l, seen, m.result, action);
      var r := DeliverFixed(app, path, l, seen, v, action);
      assert r.0.scopeds == app.scopeds[i := DeliverFixed(app.scopeds[i], path[1..], l, seen, m.result, action).0];
      assert forall j :: 0 <= j < |r.0.scopeds| ==> ConsistentTree(r.0.scopeds[j]);
    }
  }

  /** The corrected notification: every registration in order, each with its own memory. */
  function BroadcastFixed(app: ScopedApp, regs: seq<Registration>, seen: seq<Value>, receivedState: Value, action: Value)
    : (r: (ScopedApp, seq<Value>, seq<Call<(Value, Value)>>))
    requires |seen| == |regs|
    requires forall i :: 0 <= i < |regs| ==> ValidPath(app, regs[i].path)
    ensures |r.1| == |regs| && Shape(r.0) == Shape(app)
    decreases |regs|
  {
    if regs == [] then (app, [], [])
    else
      var d := DeliverFixed(app, regs[0].path, regs[0].listener, seen[0], receivedState, action);
      forall i | 0 <= i < |regs[1..]| ensures ValidPath(d.0, regs[1..][i].path) {
        assert regs[1..][i] == regs[i + 1];
        assert ValidPath(app, regs[i + 1].path);
      }
      var rest := BroadcastFixed(d.0, regs[1..], seen[1..], receivedState, action);
      (rest.0, [d.1] + rest.1, d.2 + rest.2)
  }

  /** The reference: one call per registration whose projection differs from what it last received, in order. */
  ghost function StaleCalls(app: ScopedApp, regs: seq<Registration>, seen: seq<Value>, v: Value, action: Value)
    : seq<Call<(Value, Value)>>
    requires |seen| == |regs|
    requires forall i :: 0 <= i < |regs| ==> ValidPath(app, regs[i].path)
    decreases |regs|
  {
    if regs == [] then []
    else
      var f := Final(app, regs[0].path, v);
      (if seen[0] != f then [Call(regs[0].listener, (f, action))] else [])
        + StaleCalls(app, regs[1..], seen[1..], v, action)
  }

  /** Trees with the same shape and the same projections give the same reference calls. */
  lemma {:induction false} StaleCallsFrame(a: ScopedApp, b: ScopedApp, regs: seq<Registration>, seen: seq<Value>, v: Value, action: Value)
    requires |seen| == |regs| && Shape(a) == Shape(b)
    requires forall i :: 0 <= i < |regs| ==> ValidPath(a, regs[i].path)
    requires forall i :: 0 <= i < |regs| ==> Final(a, regs[i].path, v) == Final(b, regs[i].path, v)
    ensures StaleCalls(a, regs, seen, v, action) == StaleCalls(b, regs, seen, v, action)
    decreases |regs|
  {
    if regs != [] {
      StaleCallsFrame(a, b, regs[1..], seen[1..], v, action);
    }
  }

  /**
   * With per-registration memory, every registration whose projection
   * changed since it last heard is called with it, in registration order,
   * and afterwards each remembers its current projection.
   */
  lemma {:induction false} BroadcastFixedCorrect(app: ScopedApp, regs: seq<Registration>, seen: seq<Value>, v: Value, action: Value)
    requires |seen| == |regs| && ConsistentTree(app)
    requires forall i :: 0 <= i < |regs| ==> ValidPath(app, regs[i].path)
    ensures var r := BroadcastFixed(app, regs, seen, v, action);
      && r.2 == StaleCalls(app, regs, seen, v, action)
      && forall i :: 0 <= i < |regs| ==> r.1[i] == Final(app, regs[i].path, v)
    decreases |regs|
  {
    if regs != [] {
      var d := DeliverFixed(app, regs[0].path, regs[0].listener, seen[0], v, action);
      DeliverFixedMeaning(app, regs[0].path, regs[0].listener, seen[0], v, action);
      forall i | 0 <= i < |regs| ensures Final(d.0, regs[i].path, v) == Final(app, regs[i].path, v) {
        FinalStable(app, regs[0].path, regs[0].listener, seen[0], v, action, regs[i].path);
      }
      BroadcastFixedCorrect(d.0, regs[1..], seen[1..], v, action);
      StaleCallsFrame(d.0, app, regs[1..], seen[1..], v, action);
    }
  }

  /** Two subscribers, one change: with per-registration memory both are called. */
  lemma SecondSubscriberNotifiedWhenFixed()
    ensures var app := CounterApp([Registration(0, [], 1), Registration(1, [], 2)]);
      BroadcastFixed(app, app.registrations, [Num(0), Num(0)], Obj(map["counter" := Num(1)]), Str("INC")).2
        == [Call(1, (Num(1), Str("INC"))), Call(2, (Num(1), Str("INC")))]
  {
    var app := CounterApp([Registration(0, [], 1), Registration(1, [], 2)]);
    var v := Obj(map["counter" := Num(1)]);
    BroadcastFixedCorrect(app, app.registrations, [Num(0), Num(0)], v, Str("INC"));
    assert Final(app, [], v) == Num(1);
  }

  /** With the correction, the nested subscriber hears `done` turn true. */
  lemma NestedSubscriberNotifiedWhenFixed()
    ensures var app := TodoApp();
      BroadcastFixed(app, app.registrations, [Todo0, Bool(false)], Obj(map["todo" := Todo1]), Str("DONE")).2
        == [Call(1, (Todo1, Str("DONE"))), Call(2, (Bool(true), Str("DONE")))]
  {
    var app := TodoApp();
    var v := Obj(map["todo" := Todo1]);
    TodoAppFacts();
    TodoAppAnswers(v);
    BroadcastFixedCorrect(app, app.registrations, [Todo0, Bool(false)], v, Str("DONE"));
  }
}

=== FILE: selectors.dfy ===
/**
 * Selector composition: `createObjectFactory`, `mergeSelectors` and
 * `combineSelectors`.  A merged selector keeps the last results of its input
 * selectors and the last merged value, and re-runs `merge` only when some
 * input result changed (`!==`).  After its first call the input selectors are
 * wrapped in `memoize`.
 */
module Selectors {
  import opened Values
  import opened Memoization

  type Selector = Value -> Value

  // ----------------------------------------------------- createObjectFactory

  /**
   * The object literal `{ k0: values[0], k1: values[1], ... }` the generated
   * factory returns.
   */
  function ObjectFactory(keys: seq<string>, values: seq<Value>): (r: Value)
    ensures r.Obj? && r.props.Keys == set k | k in keys
  {
    Obj(Fields(keys, values))
  }

  /** The literal's properties, written left to right. */
  function Fields(keys: seq<string>, values: seq<Value>): (m: map<string, Value>)
    ensures m.Keys == set k | k in keys
    decreases |keys|
  {
    if keys == [] then map[]
    else
      var n := |keys| - 1;
      assert keys == keys[..n] + [keys[n]];
      Fields(keys[..n], values)[keys[n] := At(values, n)]
  }

  /** A later duplicate key wins; a missing value reads `undefined`. */
  lemma {:induction false} FieldsAt(keys: seq<string>, values: seq<Value>, i: nat)
    requires i < |keys| && keys[i] !in keys[i + 1..]
    ensures keys[i] in Fields(keys, values) && Fields(keys, values)[keys[i]] == At(values, i)
    decreases |keys|
  {
    var n := |keys| - 1;
    if i < n {
      assert keys[n] == keys[i + 1..][n - i - 1];
      assert keys[..n][i + 1..] == keys[i + 1..n];
      assert keys[i + 1..] == keys[i + 1..n] + [keys[n]];
      FieldsAt(keys[..n], values, i);
    }
  }

  /** With distinct keys every key maps to the value at its own position. */
  lemma ObjectFactoryDistinct(keys: seq<string>, values: seq<Value>, i: nat)
    requires Unique(keys)
    requires i < |keys|
    ensures keys[i] in ObjectFactory(keys, values).props
    ensures ObjectFactory(keys, values).props[keys[i]] == At(values, i)
  {
    var tail := keys[i + 1..];
    forall j | 0 <= j < |tail| ensures tail[j] != keys[i] {
      assert tail[j] == keys[i + 1 + j];
    }
    FieldsAt(keys, values, i);
  }

  // ---------------------------------------------------------- mergeSelectors

  /**
   * The variables a merged selector closes over: the last input results
   * (`args`), the last merged value, the memoized input selectors once they
   * exist, and whether `merge` has ever run.
   */
  datatype MergeState = MergeState(args: seq<Value>, lastResult: Value, memos: Option<seq<Memo>>, computed: bool)

  /** `Array(totalSelector)` of holes, no result, selectors not yet memoized. */
  function Start(n: nat): (st: MergeState)
    ensures |st.args| == n && forall i :: 0 <= i < n ==> st.args[i] == Undefined
  {
    MergeState(seq(n, _ => Undefined), Undefined, None, false)
  }

  predicate WellFormed(sels: seq<Selector>, st: MergeState) {
    |st.args| == |sels| && (st.memos.Some? ==> |st.memos.value| == |sels|)
  }

  /** One round of input selectors: plain on the first call, memoized afterwards. */
  function Run(sels: seq<Selector>, memos: Option<seq<Memo>>, state: Value): (r: seq<MemoCall>)
    requires memos.Some? ==> |memos.value| == |sels|
    ensures |r| == |sels|
  {
    seq(|sels|, i requires 0 <= i < |sels| =>
      if memos.None? then MemoCall(sels[i](state), Fresh, true) else Memoize(sels[i], memos.value[i], state))
  }

  function Results(calls: seq<MemoCall>): (r: seq<Value>)
    ensures |r| == |calls| && forall i :: 0 <= i < |r| ==> r[i] == calls[i].result
  {
    seq(|calls|, i requires 0 <= i < |calls| => calls[i].result)
  }

  function Memos(calls: seq<MemoCall>): (r: seq<Memo>)
    ensures |r| == |calls| && forall i :: 0 <= i < |r| ==> r[i] == calls[i].memo
  {
    seq(|calls|, i requires 0 <= i < |calls| => calls[i].memo)
  }

  /** What each input selector returns for `state`. */
  function Apply(sels: seq<Selector>, state: Value): (r: seq<Value>)
    ensures |r| == |sels| && forall i :: 0 <= i < |r| ==> r[i] == sels[i](state)
  {
    seq(|sels|, i requires 0 <= i < |sels| => sels[i](state))
  }

  /** The merged selector as written: `merge` runs only when some result differs from `args`. */
  function MergeCall(sels: seq<Selector>, merge: seq<Value> -> Value, st: MergeState, state: Value): (r: (Value, MergeState))
    requires WellFormed(sels, st)
    ensures WellFormed(sels, r.1) && r.1.memos.Some?
    ensures r.1.args == Results(Run(sels, st.memos, state))
    ensures r.1.computed <==> st.computed || r.1.args != st.args
  {
    var calls := Run(sels, st.memos, state);
    var results := Results(calls);
    var shouldCompute := results != st.args;
    var out := if shouldCompute then merge(results) else st.lastResult;
    (out, MergeState(results, out, Some(Memos(calls)), st.computed || shouldCompute))
  }

  /** The merged selector as evidently intended: `merge` also runs on the first call. */
  function MergeCallFixed(sels: seq<Selector>, merge: seq<Value> -> Value, st: MergeState, state: Value): (r: (Value, MergeState))
    requires WellFormed(sels, st)
    ensures WellFormed(sels, r.1) && r.1.memos.Some? && r.1.computed
    ensures r.1.args == Results(Run(sels, st.memos, state))
  {
    var calls := Run(sels, st.memos, state);
    var results := Results(calls);
    var shouldCompute := !st.computed || results != st.args;
    var out := if shouldCompute then merge(results) else st.lastResult;
    (out, MergeState(results, out, Some(Memos(calls)), true))
  }

  /**
   * What every reachable state satisfies: the memoized selectors agree with
   * the originals, and the stored result is `merge` of the stored inputs once
   * `merge` has run, or the initial holes before.
   */
  ghost predicate Inv(sels: seq<Selector>, merge: seq<Value> -> Value, st: MergeState) {
    && WellFormed(sels, st)
    && (st.memos.Some? ==> forall i :: 0 <= i < |sels| ==> Consistent(sels[i], st.memos.value[i]))
    && (st.computed ==> st.lastResult == merge(st.args))
    && (!st.computed ==> st.lastResult == Undefined && forall i :: 0 <= i < |st.args| ==> st.args[i] == Undefined)
  }

  lemma StartInv(sels: seq<Selector>, merge: seq<Value> -> Value)
    ensures Inv(sels, merge, Start(|sels|))
  {
  }

  /**
   * What each input selector answers in a round, stated from the selectors
   * themselves: its result for `state`, except that a memoized selector that
   * has not yet seen a defined state answers `undefined` for an `undefined`
   * state without running (the cache starts with `lastArg` undefined).
   */
  function Answers(sels: seq<Selector>, memos: Option<seq<Memo>>, state: Value): (r: seq<Value>)
    requires memos.Some? ==> |memos.value| == |sels|
    ensures |r| == |sels|
    ensures memos.None? || state != Undefined ==> r == Apply(sels, state)
  {
    seq(|sels|, i requires 0 <= i < |sels| =>
      if memos.Some? && memos.value[i] == Fresh && state == Undefined then Undefined else sels[i](state))
  }

  /** A round returns the answers, and leaves every memoized selector agreeing with its original. */
  lemma RunResults(sels: seq<Selector>, merge: seq<Value> -> Value, st: MergeState, state: Value)
    requires Inv(sels, merge, st)
    ensures Results(Run(sels, st.memos, state)) == Answers(sels, st.memos, state)
    ensures forall i :: 0 <= i < |sels| ==> Consistent(sels[i], Memos(Run(sels, st.memos, state))[i])
  {
    var calls := Run(sels, st.memos, state);
    var ans := Answers(sels, st.memos, state);
    forall i | 0 <= i < |sels| ensures calls[i].result == ans[i] && Consistent(sels[i], calls[i].memo) {
      if st.memos.None? {
        assert calls[i] == MemoCall(sels[i](state), Fresh, true);
      } else {
        assert calls[i] == Memoize(sels[i], st.memos.value[i], state);
        assert Consistent(sels[i], st.memos.value[i]);
      }
    }
    assert Results(calls) == ans;
  }

  /**
   * The merged selector as written returns `merge` of the current answers,
   * unless `merge` has never run and every answer is `undefined`; on the first
   * call, or on a defined state, the answers are the selectors' results.
   */
  lemma MergeCallCorrect(sels: seq<Selector>, merge: seq<Value> -> Value, st: MergeState, state: Value)
    requires Inv(sels, merge, st)
    ensures Inv(sels, merge, MergeCall(sels, merge, st, state).1)
    ensures var ans := Answers(sels, st.memos, state);
      st.computed || (exists i :: 0 <= i < |sels| && ans[i] != Undefined) ==>
      MergeCall(sels, merge, st, state).0 == merge(ans)
    ensures !st.computed && (forall i :: 0 <= i < |sels| ==> Answers(sels, st.memos, state)[i] == Undefined) ==>
      MergeCall(sels, merge, st, state).0 == Undefined
    ensures st.memos.None? || state != Undefined ==>
      (st.computed || (exists i :: 0 <= i < |sels| && sels[i](state) != Undefined) ==>
       MergeCall(sels, merge, st, state).0 == merge(Apply(sels, state)))
  {
    RunResults(sels, merge, st, state);
    var ans := Answers(sels, st.memos, state);
    if exists i :: 0 <= i < |sels| && ans[i] != Undefined {
      var i :| 0 <= i < |sels| && ans[i] != Undefined;
      if !st.computed {
        assert ans[i] != st.args[i];
      }
    }
    if !st.computed && forall i :: 0 <= i < |sels| ==> ans[i] == Undefined {
      assert ans == st.args;
    }
  }

  /**
   * The corrected selector returns `merge` of the current answers on every
   * call; on the first call, or on a defined state, those are the selectors'
   * results.
   */
  lemma MergeCallFixedCorrect(sels: seq<Selector>, merge: seq<Value> -> Value, st: MergeState, state: Value)
    requires Inv(sels, merge, st)
    ensures Inv(sels, merge, MergeCallFixed(sels, merge, st, state).1)
    ensures MergeCallFixed(sels, merge, st, state).0 == merge(Answers(sels, st.memos, state))
    ensures st.memos.None? || state != Undefined ==>
      MergeCallFixed(sels, merge, st, state).0 == merge(Apply(sels, state))
  {
    RunResults(sels, merge, st, state);
  }

  /**
   * A later call on an `undefined` state, before any defined one, does not run
   * the memoized selectors: a constant selector answers `undefined` there.
   */
  lemma UndefinedAfterFirstCall()
    ensures var sels := [(s: Value) => Num(1)];
      var merge := (vs: seq<Value>) => Arr(vs);
      var (first, st) := MergeCallFixed(sels, merge, Start(1), Obj(map[]));
      && first == Arr([Num(1)])
      && MergeCallFixed(sels, merge, st, Undefined).0 == Arr([Undefined])
  {
    var sels := [(s: Value) => Num(1)];
    assert Results(Run(sels, None, Obj(map[]))) == [Num(1)];
    assert Memos(Run(sels, None, Obj(map[]))) == [Fresh];
    assert Run(sels, Some([Fresh]), Undefined)[0] == Memoize(sels[0], Fresh, Undefined);
    assert Results(Run(sels, Some([Fresh]), Undefined)) == [Undefined];
  }

  /** Input selectors run plainly on the first call and are memoized from the second on. */
  lemma MemoizedAfterFirstCall(sels: seq<Selector>, merge: seq<Value> -> Value, state: Value)
    ensures MergeCall(sels, merge, Start(|sels|), state).1.memos == Some(seq(|sels|, _ => Fresh))
  {
    var calls := Run(sels, None, state);
    assert Memos(calls) == seq(|sels|, _ => Fresh);
  }

  // -------------------------------------------------------- combineSelectors

  /** The merge `combineSelectors` passes: the object factory over the mapping's keys. */
  function FactoryMerge(keys: seq<string>): seq<Value> -> Value {
    vs => ObjectFactory(keys, vs)
  }

  /**
   * `combineSelectors(mapping)` called on `state`, with the mapping given as
   * its keys in `Object.keys` order and the selector under each key.
   */
  function CombineCall(keys: seq<string>, sels: seq<Selector>, st: MergeState, state: Value): (r: (Value, MergeState))
    requires |keys| == |sels| && WellFormed(sels, st)
    ensures WellFormed(sels, r.1)
  {
    MergeCall(sels, FactoryMerge(keys), st, state)
  }

  /** Once some answer is defined, or a result was produced before, a factory merge returns the factory's object of the answers. */
  lemma FactoryMergeCall(sels: seq<Selector>, keys: seq<string>, st: MergeState, state: Value)
    requires Inv(sels, FactoryMerge(keys), st)
    requires st.computed || exists j :: 0 <= j < |sels| && Answers(sels, st.memos, state)[j] != Undefined
    ensures MergeCall(sels, FactoryMerge(keys), st, state).0 == ObjectFactory(keys, Answers(sels, st.memos, state))
  {
    MergeCallCorrect(sels, FactoryMerge(keys), st, state);
  }

  /**
   * Once some key's selector answers a defined value, or a result was produced
   * before, the combined selector returns an object with exactly the mapping's
   * keys, each holding its selector's answer; on the first call, or on a
   * defined state, that answer is the selector's result.
   */
  lemma CombineSelectorsCorrect(keys: seq<string>, sels: seq<Selector>, st: MergeState, state: Value, i: nat)
    requires |keys| == |sels| && Unique(keys)
    requires Inv(sels, FactoryMerge(keys), st)
    requires st.computed || exists j :: 0 <= j < |sels| && Answers(sels, st.memos, state)[j] != Undefined
    requires i < |keys|
    ensures CombineCall(keys, sels, st, state).0.Obj?
    ensures CombineCall(keys, sels, st, state).0.props.Keys == set k | k in keys
    ensures keys[i] in CombineCall(keys, sels, st, state).0.props
    ensures CombineCall(keys, sels, st, state).0.props[keys[i]] == Answers(sels, st.memos, state)[i]
    ensures st.memos.None? || state != Undefined ==> CombineCall(keys, sels, st, state).0.props[keys[i]] == sels[i](state)
  {
    FactoryMergeCall(sels, keys, st, state);
    ObjectFactoryDistinct(keys, Answers(sels, st.memos, state), i);
  }

  /** `combineSelectors` over the corrected `mergeSelectors`, which merges on its first call. */
  function CombineCallFixed(keys: seq<string>, sels: seq<Selector>, st: MergeState, state: Value): (r: (Value, MergeState))
    requires |keys| == |sels| && WellFormed(sels, st)
    ensures WellFormed(sels, r.1) && r.1.computed
  {
    MergeCallFixed(sels, FactoryMerge(keys), st, state)
  }

  /**
   * With the corrected first call, the combined selector returns on every call
   * an object with exactly the mapping's keys, each holding its selector's
   * answer; on the first call, or on a defined state, that is its result.
   */
  lemma CombineSelectorsFixedCorrect(keys: seq<string>, sels: seq<Selector>, st: MergeState, state: Value, i: nat)
    requires |keys| == |sels| && Unique(keys)
    requires Inv(sels, FactoryMerge(keys), st)
    requires i < |keys|
    ensures Inv(sels, FactoryMerge(keys), CombineCallFixed(keys, sels, st, state).1)
    ensures CombineCallFixed(keys, sels, st, state).0.Obj?
    ensures CombineCallFixed(keys, sels, st, state).0.props.Keys == set k | k in keys
    ensures keys[i] in CombineCallFixed(keys, sels, st, state).0.props
    ensures CombineCallFixed(keys, sels, st, state).0.props[keys[i]] == Answers(sels, st.memos, state)[i]
    ensures st.memos.None? || state != Undefined ==> CombineCallFixed(keys, sels, st, state).0.props[keys[i]] == sels[i](state)
  {
    MergeCallFixedCorrect(sels, FactoryMerge(keys), st, state);
    ObjectFactoryDistinct(keys, Answers(sels, st.memos, state), i);
  }

  /** The documented example: `{ counter: 10, someOther: ... }` gives `{ counter: 10, todos: undefined }`. */
  lemma CombineSelectorsExample()
    ensures var sels := [(s: Value) => Get(s, "counter"), (s: Value) => Get(s, "todos")];
      var state := Obj(map["counter" := Num(10), "someOther" := Str("not interesting")]);
      CombineCall(["counter", "todos"], sels, Start(2), state).0 == Obj(map["counter" := Num(10), "todos" := Undefined])
  {
    var sels := [(s: Value) => Get(s, "counter"), (s: Value) => Get(s, "todos")];
    var state := Obj(map["counter" := Num(10), "someOther" := Str("not interesting")]);
    var vs := [Num(10), Undefined];
    assert Results(Run(sels, None, state)) == vs;
    assert ["counter", "todos"][..1] == ["counter"];
    assert Fields(["counter"], vs) == map["counter" := Num(10)];
    assert Fields(["counter", "todos"], vs) == map["counter" := Num(10), "todos" := Undefined];
  }

  /**
   * As written, a first call whose selectors all return `undefined` skips
   * `merge` and returns `undefined`: `combineSelectors({ counter })` applied to
   * `{}` gives `undefined` instead of `{ counter: undefined }`.
   */
  lemma FirstCallSkipsMerge()
    ensures var sels := [(s: Value) => Get(s, "counter")];
      && CombineCall(["counter"], sels, Start(1), Obj(map[])).0 == Undefined
      && CombineCallFixed(["counter"], sels, Start(1), Obj(map[])).0 == Obj(map["counter" := Undefined])
  {
    var sels := [(s: Value) => Get(s, "counter")];
    assert Results(Run(sels, None, Obj(map[]))) == [Undefined];
    assert Fields(["counter"], [Undefined]) == map["counter" := Undefined];
  }
}

=== FILE: signal.dfy ===
/**
 * `CustomSignal`: an ordered listener list with append-only subscription,
 * remove-first-occurrence unsubscription and a dispatch that calls the
 * listeners present when it starts.  Listeners are identified by number; a
 * dispatch is observed as the list of calls it makes.
 */
module CustomSignal {
  import opened Values

  type ListenerId = nat

  datatype Signal = Signal(listeners: seq<ListenerId>)

  /** One listener invocation with the arguments it received. */
  datatype Call<X> = Call(listener: ListenerId, args: X)

  const Empty: Signal := Signal([])

  function HasListeners(s: Signal): (r: bool)
    ensures r <==> exists l :: l in s.listeners
  {
    if |s.listeners| > 0 then assert s.listeners[0] in s.listeners; true else false
  }

  /** `subscribe`: push, with no deduplication. */
  function Subscribe(s: Signal, l: ListenerId): (r: Signal)
    ensures |r.listeners| == |s.listeners| + 1
    ensures r.listeners[..|s.listeners|] == s.listeners && r.listeners[|s.listeners|] == l
    ensures multiset(r.listeners)[l] == multiset(s.listeners)[l] + 1
  {
    assert (s.listeners + [l])[..|s.listeners|] == s.listeners;
    Signal(s.listeners + [l])
  }

  /** `indexOf`: the first position of `l`, or -1. */
  function IndexOf(xs: seq<ListenerId>, l: ListenerId): (r: int)
    ensures -1 <= r < |xs|
    ensures r == -1 <==> l !in xs
    ensures r >= 0 ==> xs[r] == l && l !in xs[..r]
  {
    if |xs| == 0 then -1
    else if xs[0] == l then 0
    else
      var k := IndexOf(xs[1..], l);
      assert xs == [xs[0]] + xs[1..];
      if k == -1 then -1 else assert xs[..k + 1] == [xs[0]] + xs[1..][..k]; k + 1
  }

  /**
   * The function `subscribe` returns: removes the first occurrence of `l` from
   * a copy of the list and answers whether it was present.
   */
  function Unsubscribe(s: Signal, l: ListenerId): (r: (Signal, bool))
    ensures r.1 <==> l in s.listeners
    ensures !r.1 ==> r.0 == s
    ensures r.1 ==> |r.0.listeners| == |s.listeners| - 1
    ensures r.1 ==> multiset(r.0.listeners) == multiset(s.listeners) - multiset{l}
  {
    var i := IndexOf(s.listeners, l);
    if i == -1 then (s, false)
    else
      var xs := s.listeners;
      assert xs == xs[..i] + [xs[i]] + xs[i + 1..];
      (Signal(xs[..i] + xs[i + 1..]), true)
  }

  /** Removing one of two occurrences leaves the other subscribed. */
  lemma UnsubscribeOneOccurrence(s: Signal, l: ListenerId)
    requires multiset(s.listeners)[l] >= 2
    ensures Unsubscribe(s, l).1
    ensures l in Unsubscribe(s, l).0.listeners
  {
    assert l in multiset(s.listeners);
    var r := Unsubscribe(s, l).0;
    assert multiset(r.listeners)[l] >= 1;
  }

  /** Calling the returned function a second time after one subscribe answers false. */
  lemma UnsubscribeTwice(s: Signal, l: ListenerId)
    requires l !in s.listeners
    ensures Unsubscribe(Subscribe(s, l), l).1
    ensures Unsubscribe(Subscribe(s, l), l).0 == s
    ensures !Unsubscribe(Unsubscribe(Subscribe(s, l), l).0, l).1
  {
    var xs := s.listeners + [l];
    assert IndexOf(xs, l) == |s.listeners| by {
      assert xs[..|s.listeners|] == s.listeners;
    }
    assert xs[..|s.listeners|] == s.listeners;
  }

  /** The calls a dispatch makes when no listener reacts: each listener once, in order. */
  function Calls<X>(s: Signal, args: X): (r: seq<Call<X>>)
    ensures |r| == |s.listeners|
    ensures forall i :: 0 <= i < |r| ==> r[i] == Call(s.listeners[i], args)
  {
    seq(|s.listeners|, i requires 0 <= i < |s.listeners| => Call(s.listeners[i], args))
  }

  /** What a listener does to the signal while it runs. */
  datatype Reaction = Nothing | Add(added: ListenerId) | Remove(removed: ListenerId)

  function React(s: Signal, r: Reaction): Signal {
    match r
    case Nothing => s
    case Add(l) => Subscribe(s, l)
    case Remove(l) => Unsubscribe(s, l).0
  }

  /** The signal after the given listeners have reacted in turn. */
  function ReactAll(s: Signal, ls: seq<ListenerId>, react: ListenerId -> Reaction): Signal
    decreases |ls|
  {
    if ls == [] then s else ReactAll(React(s, react(ls[0])), ls[1..], react)
  }

  lemma ReactAllSnoc(s: Signal, ls: seq<ListenerId>, l: ListenerId, react: ListenerId -> Reaction)
    ensures ReactAll(s, ls + [l], react) == React(ReactAll(s, ls, react), react(l))
    decreases |ls|
  {
    if ls != [] {
      assert (ls + [l])[1..] == ls[1..] + [l];
      ReactAllSnoc(React(s, react(ls[0])), ls[1..], l, react);
    }
  }

  /**
   * `dispatch(state, action)`, with listeners that may subscribe or unsubscribe
   * while it runs.  The loop keeps the array it started with and its length;
   * a push lands on that same array only while no removal has replaced it
   * with a copy.  Each listener present at the start is called exactly once,
   * in subscription order, and no other listener is called.
   */
  method Dispatch<X>(s: Signal, args: X, react: ListenerId -> Reaction)
    returns (calls: seq<Call<X>>, after: Signal)
    ensures calls == Calls(s, args)
    ensures after == ReactAll(s, s.listeners, react)
  {
    var listeners := s.listeners;
    var total := |listeners|;
    var current := s;
    var shared := true;
    calls := [];
    var index := 0;
    while index < total
      invariant 0 <= index <= total <= |listeners|
      invariant listeners[..total] == s.listeners
      invariant shared ==> current.listeners == listeners
      invariant calls == Calls(s, args)[..index]
      invariant current == ReactAll(s, s.listeners[..index], react)
    {
      var l := listeners[index];
      calls := calls + [Call(l, args)];
      var before := current;
      match react(l) {
        case Nothing =>
        case Add(m) =>
          current := Subscribe(current, m);
          if shared {
            listeners := listeners + [m];
          }
        case Remove(m) =>
          var res := Unsubscribe(current, m);
          current := res.0;
          if res.1 {
            shared := false;
          }
      }
      assert listeners[..total] == s.listeners;
      assert l == s.listeners[index];
      ReactAllSnoc(s, s.listeners[..index], l, react);
      assert s.listeners[..index + 1] == s.listeners[..index] + [l];
      index := index + 1;
    }
    assert s.listeners[..total] == s.listeners;
    after := current;
  }

  /** The first two arguments of a call, `undefined` where missing. */
  function Forwarded(args: seq<Value>): (r: (Value, Value))
    ensures |args| >= 2 ==> r == (args[0], args[1])
    ensures |args| == 1 ==> r == (args[0], Undefined)
    ensures |args| == 0 ==> r == (Undefined, Undefined)
  {
    (if |args| > 0 then args[0] else Undefined, if |args| > 1 then args[1] else Undefined)
  }

  /** `dispatch(state, action, target, currentTarget)` delivers only `(state, action)`. */
  lemma ExtraArgumentsDropped(state: Value, action: Value, extra: seq<Value>)
    ensures Forwarded([state, action] + extra) == (state, action)
  {
  }
}

=== FILE: states.dfy ===
/**
 * The `states` plugin: a container class decorated with a table of named
 * states.  `is[name]` answers whether the current state satisfies that
 * state's predicate; `to[name](...args)` moves to it when the current state
 * satisfies the predicate of one of the states listed in its `from`, by
 * committing what its `set` returns under the action name `name`.
 */
module States {
  import opened Values
  import opened Container
  import opened CustomSignal

  /** One named state: its predicate, its setter (given the current state and the arguments) and its sources. */
  datatype StateDef = StateDef(test: Value -> Value, setter: (Value, seq<Value>) -> Value, from: seq<string>)

  type StateTable = map<string, StateDef>

  datatype TransitionError =
    | NotATransition(name: string)   // `to[name]` is not a function
    | UnknownState(name: string)     // `options[from]` has no `is` method, so calling it throws

  /** `!!options[name].is(state)`. */
  predicate Holds(table: StateTable, name: string, state: Value)
    requires name in table
  {
    !Falsy(table[name].test(state))
  }

  /** The `is` getters of a container. */
  function Getters(table: StateTable, f: Forest, id: NodeId): (r: map<string, bool>)
    ensures r.Keys == table.Keys
  {
    map name | name in table :: Holds(table, name, StateOf(f, id))
  }

  /**
   * `options` is a plain object, so `options[from]` also finds what it
   * inherits from `Object.prototype`.  Of those, only `constructor` (the
   * function `Object`) has an `is` method: `Object.is(state)`, which is true
   * exactly when the state is undefined.  Every other inherited property has
   * no `is`, so it throws like a missing one.
   */
  predicate Known(table: StateTable, name: string) {
    name in table || name == "constructor"
  }

  /** `!!options[name].is(state)` for a source the lookup resolves. */
  predicate SourceHolds(table: StateTable, name: string, state: Value)
    requires Known(table, name)
  {
    if name in table then Holds(table, name, state) else state == Undefined
  }

  /**
   * `from.some(from => options[from].is(state))`: stops at the first source
   * whose predicate holds; a source the lookup does not resolve throws when
   * it is reached first.
   */
  function Permitted(table: StateTable, from: seq<string>, state: Value): (r: Result<bool, TransitionError>)
    ensures from == [] ==> r == Success(false)
    ensures r.Failure? ==> r.error.name in from && !Known(table, r.error.name)
    decreases |from|
  {
    if from == [] then Success(false)
    else if !Known(table, from[0]) then Failure(UnknownState(from[0]))
    else if SourceHolds(table, from[0], state) then Success(true)
    else Permitted(table, from[1..], state)
  }

  /** The first source at position `i` holds and every source before it is known and does not hold. */
  ghost predicate FirstHeldAt(table: StateTable, from: seq<string>, state: Value, i: int) {
    && 0 <= i < |from| && Known(table, from[i]) && SourceHolds(table, from[i], state)
    && forall j :: 0 <= j < i ==> Known(table, from[j]) && !SourceHolds(table, from[j], state)
  }

  /** The source at position `i` is unresolved and every source before it is known and does not hold. */
  ghost predicate FirstMissingAt(table: StateTable, from: seq<string>, state: Value, i: int) {
    && 0 <= i < |from| && !Known(table, from[i])
    && forall j :: 0 <= j < i ==> Known(table, from[j]) && !SourceHolds(table, from[j], state)
  }

  /** The guard answers true exactly when a source holds before any missing one, and throws exactly when a missing one comes first. */
  lemma {:induction false} PermittedMeaning(table: StateTable, from: seq<string>, state: Value)
    ensures Permitted(table, from, state) == Success(true) <==> exists i :: FirstHeldAt(table, from, state, i)
    ensures Permitted(table, from, state).Failure? <==> exists i :: FirstMissingAt(table, from, state, i)
    ensures Permitted(table, from, state).Failure? ==>
              FirstMissingAt(table, from, state, IndexOf(from, Permitted(table, from, state).error.name))
    decreases |from|
  {
    if from != [] {
      PermittedMeaning(table, from[1..], state);
      var r := Permitted(table, from, state);
      if !Known(table, from[0]) {
        assert FirstMissingAt(table, from, state, 0);
        assert IndexOf(from, from[0]) == 0;
        assert forall i :: !FirstHeldAt(table, from, state, i);
      } else if SourceHolds(table, from[0], state) {
        assert FirstHeldAt(table, from, state, 0);
        assert forall i :: !FirstMissingAt(table, from, state, i);
      } else {
        ShiftFirst(table, from, state);
      }
    }
  }

  /** The position of the first occurrence of `x`, or `|s|`. */
  function IndexOf(s: seq<string>, x: string): (i: nat)
    ensures i <= |s| && (i < |s| ==> s[i] == x) && forall j :: 0 <= j < i ==> s[j] != x
  {
    if s == [] then 0 else if s[0] == x then 0 else 1 + IndexOf(s[1..], x)
  }

  /** When the first source is known and does not hold, the positions in `from` are those in `from[1..]` plus one. */
  lemma ShiftFirst(table: StateTable, from: seq<string>, state: Value)
    requires from != [] && Known(table, from[0]) && !SourceHolds(table, from[0], state)
    ensures forall i :: FirstHeldAt(table, from, state, i) <==> i > 0 && FirstHeldAt(table, from[1..], state, i - 1)
    ensures forall i :: FirstMissingAt(table, from, state, i) <==> i > 0 && FirstMissingAt(table, from[1..], state, i - 1)
    ensures (exists i :: FirstHeldAt(table, from, state, i)) <==> exists i :: FirstHeldAt(table, from[1..], state, i)
    ensures (exists i :: FirstMissingAt(table, from, state, i)) <==> exists i :: FirstMissingAt(table, from[1..], state, i)
    ensures forall x :: x != from[0] ==> IndexOf(from, x) == 1 + IndexOf(from[1..], x)
  {
    forall i | i > 0 && FirstHeldAt(table, from[1..], state, i - 1) ensures FirstHeldAt(table, from, state, i) {
      forall j | 0 < j < i ensures Known(table, from[j]) && !SourceHolds(table, from[j], state) {
        assert from[j] == from[1..][j - 1];
      }
    }
    forall i | i > 0 && FirstMissingAt(table, from[1..], state, i - 1) ensures FirstMissingAt(table, from, state, i) {
      forall j | 0 < j < i ensures Known(table, from[j]) && !SourceHolds(table, from[j], state) {
        assert from[j] == from[1..][j - 1];
      }
    }
    forall i | FirstHeldAt(table, from, state, i) ensures i > 0 && FirstHeldAt(table, from[1..], state, i - 1) {
      forall j | 0 <= j < i - 1 ensures Known(table, from[1..][j]) && !SourceHolds(table, from[1..][j], state) {
        assert from[1..][j] == from[j + 1];
      }
    }
    forall i | FirstMissingAt(table, from, state, i) ensures i > 0 && FirstMissingAt(table, from[1..], state, i - 1) {
      forall j | 0 <= j < i - 1 ensures Known(table, from[1..][j]) && !SourceHolds(table, from[1..][j], state) {
        assert from[1..][j] == from[j + 1];
      }
    }
    if exists i :: FirstHeldAt(table, from[1..], state, i) {
      var i :| FirstHeldAt(table, from[1..], state, i);
      assert FirstHeldAt(table, from, state, i + 1);
    }
    if exists i :: FirstMissingAt(table, from[1..], state, i) {
      var i :| FirstMissingAt(table, from[1..], state, i);
      assert FirstMissingAt(table, from, state, i + 1);
    }
  }

  /**
   * `to[name](...args)`: false without committing when no source holds;
   * otherwise `commit(name, set(state, ...args))`, which answers false when
   * the setter returns the current state.
   */
  function To(f: Forest, id: NodeId, table: StateTable, name: string, args: seq<Value>): (r: Result<(Forest, bool), TransitionError>)
    ensures name !in table ==> r == Failure(NotATransition(name))
    ensures r.Success? && !r.value.1 ==> r.value.0 == f
    ensures r.Success? && r.value.1 <==>
              name in table && Permitted(table, table[name].from, StateOf(f, id)) == Success(true)
              && table[name].setter(StateOf(f, id), args) != StateOf(f, id)
  {
    if name !in table then Failure(NotATransition(name))
    else
      match Permitted(table, table[name].from, StateOf(f, id))
      case Failure(e) => Failure(e)
      case Success(false) => Success((f, false))
      case Success(true) => Success(Commit(f, id, name, table[name].setter(StateOf(f, id), args)))
  }

  /** A transition that answers true leaves the container in the state its setter returned. */
  lemma ToSets(f: Forest, id: NodeId, table: StateTable, name: string, args: seq<Value>)
    requires LawfulPath(f, id)
    requires To(f, id, table, name, args).Success? && To(f, id, table, name, args).value.1
    ensures StateOf(To(f, id, table, name, args).value.0, id) == table[name].setter(StateOf(f, id), args)
  {
    CommitSets(f, id, name, table[name].setter(StateOf(f, id), args));
  }

  /**
   * A transition whose setter lands in a state its own predicate accepts
   * turns that state's `is` getter on.
   */
  lemma ToTurnsGetterOn(f: Forest, id: NodeId, table: StateTable, name: string, args: seq<Value>)
    requires LawfulPath(f, id)
    requires To(f, id, table, name, args).Success? && To(f, id, table, name, args).value.1
    requires Holds(table, name, table[name].setter(StateOf(f, id), args))
    ensures Getters(table, To(f, id, table, name, args).value.0, id)[name]
  {
    ToSets(f, id, table, name, args);
  }

  /**
   * On a root, a transition that answers true notifies the root's listeners
   * last, with the new state and the state's name as the action.
   */
  lemma ToNotifiesRoot(f: Forest, id: NodeId, table: StateTable, name: string, args: seq<Value>)
    requires IsRoot(f, id) && NoRepeats(f.nodes[id].options.broadcaster.listeners)
    requires To(f, id, table, name, args).Success? && To(f, id, table, name, args).value.1
    ensures var v := table[name].setter(StateOf(f, id), args);
            var stored := f.(nodes := f.nodes[id := f.nodes[id].(state := v)]);
            To(f, id, table, name, args).value.0.log
            == f.log + RelayLog(stored, f.nodes[id].options.broadcaster.listeners, name)
               + Notify(id, f.nodes[id].stateChanged, v, name)
  {
    var v := table[name].setter(StateOf(f, id), args);
    RootWriteLog(f, id, v, name, f.(nodes := f.nodes[id := f.nodes[id].(state := v)]));
  }

  // --------------------------------------------------------------- example

  function Is(s: string): Value -> Value {
    v => Bool(v == Str(s))
  }

  function Become(s: string): (Value, seq<Value>) -> Value {
    (v, args) => Str(s)
  }

  /** A door that opens only when closed and closes only when opened. */
  const Door: StateTable := map[
    "opened" := StateDef(Is("opened"), Become("opened"), ["closed"]),
    "closed" := StateDef(Is("closed"), Become("closed"), ["opened"])
  ]

  const ClosedDoor := Forest(map[0 := Node(RootOptions(Empty), Str("closed"), Empty, false, Obj(map[]), map[])], 1, [])

  /** Opening a closed door succeeds and `is.opened` turns on; opening it again answers false and changes nothing. */
  lemma DoorExample()
    ensures To(ClosedDoor, 0, Door, "opened", []).Success?
    ensures var (g, ok) := To(ClosedDoor, 0, Door, "opened", []).value;
            && ok && Getters(Door, g, 0) == map["opened" := true, "closed" := false]
            && To(g, 0, Door, "opened", []) == Success((g, false))
  {
    var f := ClosedDoor;
    assert StateOf(f, 0) == Str("closed");
    assert Permitted(Door, ["closed"], Str("closed")) == Success(true);
    var (g, ok) := To(f, 0, Door, "opened", []).value;
    ToSets(f, 0, Door, "opened", []);
    assert StateOf(g, 0) == Str("opened");
    assert Permitted(Door, ["opened"][1..], Str("opened")) == Success(false);
    assert Permitted(Door, ["closed"], Str("opened")) == Success(false);
  }

  /**
   * As written, a source named `constructor` resolves to `Object` and passes
   * exactly on an undefined state; `toString` resolves to a function without
   * `is` and throws.
   */
  lemma InheritedSources()
    ensures Permitted(map[], ["constructor"], Undefined) == Success(true)
    ensures Permitted(map[], ["constructor"], Str("closed")) == Success(false)
    ensures Permitted(map[], ["toString"], Undefined) == Failure(UnknownState("toString"))
  {
  }

  /** A source misspelled in the table throws once the guard reaches it. */
  lemma MisspelledSourceThrows()
    ensures To(ClosedDoor, 0, map["opened" := StateDef(Is("opened"), Become("opened"), ["closd", "closed"])], "opened", [])
            == Failure(UnknownState("closd"))
  {
  }
}

=== FILE: values.dfy ===
/**
 * JavaScript values as the library sees them, plus the small pieces of
 * object semantics it relies on: truthiness, own enumerable keys, property
 * reads and the `{ ...a, ...b }` spread.  Strict equality `===` is modelled as
 * Dafny value equality.
 */
module Values {

  datatype Option<+T> = None | Some(value: T)

  datatype Result<+T, +E> = Success(value: T) | Failure(error: E) {
    predicate IsFailure() { Failure? }
  }

  /** A JavaScript value.  Numbers are integers (NaN and fractions are not modelled). */
  datatype Value =
    | Undefined
    | Null
    | Bool(b: bool)
    | Num(n: int)
    | Str(s: string)
    | Arr(items: seq<Value>)
    | Obj(props: map<string, Value>)

  /** The values `!v` is true of. */
  predicate Falsy(v: Value) {
    v == Undefined || v == Null || v == Bool(false) || v == Num(0) || v == Str("")
  }

  /** `v !== Object(v)`: everything except arrays and plain objects. */
  predicate IsPrimitive(v: Value) {
    !v.Arr? && !v.Obj?
  }

  /** The own enumerable properties `Object.keys` and spread see. */
  function Own(v: Value): (m: map<string, Value>)
    ensures v.Obj? ==> m == v.props
    ensures !v.Obj? ==> m == map[]
  {
    if v.Obj? then v.props else map[]
  }

  /** `v[k]`, with no prototype chain. */
  function Get(v: Value, k: string): (r: Value)
    ensures k in Own(v) ==> r == Own(v)[k]
    ensures k !in Own(v) ==> r == Undefined
  {
    if v.Obj? && k in v.props then v.props[k] else Undefined
  }

  /** `{ ...a, ...b }`: a fresh object, keys of `b` win. */
  function Spread(a: Value, b: Value): (r: Value)
    ensures r.Obj?
    ensures r.props.Keys == Own(a).Keys + Own(b).Keys
    ensures forall k :: k in Own(b) ==> r.props[k] == Own(b)[k]
    ensures forall k :: k in Own(a) && k !in Own(b) ==> r.props[k] == Own(a)[k]
  {
    Obj(Own(a) + Own(b))
  }

  /** `{ ...s, [k]: a }`. */
  function With(s: Value, k: string, a: Value): (r: Value)
    ensures r.Obj? && k in r.props && r.props[k] == a
    ensures r.props.Keys == Own(s).Keys + {k}
    ensures forall j :: j in Own(s) && j != k ==> r.props[j] == Own(s)[j]
  {
    Obj(Own(s)[k := a])
  }

  /** `vals[i]` on a JavaScript array: `undefined` past the end. */
  function At(vals: seq<Value>, i: nat): (r: Value)
    ensures i < |vals| ==> r == vals[i]
    ensures i >= |vals| ==> r == Undefined
  {
    if i < |vals| then vals[i] else Undefined
  }

  /** An object mapping keys to values, written as an ordered list of entries. */
  datatype Entry<+X> = Entry(key: string, val: X)

  function Keys<X>(es: seq<Entry<X>>): (ks: seq<string>)
    ensures |ks| == |es|
    ensures forall i :: 0 <= i < |es| ==> ks[i] == es[i].key
  {
    if es == [] then [] else [es[0].key] + Keys(es[1..])
  }

  /** The keys of an object, as `Object.keys` lists them, are unique. */
  predicate Unique(keys: seq<string>) {
    forall a, b :: 0 <= a < b < |keys| ==> keys[a] != keys[b]
  }

  /** Object keys are unique. */
  predicate DistinctKeys<X>(es: seq<Entry<X>>) {
    forall i, j :: 0 <= i < j < |es| ==> es[i].key != es[j].key
  }

  /** Decimal rendering of a number key, as `String(n)` does for integers. */
  function NatToString(n: nat): (s: string)
    ensures |s| >= 1
    decreases n
  {
    var d := ["0", "1", "2", "3", "4", "5", "6", "7", "8", "9"][n % 10];
    if n < 10 then d else NatToString(n / 10) + d
  }

  function IntToString(n: int): (s: string)
    ensures |s| >= 1
  {
    if n < 0 then "-" + NatToString(-n) else NatToString(n)
  }

  /** Concatenation regroups; stated once so that large proofs need not search for it. */
  lemma ConcatAssoc<T>(a: seq<T>, b: seq<T>, c: seq<T>)
    ensures a + b + c == a + (b + c)
  {
  }
}
